=== FILE: README.md ===
# The code-verification-and-repair harness, modelled in Dafny

This project models the harness at the centre of the editor extension. The harness takes
source code that a chat model wrote and makes it runnable:

- it cleans the model's reply (`stripMarkdown`);
- it finds out the language (`detectLanguage`);
- it adds a test entry point that calls the first function with a default argument for each
  parameter (`wrapCppFunctionForTest` and `getDefaultValueFromType`);
- for C++ it first replaces every read from `std::cin` with an assignment of a constant
  (`replaceCinWithConst`, with `replaceCinWithConstPlus` as the regular-expression fallback),
  and it puts a block of common `#include` lines in front (`autoAddCommonIncludes`);
- it runs the program in the scratch file of its language (`getTempFilePath`, `runCode`) and
  reads the process's report as a success or a failure.

Around the harness runs the repair loop (`retryWithFeedback`). When a run fails, the loop sends
the model a prompt with the user's keywords, the failing code and the error. It tries again with
the answer, at most four times. `retryWithTimeoutAndFeedback` races the loop against a 30-second
timer. `handleGeneratedCode` keeps the repaired code, or the original code when the loop gives up.
`getModelConfig` decides which model configuration is used.

The Dafny modules follow the pipeline:

- `Text` holds JavaScript's character classes, `trim` and `join`.
- `Sanitize` is the cleaner.
- `Classify` holds language detection and the scratch-file paths.
- `TypeSpacing` is the whitespace normalisation of type texts.
- `Defaults` is the default-value synthesiser.
- `CinRewrite` is the `std::cin` rewrite.
- `Harness` holds the entry-point detection and the drivers.
- `Executor` is `runCode`.
- `Repair` holds the loop, the race, the final handling and the model lookup.

Regular expressions are written out as scanning functions that match the way JavaScript's
`replace` with the `g` flag walks the text.

Some inputs come from outside the model and are parameters:

- **The parsers.** The tree-sitter results are a `Parse`, a function of the cleaned text. It
  holds the first function's name and parameter types, the spans of the C++ expression
  statements in the order of the tree walk, and the first C++ function's declarator facts. The
  C++ harness parses twice: the statement spans are those of the cleaned text, and the
  declarator facts are those of the text after the `std::cin` rewrite (src/tools.js:290-297).
  Since `parse` is an arbitrary function of the cleaned text, and the rewrite is a function of
  it too, one `Parse` value carries both without loss.
- **The process.** It is a function from the command and the program to the report.
- **The chat model.** It is an oracle from the attempt number and the request to the reply.
- **The timer.** It is the winner of the race.
- **The settings.** They are the selected model and the list of custom models.

Three behaviours of the code decide what the model promises:

- **An unsupported language.** The harness returns `undefined` for a language outside the four
  (the switch of src/tools.js:229-409 has no `default:` case). Writing `undefined` to the scratch file
  (src/tools.js:419) throws inside the promise. So `runCode` rejects rather than resolving with
  an unsuccessful result, and the `default:` branch of its command switch is never reached.
- **Oracle errors.** Nothing catches an exception from the request (src/commentToCode.js:48-55).
  It propagates, the loop's promise rejects, and `handleGeneratedCode` rejects as well: the
  editor does not always get code back.
- **A custom model.** A model that is not built in never receives a repair request. The client
  is built first, and it throws for a name outside the built-in table (src/openaiClient.js:44-47),
  before the configuration is looked up. So the `return;` after a missing configuration never
  happens.

## Model

| member | source | states |
|---|---|---|
| Sanitize.DropLeadingColons | src/tools.js:21 | after the colon step, no line starts with a half- or full-width colon, and every character that is not a colon is kept in order |
| Sanitize.PlainPrefixKept | src/tools.js:21 | a stretch in which no line starts with a colon is copied unchanged, colons inside lines included, and the colon step goes on after it |
| Sanitize.ColonRunDropped | src/tools.js:21 | at a line start the whole run of half- and full-width colons is removed |
| Sanitize.LineColonsDropped | src/tools.js:21 | a line made of a colon run and a rest that does not start with a colon becomes that rest, whatever colons it holds |
| Sanitize.InnerColonKept | src/tools.js:21 | only the colon that starts the line goes: `:a:b` becomes `a:b` |
| Sanitize.DropFences | src/tools.js:22 | after the fence step, no three backticks remain; text shorter than a fence is kept, and a first character that is not a backtick stays first |
| Sanitize.StripMarkdown | src/tools.js:20-24 | the cleaned reply has no whitespace at either end and contains no three backticks |
| Sanitize.FencedReplyGivesBody | src/tools.js:20-24 | a reply that is one fenced block with a letter tag gives back its trimmed body |
| Sanitize.CleanCodeUnchanged | src/tools.js:20-24 | trimmed code without backticks and without a line that starts with a colon comes back unchanged |
| Sanitize.StripMarkdownNotIdempotent | src/tools.js:20-24 | cleaning is not idempotent: `" :x"` cleans to `":x"`, which cleans to `"x"` |
| Classify.DetectLanguage | src/tools.js:11-18 | a non-empty editor id is the answer as it is; without one the answer is C++, Python, Java, JavaScript or `unknown` |
| Classify.JavaScriptFenceIsJava | src/tools.js:15-16 | a ```` ```javascript ```` fence is classified as Java when no C++ or Python marker is present, because the Java test matches its prefix first |
| Classify.CppFenceWins | src/tools.js:13 | a ```` ```cpp ```` fence anywhere makes the reply C++ |
| Classify.PythonDefWins | src/tools.js:13-14 | without a C++ marker, `def`, whitespace and a word character anywhere make the reply Python |
| Classify.ImportIsPython | src/tools.js:13-14 | without a C++ marker, `import`, whitespace and any further character on the line make the reply Python |
| Classify.JavaImportIsPython | src/tools.js:14 | `import java.util.List;` is classified as Python, because the Python test runs before the Java one |
| Classify.ClassIsJava | src/tools.js:13-15 | without a C++ or Python marker, `class`, whitespace and a word character make the reply Java |
| Classify.FunctionIsJavaScript | src/tools.js:13-16 | without a C++, Python or Java marker, `function`, whitespace and a word character make the reply JavaScript |
| Classify.ConsoleLogIsJavaScript | src/tools.js:13-16 | without a C++, Python or Java marker, `console.log` makes the reply JavaScript |
| Classify.UnknownOnlyWithoutMarkers | src/tools.js:11-18 | without an id, the answer is `unknown` exactly when none of the four languages' markers occurs |
| Classify.TempFilePath | src/tools.js:26-35 | every scratch path is the base path followed by one of `.py`, `.js`, `.cpp`, `.java` and `.txt`, and it is `.txt` exactly for a language outside the four |
| Classify.ScratchFileNames | src/tools.js:28-34 | Python, JavaScript, C++ and Java get `.py`, `.js`, `.cpp` and `.java` after the base path, and every other language gets `.txt` |
| Classify.TempFilePathsDistinct | src/tools.js:26-35 | the four supported languages have four different scratch files; all other languages share the `.txt` file |
| TypeSpacing.Normalize | src/tools.js:39-44 | the normal form of a type is never longer than the type; what it looks like is stated by `NormalizeIsNormal`, `NormalizeIdempotent`, `NormalizeSolid` and `NormalizeKeepsChar` |
| TypeSpacing.NormalizeIsNormal | src/tools.js:39-44 | after normalisation, the text is trimmed, no whitespace touches `<`, `>`, `*` or `,`, and every whitespace run is one plain space |
| TypeSpacing.NormalizeIdempotent | src/tools.js:39-44 | normalising twice gives the same text as normalising once |
| TypeSpacing.NormalizeSolid | src/tools.js:39-44 | normalisation keeps the characters that are not whitespace, in order |
| TypeSpacing.NormalizeKeepsChar | src/tools.js:39-44 | a character that is not whitespace occurs in the normalised type exactly when it occurs in the type |
| Defaults.DefaultValue | src/tools.js:37-74 | a missing type gives `0`, and every result is one of the literals the synthesiser writes (a scalar, a construction, or a pair of equal literals) |
| Defaults.Decide | src/tools.js:45-73 | the rule chain on a normalised type gives one of the literals the synthesiser writes; each rule is stated by `ScalarRules`, `PointerRules`, `ContainerRule`, `FallThroughZero` and `ClassTypeConstructs` |
| Defaults.ScalarNamesExclusive | src/tools.js:48-51 | the integer, float, string and bool name tests never hold of the same lowered type, so their order decides nothing |
| Defaults.ScalarRules | src/tools.js:45-51 | on the lowered normal form, an integer name gives `1`, `float`/`double` gives `1.0`, `string`/`std::string`/`str` (Java's `String` too) gives `"test"`, and exactly `bool`/`boolean` gives `false` |
| Defaults.PointerRules | src/tools.js:55-61 | when no scalar name applies and the type holds a `*`: a type ending in `char*` in any case gives `"test"`, a capitalised name ending in `*` gives `new` and the name with its first `*` removed and `()`, any other gives `nullptr` |
| Defaults.ContainerRule | src/tools.js:63-67 | when no scalar name and no `*` applies, a vector type or a type ending in `[digits]` gets the pair of its element type's default |
| Defaults.FallThroughZero | src/tools.js:69-73 | a type that no scalar, pointer, container or class rule claims gets `0` |
| Defaults.LowerWordZero | src/tools.js:48-73 | a one-word type starting with a lower-case letter outside `ilsfdb`, without `*` or `<` and not ending in `]`, gets `0` |
| Defaults.IntArrayPair | src/tools.js:63-67 | `int[]` gets `{1, 1}` |
| Defaults.SpacingIrrelevant | src/tools.js:37-45 | a type and its normalisation get the same default |
| Defaults.IntegerFirstWord | src/tools.js:48 | a type whose first word is `int`, `long` or `short` gets `1` whatever follows, arrays and pointers included |
| Defaults.PointerRuleFirst | src/tools.js:55-61 | when no scalar name applies, a `*` anywhere decides the default through the pointer rule, even inside a vector |
| Defaults.NullptrOnlyForPointers | src/tools.js:55-61 | `nullptr` is only the default of a type that holds a `*` |
| Defaults.NestedVectorsFlatten | src/tools.js:63-67 | a vector nested to any depth around a plain element gets the same `{v, v}` as one level |
| Defaults.ClassTypeConstructs | src/tools.js:69-71 | a capitalised name that no other rule claims is constructed as `Name()` |
| Defaults.ClassPointerConstructs | src/tools.js:57-59 | a pointer to a capitalised name is `new Name()` |
| Defaults.DebugTable | src/tools.js:274-288 | each type in the table the C++ case prints gets the value listed for it |
| CinRewrite.ReplaceCinWithConst | src/tools.js:150-194 | the parser's reading statements are replaced by their assignments, and the fallback rewrite runs when none gives an edit; stated by `ReadsReplacedInPlace`, `SingleReadReplaced` and `NoCinUnchanged` |
| CinRewrite.ReplaceCinWithConstPlus | src/tools.js:197-201 | scanning from the front, a read statement becomes its assignments joined by spaces, the text before it is kept and the text after it is rewritten in turn; stated by `ReadInContext`, `ReadStatementReads`, `FallbackRewritesRead` and `NoCinUnchanged` |
| CinRewrite.SortReversesDocumentOrder | src/tools.js:183 | sorting edits that come in document order by descending start puts them in reverse order |
| CinRewrite.ApplyBackToFrontIsSplice | src/tools.js:184-189 | applying edits from the back, each to the text the previous ones left, puts every replacement where its span was in the original code |
| CinRewrite.ReadsReplacedInPlace | src/tools.js:150-194 | when the statements come in document order and some read from `std::cin`, the result is the original code with each such statement replaced in place |
| CinRewrite.EditForRead | src/tools.js:157-171 | a statement `std::cin >> a >> b;` gets one assignment line per variable read, over its own span |
| CinRewrite.SingleReadReplaced | src/tools.js:150-194 | in code with one reading statement, that statement becomes its assignments and the code around it is kept |
| CinRewrite.ChainTargets | src/tools.js:162 | the targets collected from a `>> a >> b` chain are its variables, in order |
| CinRewrite.ReadStatementReads | src/tools.js:198 | the fallback pattern matches a whole read statement and captures its variables |
| CinRewrite.FallbackRewritesRead | src/tools.js:197-201 | the fallback rewrite turns a read statement into its assignments, joined by spaces |
| CinRewrite.ReadInContext | src/tools.js:197-201 | a read statement with any whitespace around each `>>` and before its `;`, after text that does not mention `std::cin`, becomes its assignments joined by spaces; the text before it is kept, and the text after it is rewritten as if it stood alone |
| CinRewrite.NoCinUnchanged | src/tools.js:150-201 | code that never mentions `std::cin` comes back unchanged, whatever the parser reports |
| Harness.CallName | src/tools.js:97 | the called name is never empty, and it is the parsed name whenever that name is not empty |
| Harness.TypedArgs | src/tools.js:90-95 | there is one argument per parameter, the default of its type, or of `int` when it has none |
| Harness.JavaScriptArgs | src/tools.js:137-142 | there is one `"test"` argument per JavaScript parameter |
| Harness.PythonUnannotatedArgs | src/tools.js:93 | Python parameters without annotations each get `1` |
| Harness.WrapForTest | src/tools.js:229-409 | a language outside the four gives `undefined` and only it does; a wrapped Python, JavaScript or Java program starts with the code |
| Harness.KeptIff | src/tools.js:233-270 | Python, JavaScript and Java code is returned unchanged exactly when its entry point is found or the parser finds no function |
| Harness.PythonMainHasEntry | src/tools.js:234-243 | the Python driver holds the `if __name__ == "__main__"` guard that the entry test looks for |
| Harness.JavaScriptMainHasEntry | src/tools.js:247-253 | the JavaScript driver holds the `console.log(` that the entry test looks for |
| Harness.JavaMainHasEntry | src/tools.js:257-269 | the Java driver holds the `public static void main(` that the entry test looks for |
| Harness.WrapIdempotent | src/tools.js:233-270 | wrapping a wrapped Python, JavaScript or Java program again leaves it unchanged |
| Harness.CppMainKept | src/tools.js:290-293 | C++ code that reads nothing from `std::cin` and already has a `main` is returned unchanged |
| Harness.CppArgsThrowIff | src/tools.js:346-366 | the typed C++ arguments fail exactly when some parameter's normalised type is `char*` |
| Harness.CppArgsDefaults | src/tools.js:349-365 | each typed C++ argument is the default of its parameter's type as written |
| Harness.ThrowsIff | src/tools.js:229-409 | the harness throws exactly for a Python function without a parameter list and for a C++ function with a `char*` parameter in code that has no `main` after the rewrite |
| Harness.SplitJoin | src/tools.js:378 | joining the comma split of a text with commas gives the text back |
| Harness.JoinSplit | src/tools.js:378 | splitting the comma join of parts without commas gives the parts back |
| Harness.FallbackOnePerParameter | src/tools.js:373-383 | a function whose parameter group holds non-blank comma items gets one `1` per item |
| Harness.FallbackBlankGroup | src/tools.js:376-377 | a function whose first parenthesised group is blank gets no fallback arguments |
| Harness.AutoAddCommonIncludes | src/tools.js:203-225 | the code with headers ends with the code itself |
| Harness.IncludesEveryHeader | src/tools.js:203-225 | the code with headers holds the `#include` line of every common header and ends with an empty line followed by the code |
| Executor.ClassifyRun | src/tools.js:441-450 | the run succeeds exactly when there is no error or its exit code is `0`; a success carries standard output; a failure carries standard error when it is not empty, and the error's message otherwise |
| Executor.ExitZeroSucceeds | src/tools.js:445-448 | a process that exits with `0` succeeds with its standard output, even when it wrote to standard error |
| Executor.FailureMessage | src/tools.js:446 | a failure's message is empty exactly when both standard error and the error's message are empty |
| Executor.Command | src/tools.js:421-436 | there is a command exactly for the four supported languages; `CommandNamesFile` and `JavaCommandRunsClass` state what each runs |
| Executor.CommandNamesFile | src/tools.js:421-436 | every supported language has a command, and the command names the scratch file |
| Executor.JavaCommandRunsClass | src/tools.js:434-435 | the Java command compiles `dir/Name.java` and runs class `Name` with `dir` as class path |
| Executor.RunCode | src/tools.js:414-452 | `runCode` rejects for a language outside the four |
| Executor.RunCodeResolvesIff | src/tools.js:414-452 | `runCode` resolves exactly when the harness gives a program, and then it gives the classification of that program's run |
| Repair.SelectedModel | src/openaiClient.js:31-34 | the selected model is the setting when the setting exists, and `deepseek-chat` when it does not |
| Repair.UnsetSettingAsksDeepSeek | src/openaiClient.js:31-34 | with no setting, the model is the built-in `deepseek-chat`, and each repair request names it |
| Repair.BuiltinConfig | src/openaiClient.js:9-25 | exactly `deepseek-chat`, `gpt-4` and `gpt-3.5` are built in, each with a model name |
| Repair.GetModelConfig | src/commentToCode.js:15-32 | a configuration found is the built-in one of the selected name or that of a custom model with that name; the order is stated by `GetModelConfigOrder` |
| Repair.FindCustom | src/commentToCode.js:26 | the custom entry found is the first with the selected name, and none is found only when no entry has that name |
| Repair.GetModelConfigOrder | src/commentToCode.js:15-32 | a built-in model shadows custom ones; otherwise the first custom model of that name is used; there is none exactly when neither exists |
| Repair.FeedbackPrompt | src/commentToCode.js:39 | the repair prompt; what it carries is stated by `PromptCarries` |
| Repair.PromptCarries | src/commentToCode.js:39 | the repair prompt holds the keywords, the failing code fenced with its language tag, and the error message |
| Repair.Loop | src/commentToCode.js:34-69 | a session runs at most one code per remaining attempt, has as many prompts as runs or one fewer, and starts by running the code it was given; that each prompt follows a failed run and each later run is the answer to it is stated by `PromptsDescribeFailures` and `RunsFollowAnswers` |
| Repair.Attempt | src/commentToCode.js:36-56 | an attempt never ends in `undefined`, and it ends resolved only with the code that was run, when that run passed, with the run's output |
| Repair.RetryDescribesFailure | src/commentToCode.js:37-39 | an attempt that goes on had a failed run, and the prompt it sends holds that code and that run's error message |
| Repair.FailingStep | src/commentToCode.js:36-66 | after a failed run that a built-in model answers with content, the prompt describes that run's code and error, the next candidate is the trimmed content of the answer to it, and the session is this run and prompt followed by the session of the next attempt on that candidate |
| Repair.PromptedRetries | src/commentToCode.js:34-66 | a session that sent any prompt had attempts left, had code, and went on after its first attempt |
| Repair.NeverUndefined | src/commentToCode.js:41-46 | the loop never returns `undefined`: a model that is not built in makes the client throw first |
| Repair.PassedIsLastRun | src/commentToCode.js:36-38 | a session that passes ends with the code that passed; that run succeeded with the output reported, and every earlier run has a prompt |
| Repair.PromptsDescribeFailures | src/commentToCode.js:36-56 | each prompt of a session holds the code of the run before it and the message that run failed with |
| Repair.RunsFollowAnswers | src/commentToCode.js:48-66 | every run after the first runs the trimmed content of the model's answer to the prompt before it |
| Repair.GivesUpAfterAllAttempts | src/commentToCode.js:34-69 | when every run fails and a built-in model always answers, the loop runs and prompts once per attempt and then gives up; with attempts left at the start, the code it gives up with is the trimmed answer to its last prompt, and with none it is the code it was given |
| Repair.GaveUpOnLastAnswer | src/commentToCode.js:56-68 | whatever the runs, a session that gave up after sending a prompt gave up with the trimmed answer to its last prompt |
| Repair.CustomModelRejects | src/commentToCode.js:41 | with a model that is not built in, the first failed run rejects the loop |
| Repair.RetryWithFeedback | src/commentToCode.js:34-69 | the loop with a mutable attempt counter and candidate returns what the session gives |
| Repair.RetryWithTimeout | src/commentToCode.js:71-84 | when the timer wins, the result is a failure that keeps the original code; otherwise it is the loop's result |
| Repair.HandleGeneratedCode | src/commentToCode.js:86-97 | handling detects the language and then is `HandleIn`; in the extension a language outside the four rejects, stated by `UnsupportedLanguageRejects` |
| Repair.HandleIn | src/commentToCode.js:88-96 | the code kept after the race; stated by `HandleKeepsPassingCode` and `HandleRejectsOnlyWithLoop` |
| Repair.HandleKeepsPassingCode | src/commentToCode.js:86-97 | when the timer wins, or the loop gives up, the code kept is the generated code; when the loop passes, it is the code of the last run, which succeeded |
| Repair.HandleRejectsOnlyWithLoop | src/commentToCode.js:86-97 | handling rejects exactly when the loop wins the race and rejects |
| Repair.UnsupportedLanguageRejects | src/commentToCode.js:86-97 | in the extension, a reply in a language outside the four makes the first run reject, so the session is that one run and handling rejects when the loop wins the race |

## Left out

- The tree-sitter parsers are not modelled. What they report (names, parameter types,
  statement spans, the C++ declarator facts) is an input.
- Writing the scratch file and starting the process are not modelled. The process's report
  is an input. The `base` parameter stands for `path.join(__dirname, 'temp_code')`, so with
  `/`-separated paths the Java class that is run is `temp_code`.
- The timer of `withTimeout` is not modelled. The winner of the race is an input.
- The chat client and the network are not modelled. The reply is an input. The API keys that
  come from the environment are left out, and so are the checks the client constructor makes
  on them.
- Editor messages, console logging and the printing of the type table are not modelled. The
  values in the printed table are stated by `Defaults.DebugTable`.
- `extension.js`, `aiChatCodeGen.mjs` and `generateCodeFromComment` are outside the harness and
  are not part of this model.
- In `getModelConfig`, names such as `constructor` would find a member of `Object.prototype`.
  That case is not modelled: only the three built-in names have a configuration.
- Lower-casing is modelled on the ASCII letters only. Every comparison made after lowering is
  against ASCII keywords, so full Unicode lowering decides the same cases.
- The constant for `std::cin` reads is modelled as its text. The harness always passes `1`.
- Defaults.NestedVectorsFlatten: stated only for an element without whitespace or type syntax.
- CinRewrite.SortDescending: the sort is modelled as a stable insertion sort, as the engine's
  sort is. Only its effect on edits in document order is stated.
- CinRewrite.ReadsReplacedInPlace: stated for statements that do not nest, reported in document
  order. Nested expression statements (a lambda body inside a statement) are not covered.
- Harness.WrapIdempotent: stated for Python, JavaScript and Java only. C++ wrapping rewrites
  `std::cin` reads and adds headers, and its idempotence is not stated.
- Harness.FallbackOnePerParameter: stated for a group whose items are non-blank. Blank items
  between commas are dropped by the filter, and that case is stated only for an all-blank group.
- Executor.Command: paths are modelled with `/` separators, as Node's `path` module treats them
  on POSIX systems. On Windows `path.join` gives `\` separators, and the class path and class
  name that `path.dirname` and `path.basename` give there are not modelled.
- Executor.RunCode: the `default:` branch of its command switch is not modelled. The file write
  before it throws for every language outside the four, so the branch is never reached.
- Repair.Loop: a reply whose first choice or message is missing yields `undefined` as the next
  code, and the next run rejects on it. A reply whose content is `null`, or a request that
  fails, rejects at once.
- Repair.Loop: the `output` field of the failure result (src/commentToCode.js:68) is not
  modelled. It is always the constant `' '`, and no caller in the harness reads it.
- Repair.RetryWithTimeout: the `output` field of the timeout result (src/commentToCode.js:79)
  is not modelled, for the same reason.
- CinRewrite.ReadInContext: stated when the text before the read statement does not mention
  `std::cin` at all. Text before it that mentions `std::cin` without forming a read statement is
  copied by the same definition, but that case is not stated.

=== FILE: cinrewrite.dfy ===
/**
 The C++ input rewriter (`replaceCinWithConst`, with `replaceCinWithConstPlus` as its fallback):
 every statement that reads from `std::cin` becomes assignments of a fixed value, so that the
 generated program runs without input.
 */
module CinRewrite {
  import opened Wrappers
  import opened Text

  /** Where one `expression_statement` node the C++ parser reports starts and ends in the code. */
  datatype Span = Span(start: nat, end: nat)

  /** One replacement: the code between `start` and `end` becomes `replacement`. */
  datatype Edit = Edit(start: nat, end: nat, replacement: string)

  /** `String.prototype.slice(a, b)` for offsets that are not negative: clamped to the text. */
  function Slice(s: string, a: nat, b: nat): (r: string)
    ensures a <= b <= |s| ==> r == s[a..b]
    ensures |r| <= |s|
  {
    var x := if a <= |s| then a else |s|;
    var y := if b <= |s| then b else |s|;
    if x <= y then s[x..y] else ""
  }

  /** The end of the run of `\w` characters starting at `i`. */
  function WordEnd(s: string, i: nat): (j: nat)
    requires i <= |s|
    ensures i <= j <= |s|
    ensures forall k | i <= k < j :: IsWordChar(s[k])
    ensures j == |s| || !IsWordChar(s[j])
    decreases |s| - i
  {
    if i < |s| && IsWordChar(s[i]) then WordEnd(s, i + 1) else i
  }

  /** A non-empty run of `\w` characters. */
  predicate IsWord(w: string) {
    |w| > 0 && forall k | 0 <= k < |w| :: IsWordChar(w[k])
  }

  /** `[a-zA-Z_][a-zA-Z0-9_]*`. */
  predicate IsIdentifier(w: string) {
    IsWord(w) && !IsDigit(w[0])
  }

  // The captures of `>>\s*(\w+)` under the `g` flag, scanning `s` from `i`.
  function TargetsFrom(s: string, i: nat): (r: seq<string>)
    requires i <= |s|
    ensures forall k | 0 <= k < |r| :: IsWord(r[k])
    decreases |s| - i
  {
    if i == |s| then []
    else if At(s, i, ">>") then
      var b := SkipSpaces(s, i + 2);
      var c := WordEnd(s, b);
      if b < c then [s[b..c]] + TargetsFrom(s, c) else TargetsFrom(s, i + 1)
    else TargetsFrom(s, i + 1)
  }

  /** Each variable `v` as the statement `v = value;`. */
  function Assign(vars: seq<string>, value: string): (r: seq<string>)
    ensures |r| == |vars|
    ensures forall k | 0 <= k < |r| :: r[k] == vars[k] + " = " + value + ";"
  {
    if vars == [] then [] else [vars[0] + " = " + value + ";"] + Assign(vars[1..], value)
  }

  /** The edit for one statement: one assignment per line for its reads, if it reads from `std::cin`. */
  function EditFor(code: string, sp: Span, value: string): (r: Option<Edit>)
    ensures r.Some? ==> r.value.start == sp.start && r.value.end == sp.end
    ensures r.Some? ==> Contains(Slice(code, sp.start, sp.end), "std::cin")
  {
    var text := Slice(code, sp.start, sp.end);
    var vars := TargetsFrom(text, 0);
    if Contains(text, "std::cin") && Contains(text, ">>") && |vars| > 0 then
      Some(Edit(sp.start, sp.end, Join(Assign(vars, value), "\n")))
    else None
  }

  /** The edits of the statements, in the order the walk meets them. */
  function Edits(code: string, spans: seq<Span>, value: string): (r: seq<Edit>)
    ensures |r| <= |spans|
  {
    if spans == [] then []
    else
      (match EditFor(code, spans[0], value) case Some(e) => [e] case None => [])
      + Edits(code, spans[1..], value)
  }

  /** Edits listed with later starts first. */
  predicate Descending(es: seq<Edit>) {
    forall i, j | 0 <= i < j < |es| :: es[i].start >= es[j].start
  }

  /** The stable sort's insertion step: `e` goes before the first edit that starts no later. */
  function Insert(e: Edit, es: seq<Edit>): (r: seq<Edit>)
    requires Descending(es)
    ensures Descending(r)
    ensures multiset(r) == multiset(es) + multiset{e}
    ensures forall k | 0 <= k < |r| :: r[k] == e || r[k] in es
  {
    if es == [] || es[0].start <= e.start then [e] + es
    else
      var t := Insert(e, es[1..]);
      var r := [es[0]] + t;
      InsertBehind(e, es, t, r);
      r
  }

  /** An edit that starts later than `e` stays in front of the list `e` went into. */
  lemma InsertBehind(e: Edit, es: seq<Edit>, t: seq<Edit>, r: seq<Edit>)
    requires es != [] && r == [es[0]] + t
    ensures (&& Descending(es) && e.start < es[0].start && Descending(t)
             && multiset(t) == multiset(es[1..]) + multiset{e}
             && forall k | 0 <= k < |t| :: t[k] == e || t[k] in es[1..])
            ==> (&& Descending(r) && multiset(r) == multiset(es) + multiset{e}
                 && forall k | 0 <= k < |r| :: r[k] == e || r[k] in es)
  {
    if && Descending(es) && e.start < es[0].start && Descending(t)
       && multiset(t) == multiset(es[1..]) + multiset{e}
       && forall k | 0 <= k < |t| :: t[k] == e || t[k] in es[1..] {
      BehindBound(e, es, t);
      ConsDescending(es[0], t);
      ConsKeepsContents(e, es, t, r);
    }
  }

  /** What went into the tail starts no later than the head it stays behind. */
  lemma BehindBound(e: Edit, es: seq<Edit>, t: seq<Edit>)
    requires es != [] && Descending(es) && e.start < es[0].start
    requires forall k | 0 <= k < |t| :: t[k] == e || t[k] in es[1..]
    ensures forall k | 0 <= k < |t| :: t[k].start <= es[0].start
  {
    forall k | 0 <= k < |t| ensures t[k].start <= es[0].start {
      if t[k] != e {
        var j :| 0 <= j < |es[1..]| && es[1..][j] == t[k];
        assert es[j + 1] == t[k];
      }
    }
  }

  /** Putting the head back in front of the tail with `e` gives the list with `e`. */
  lemma ConsKeepsContents(e: Edit, es: seq<Edit>, t: seq<Edit>, r: seq<Edit>)
    requires es != [] && r == [es[0]] + t
    requires multiset(t) == multiset(es[1..]) + multiset{e}
    requires forall k | 0 <= k < |t| :: t[k] == e || t[k] in es[1..]
    ensures multiset(r) == multiset(es) + multiset{e}
    ensures forall k | 0 <= k < |r| :: r[k] == e || r[k] in es
  {
    HeadTail(es);
    assert forall k | 1 <= k < |r| :: r[k] == t[k - 1];
  }

  lemma ConsDescending(x: Edit, t: seq<Edit>)
    requires Descending(t)
    requires forall k | 0 <= k < |t| :: t[k].start <= x.start
    ensures Descending([x] + t)
  {
    var r := [x] + t;
    assert forall k | 0 < k < |r| :: r[k] == t[k - 1];
  }

  /** `edits.sort((a, b) => b.start - a.start)`. */
  function SortDescending(es: seq<Edit>): (r: seq<Edit>)
    ensures Descending(r)
    ensures multiset(r) == multiset(es)
  {
    if es == [] then []
    else
      assert es == [es[0]] + es[1..];
      Insert(es[0], SortDescending(es[1..]))
  }

  /** The edits applied one after another, each to the text the previous ones left. */
  function ApplyAll(code: string, es: seq<Edit>): string
    decreases |es|
  {
    if es == [] then code
    else ApplyAll(Slice(code, 0, es[0].start) + es[0].replacement + Slice(code, es[0].end, |code|), es[1..])
  }

  /**
   The code rebuilt left to right from `pos`: the text up to each edit kept, the edit's span
   replaced, then the text after the last edit.
   */
  function Splice(code: string, pos: nat, asc: seq<Edit>): string
    decreases |asc|
  {
    if asc == [] then Slice(code, pos, |code|)
    else Slice(code, pos, asc[0].start) + asc[0].replacement + Splice(code, asc[0].end, asc[1..])
  }

  function Reverse<T>(s: seq<T>): (r: seq<T>)
    ensures |r| == |s|
    ensures forall k | 0 <= k < |s| :: r[k] == s[|s| - 1 - k]
  {
    if s == [] then [] else Reverse(s[1..]) + [s[0]]
  }

  /** Slicing a prefix that covers the slice is slicing the whole text. */
  lemma SlicePrefix(code: string, m: nat, a: nat, b: nat)
    requires b <= m <= |code|
    ensures Slice(code[..m], a, b) == Slice(code, a, b)
  {
  }

  /** Edits that do not overlap, inside a text of length `n`, the later ones first. */
  predicate BackToFront(es: seq<Edit>, n: nat) {
    && (forall k | 0 <= k < |es| :: es[k].start <= es[k].end <= n)
    && (forall i, j | 0 <= i < j < |es| :: es[j].end <= es[i].start)
  }

  /** Edits that do not overlap and are not empty, inside a text of length `n`, in document order. */
  predicate FrontToBack(es: seq<Edit>, n: nat) {
    && (forall k | 0 <= k < |es| :: es[k].start < es[k].end <= n)
    && (forall i, j | 0 <= i < j < |es| :: es[i].end <= es[j].start)
  }

  /** Edits confined to the front `x` of a text never touch what follows it. */
  lemma {:induction false} ApplyAllKeepsTail(x: string, y: string, es: seq<Edit>)
    requires BackToFront(es, |x|)
    ensures ApplyAll(x + y, es) == ApplyAll(x, es) + y
    decreases |es|
  {
    if es != [] {
      var e := es[0];
      var x' := Slice(x, 0, e.start) + e.replacement + Slice(x, e.end, |x|);
      assert Slice(x + y, 0, e.start) == Slice(x, 0, e.start) by {
        assert (x + y)[..|x|] == x;
        SlicePrefix(x + y, |x|, 0, e.start);
      }
      assert Slice(x + y, e.end, |x + y|) == Slice(x, e.end, |x|) + y;
      assert Slice(x + y, 0, e.start) + e.replacement + Slice(x + y, e.end, |x + y|) == x' + y;
      assert BackToFront(es[1..], |x'|) by {
        assert forall k | 0 <= k < |es[1..]| :: es[1..][k] == es[k + 1];
      }
      ApplyAllKeepsTail(x', y, es[1..]);
    }
  }

  /** Rebuilding the front `code[..m]` and then adding one more edit at `m` rebuilds the whole code. */
  lemma {:induction false} SpliceExtend(code: string, pos: nat, asc: seq<Edit>, e: Edit)
    requires e.start <= e.end <= |code|
    requires forall k | 0 <= k < |asc| :: asc[k].start <= e.start && asc[k].end <= e.start
    ensures Splice(code[..e.start], pos, asc) + e.replacement + Slice(code, e.end, |code|)
            == Splice(code, pos, asc + [e])
    decreases |asc|
  {
    var m := e.start;
    if asc == [] {
      assert [] + [e] == [e];
      SlicePrefix(code, m, pos, m);
    } else {
      var a := asc[0];
      assert (asc + [e])[0] == a && (asc + [e])[1..] == asc[1..] + [e];
      SlicePrefix(code, m, pos, a.start);
      var head := Slice(code, pos, a.start) + a.replacement;
      var tail := Slice(code, e.end, |code|);
      assert Splice(code[..m], pos, asc) == head + Splice(code[..m], a.end, asc[1..]);
      assert Splice(code, pos, asc + [e]) == head + Splice(code, a.end, asc[1..] + [e]);
      SpliceExtend(code, a.end, asc[1..], e);
      Regroup(head, Splice(code[..m], a.end, asc[1..]), e.replacement, tail);
    }
  }

  lemma Regroup(h: string, s: string, r: string, t: string)
    ensures (h + s) + r + t == h + (s + r + t)
  {
  }

  /**
   Applying edits from the back, each to the text the previous ones left, puts every replacement
   where its span was in the original code: the same text as rebuilding it from the front.
   */
  lemma {:induction false} ApplyBackToFrontIsSplice(code: string, es: seq<Edit>)
    requires BackToFront(es, |code|)
    ensures ApplyAll(code, es) == Splice(code, 0, Reverse(es))
    decreases |es|
  {
    if es != [] {
      var e := es[0];
      var rest := es[1..];
      var p := code[..e.start];
      var y := Slice(code, e.end, |code|);
      assert Slice(code, 0, e.start) == p;
      assert forall k | 0 <= k < |rest| :: rest[k] == es[k + 1];
      assert BackToFront(rest, |p|);
      assert BackToFront(rest, |p + e.replacement|);
      var rr := Reverse(rest);
      assert forall k | 0 <= k < |rr| :: rr[k].start <= e.start && rr[k].end <= e.start;
      calc {
        ApplyAll(code, es);
        ApplyAll(p + e.replacement + y, rest);
        { ApplyAllKeepsTail(p + e.replacement, y, rest); }
        ApplyAll(p + e.replacement, rest) + y;
        { ApplyAllKeepsTail(p, e.replacement, rest); }
        ApplyAll(p, rest) + e.replacement + y;
        { ApplyBackToFrontIsSplice(p, rest); }
        Splice(p, 0, rr) + e.replacement + y;
        { SpliceExtend(code, 0, rr, e); }
        Splice(code, 0, rr + [e]);
      }
    }
  }

  /** An edit that starts before all of a descending list goes to its end. */
  lemma {:induction false} InsertLast(e: Edit, ts: seq<Edit>)
    requires Descending(ts)
    requires forall k | 0 <= k < |ts| :: ts[k].start > e.start
    ensures Insert(e, ts) == ts + [e]
    decreases |ts|
  {
    if ts != [] {
      InsertLast(e, ts[1..]);
      assert ts == [ts[0]] + ts[1..];
    }
  }

  /** The stable descending sort reverses edits that come in document order. */
  lemma {:induction false} SortReversesDocumentOrder(es: seq<Edit>, n: nat)
    requires FrontToBack(es, n)
    ensures SortDescending(es) == Reverse(es)
    decreases |es|
  {
    if es != [] {
      assert FrontToBack(es[1..], n) by {
        assert forall k | 0 <= k < |es[1..]| :: es[1..][k] == es[k + 1];
      }
      SortReversesDocumentOrder(es[1..], n);
      InsertLast(es[0], Reverse(es[1..]));
    }
  }

  lemma ReverseBackToFront(es: seq<Edit>, n: nat)
    requires FrontToBack(es, n)
    ensures BackToFront(Reverse(es), n)
  {
  }

  lemma ReverseReverse<T>(s: seq<T>)
    ensures Reverse(Reverse(s)) == s
  {
  }

  /** Where `[a-zA-Z_][a-zA-Z0-9_]*` starting at `i` ends; `i` when no identifier starts there. */
  function IdentEnd(s: string, i: nat): (j: nat)
    requires i <= |s|
    ensures i <= j <= |s|
    ensures j > i ==> IsIdentifier(s[i..j]) && (j == |s| || !IsWordChar(s[j]))
  {
    if i < |s| && IsWordChar(s[i]) && !IsDigit(s[i]) then WordEnd(s, i + 1) else i
  }

  /** `\s*>>\s*` and an identifier at `q`: where the identifier ends, and the identifier. */
  function Link(s: string, q: nat): (r: Option<(nat, string)>)
    requires q <= |s|
    ensures r.Some? ==> q < r.value.0 <= |s| && IsIdentifier(r.value.1)
  {
    var a := SkipSpaces(s, q);
    if At(s, a, ">>") then
      var b := SkipSpaces(s, a + 2);
      var c := IdentEnd(s, b);
      if b < c then Some((c, s[b..c])) else None
    else None
  }

  /**
   Any further links, then `\s*;`: where the statement ends and the variables read. Neither the
   greedy identifier nor the repeated group can give back characters to let the `;` match, so
   the first way to read the text is the only one.
   */
  function Chain(s: string, q: nat): (r: Option<(nat, seq<string>)>)
    requires q <= |s|
    ensures r.Some? ==> q < r.value.0 <= |s|
    ensures r.Some? ==> forall k | 0 <= k < |r.value.1| :: IsIdentifier(r.value.1[k])
    decreases |s| - q
  {
    match Link(s, q)
    case Some((c, v)) =>
      (match Chain(s, c) case Some((e, vs)) => Some((e, [v] + vs)) case None => None)
    case None =>
      var a := SkipSpaces(s, q);
      if a < |s| && s[a] == ';' then Some((a + 1, [])) else None
  }

  /** A whole read statement `std::cin >> a >> b;` at `p`: where it ends, and the variables read. */
  function ReadAt(s: string, p: nat): (r: Option<(nat, seq<string>)>)
    requires p <= |s|
    ensures r.Some? ==> p < r.value.0 <= |s| && |r.value.1| > 0
    ensures r.Some? ==> forall k | 0 <= k < |r.value.1| :: IsIdentifier(r.value.1[k])
  {
    if At(s, p, "std::cin") then
      match Link(s, p + 8)
      case Some((c, v)) =>
        (match Chain(s, c) case Some((e, vs)) => Some((e, [v] + vs)) case None => None)
      case None => None
    else None
  }

  /**
   The global replace of `replaceCinWithConstPlus`: scanning from the front, each read statement
   becomes its assignments joined by spaces, and every other character is kept.
   */
  function Rewrite(s: string, value: string): string
    decreases |s|
  {
    if s == [] then []
    else match ReadAt(s, 0)
      case Some((e, vars)) => Join(Assign(vars, value), " ") + Rewrite(s[e..], value)
      case None => [s[0]] + Rewrite(s[1..], value)
  }

  /** `replaceCinWithConstPlus(code, value)`. */
  function ReplaceCinWithConstPlus(code: string, value: string): string {
    Rewrite(code, value)
  }

  /**
   `replaceCinWithConst(code, value)`, given the statements the parser reports in the order of
   its walk: the statements' edits, applied from the back; the regular-expression rewrite when
   no statement gives one.
   */
  function ReplaceCinWithConst(code: string, spans: seq<Span>, value: string): string {
    var es := Edits(code, spans, value);
    if es == [] then ReplaceCinWithConstPlus(code, value)
    else ApplyAll(code, SortDescending(es))
  }

  /** Statements in document order, none inside another, all inside a code of length `n`. */
  predicate InDocumentOrder(spans: seq<Span>, n: nat) {
    && (forall k | 0 <= k < |spans| :: spans[k].start <= spans[k].end <= n)
    && (forall i, j | 0 <= i < j < |spans| :: spans[i].end <= spans[j].start)
  }

  lemma ContainsLength(s: string, p: string)
    requires Contains(s, p)
    ensures |p| <= |s|
  {
  }

  /** Statements in document order give their edits in document order. */
  lemma {:induction false} EditsFrontToBack(code: string, spans: seq<Span>, value: string)
    requires InDocumentOrder(spans, |code|)
    ensures FrontToBack(Edits(code, spans, value), |code|)
    ensures spans != [] ==> forall k | 0 <= k < |Edits(code, spans, value)| ::
                              Edits(code, spans, value)[k].start >= spans[0].start
    decreases |spans|
  {
    if spans != [] {
      var rest := spans[1..];
      assert InDocumentOrder(rest, |code|) by {
        assert forall k | 0 <= k < |rest| :: rest[k] == spans[k + 1];
      }
      EditsFrontToBack(code, rest, value);
      var tail := Edits(code, rest, value);
      assert forall k | 0 <= k < |tail| :: tail[k].start >= spans[0].end by {
        if rest != [] {
          assert rest[0] == spans[1];
        }
      }
      var head := match EditFor(code, spans[0], value) case Some(e) => [e] case None => [];
      if head != [] {
        ContainsLength(Slice(code, spans[0].start, spans[0].end), "std::cin");
      }
      assert Edits(code, spans, value) == head + tail;
      ConsFrontToBack(head, tail, |code|, spans[0]);
    }
  }

  /** An edit for the first statement, if any, in front of the later statements' edits keeps them in document order. */
  lemma ConsFrontToBack(head: seq<Edit>, tail: seq<Edit>, n: nat, sp: Span)
    requires |head| <= 1 && sp.start <= sp.end <= n
    requires head != [] ==> head[0].start == sp.start < head[0].end == sp.end
    requires FrontToBack(tail, n) && forall k | 0 <= k < |tail| :: tail[k].start >= sp.end
    ensures FrontToBack(head + tail, n)
    ensures forall k | 0 <= k < |head + tail| :: (head + tail)[k].start >= sp.start
  {
    var r := head + tail;
    assert forall k | |head| <= k < |r| :: r[k] == tail[k - |head|];
  }

  /**
   When the parser reports the statements in document order and none inside another, and some
   statement reads from `std::cin`, every reading statement is replaced in place in the original
   code and everything between them is kept.
   */
  lemma ReadsReplacedInPlace(code: string, spans: seq<Span>, value: string)
    requires InDocumentOrder(spans, |code|)
    requires Edits(code, spans, value) != []
    ensures ReplaceCinWithConst(code, spans, value) == Splice(code, 0, Edits(code, spans, value))
  {
    var es := Edits(code, spans, value);
    EditsFrontToBack(code, spans, value);
    SortReversesDocumentOrder(es, |code|);
    ReverseBackToFront(es, |code|);
    ApplyBackToFrontIsSplice(code, Reverse(es));
    ReverseReverse(es);
  }

  /** A piece of a text that contains `p` makes the text contain `p`. */
  lemma ContainsSlice(code: string, a: nat, b: nat, p: string)
    requires Contains(Slice(code, a, b), p)
    ensures Contains(code, p)
  {
    var t := Slice(code, a, b);
    var i :| 0 <= i <= |t| && At(t, i, p);
    var x := SliceIsPiece(code, a, b);
    AtInside(code, x, t, i, p);
  }

  /** Where a slice stands in its text. */
  lemma SliceIsPiece(code: string, a: nat, b: nat) returns (x: nat)
    ensures x + |Slice(code, a, b)| <= |code| && code[x..x + |Slice(code, a, b)|] == Slice(code, a, b)
  {
    x := if a <= |code| then a else |code|;
    var y := if b <= |code| then b else |code|;
    if y < x {
      x := 0;
    }
  }

  lemma AtInside(code: string, x: nat, t: string, i: nat, p: string)
    requires x + |t| <= |code| && code[x..x + |t|] == t && At(t, i, p)
    ensures At(code, x + i, p)
  {
    var w := code[x + i..x + i + |p|];
    forall k | 0 <= k < |p| ensures w[k] == p[k] {
      assert w[k] == code[x..x + |t|][i + k] == t[i + k] == t[i..i + |p|][k];
    }
  }

  lemma {:induction false} NoCinNoEdits(code: string, spans: seq<Span>, value: string)
    requires !Contains(code, "std::cin")
    ensures Edits(code, spans, value) == []
    decreases |spans|
  {
    if spans != [] {
      if EditFor(code, spans[0], value).Some? {
        ContainsSlice(code, spans[0].start, spans[0].end, "std::cin");
      }
      NoCinNoEdits(code, spans[1..], value);
    }
  }

  lemma {:induction false} NoCinCopied(s: string, value: string)
    requires !Contains(s, "std::cin")
    ensures Rewrite(s, value) == s
    decreases |s|
  {
    if s != [] {
      assert !At(s, 0, "std::cin");
      forall i | 0 <= i <= |s[1..]|
        ensures !At(s[1..], i, "std::cin")
      {
        AtDrop(s, 1, i, "std::cin");
        assert !At(s, 1 + i, "std::cin");
      }
      NoCinCopied(s[1..], value);
    }
  }

  /** Matching in the text after its first `k` characters is matching `k` places further on. */
  lemma AtDrop(s: string, k: nat, i: nat, w: string)
    requires k <= |s| && i <= |s| - k
    ensures At(s[k..], i, w) <==> At(s, k + i, w)
  {
    if i + |w| <= |s| - k {
      assert s[k..][i..i + |w|] == s[k + i..k + i + |w|];
    }
  }

  /** Code that never mentions `std::cin` comes back unchanged, whatever the parser reports. */
  lemma NoCinUnchanged(code: string, spans: seq<Span>, value: string)
    requires !Contains(code, "std::cin")
    ensures ReplaceCinWithConst(code, spans, value) == code
  {
    NoCinNoEdits(code, spans, value);
    NoCinCopied(code, value);
  }

  /** ` >> a >> b` for the variables `a`, `b`. */
  function ChainText(vars: seq<string>): string {
    if vars == [] then "" else " >> " + vars[0] + ChainText(vars[1..])
  }

  /** The read statement `std::cin >> a >> b;`. */
  function ReadStatement(vars: seq<string>): string {
    "std::cin" + ChainText(vars) + ";"
  }

  /** Where the parts of a read statement sit: the stream name, then ` >> ` before the first target. */
  lemma ReadLayout(vars: seq<string>, t: string)
    requires vars != [] && t == ReadStatement(vars)
    ensures At(t, 0, "std::cin") && At(t, 9, ">>")
    ensures t[8..] == ChainText(vars) + ";"
  {
    assert t[..8] == "std::cin";
    assert t[9..11] == ">>";
  }

  lemma {:induction false} WordEndAcross(s: string, i: nat, n: nat)
    requires i + n <= |s|
    requires forall k | i <= k < i + n :: IsWordChar(s[k])
    requires i + n == |s| || !IsWordChar(s[i + n])
    ensures WordEnd(s, i) == i + n
    decreases n
  {
    if n > 0 {
      WordEndAcross(s, i + 1, n - 1);
    }
  }

  lemma ChainTextHead(vars: seq<string>)
    ensures (ChainText(vars) + ";")[0] in {' ', ';'}
  {
  }

  /** The characters of one link ` >> v` followed by the rest of a statement, as offsets into `s`. */
  lemma LinkLayout(s: string, q: nat, v: string, rest: string, c: nat, e: nat)
    requires c == q + 4 + |v| && e == c + |rest| && e <= |s|
    requires s[q..e] == " >> " + v + rest
    ensures s[q] == ' ' && s[q + 1] == '>' && s[q + 2] == '>' && s[q + 3] == ' '
    ensures s[q + 4..c] == v && s[c..e] == rest
  {
    var w := s[q..e];
    assert forall k | 0 <= k < |w| :: s[q + k] == w[k];
    assert w[0] == ' ' && w[1] == '>' && w[2] == '>' && w[3] == ' ';
    PartsOfJoin(" >> ", v, rest, w);
    SliceOfSlice(s, q, e, 4, 4 + |v|);
    SliceOfSlice(s, q, e, 4 + |v|, |w|);
  }

  lemma SkipNone(s: string, i: nat)
    requires i < |s| && !IsSpace(s[i])
    ensures SkipSpaces(s, i) == i
  {
  }

  lemma SkipOne(s: string, i: nat)
    requires i + 1 < |s| && IsSpace(s[i]) && !IsSpace(s[i + 1])
    ensures SkipSpaces(s, i) == i + 1
  {
    SkipNone(s, i + 1);
  }

  /** An identifier `v` at `i` that a non-word character follows ends there. */
  lemma IdentAcross(s: string, i: nat, v: string)
    requires IsIdentifier(v)
    requires i + |v| < |s| && s[i..i + |v|] == v
    requires !IsWordChar(s[i + |v|])
    ensures IdentEnd(s, i) == i + |v|
    ensures WordEnd(s, i) == i + |v|
  {
    assert forall k | i <= k < i + |v| :: s[k] == v[k - i];
    WordEndAcross(s, i + 1, |v| - 1);
    WordEndAcross(s, i, |v|);
  }

  lemma ChainStep(s: string, q: nat, v: string, c: nat, e: nat, vars: seq<string>)
    requires q <= c <= |s| && |vars| > 0 && vars[0] == v
    requires Link(s, q) == Some((c, v))
    requires Chain(s, c) == Some((e, vars[1..]))
    ensures Chain(s, q) == Some((e, vars))
  {
    assert [v] + vars[1..] == vars;
  }

  lemma ReadStep(s: string, p: nat, v: string, c: nat, e: nat, vars: seq<string>)
    requires p + 8 <= c <= |s| && |vars| > 0 && vars[0] == v
    requires At(s, p, "std::cin")
    requires Link(s, p + 8) == Some((c, v))
    requires Chain(s, c) == Some((e, vars[1..]))
    ensures ReadAt(s, p) == Some((e, vars))
  {
    assert [v] + vars[1..] == vars;
  }

  /** `std::cin >> a >> b;` is read as one statement that reads `a` and `b`. */
  lemma ReadStatementReads(vars: seq<string>)
    requires |vars| > 0
    requires forall k | 0 <= k < |vars| :: IsIdentifier(vars[k])
    ensures ReadAt(ReadStatement(vars), 0) == Some((|ReadStatement(vars)|, vars))
  {
    CanonicalSpacing(vars);
    var s := SpacedRead(vars, SingleSpaces(|vars|), "");
    SpacedReadIn(vars, SingleSpaces(|vars|), "", "");
    assert s + "" == s;
  }

  /** The regular-expression rewrite turns a read statement into its assignments, joined by spaces. */
  lemma FallbackRewritesRead(vars: seq<string>, value: string)
    requires |vars| > 0
    requires forall k | 0 <= k < |vars| :: IsIdentifier(vars[k])
    ensures ReplaceCinWithConstPlus(ReadStatement(vars), value) == Join(Assign(vars, value), " ")
  {
    CanonicalSpacing(vars);
    assert !Contains("", "std::cin");
    ReadInContext("", vars, SingleSpaces(|vars|), "", "", value);
    Alone(SpacedRead(vars, SingleSpaces(|vars|), ""), Join(Assign(vars, value), " "), value);
  }

  /** A text with nothing before and after it. */
  lemma Alone(s: string, j: string, value: string)
    requires Rewrite("" + s + "", value) == "" + j + Rewrite("", value)
    ensures Rewrite(s, value) == j
  {
    assert "" + s + "" == s;
    assert "" + j + "" == j;
  }

  /** The whitespace around one `>>` of a read statement. */
  datatype Spacing = Spacing(before: string, after: string)

  predicate Spaced(gaps: seq<Spacing>) {
    forall k | 0 <= k < |gaps| :: AllSpace(gaps[k].before) && AllSpace(gaps[k].after)
  }

  /** The links of a read statement, each `>>` inside its gap and then its variable, followed by `rest`. */
  function LinksText(vars: seq<string>, gaps: seq<Spacing>, rest: string): string
    requires |gaps| == |vars|
  {
    if vars == [] then rest
    else gaps[0].before + (">>" + (gaps[0].after + (vars[0] + LinksText(vars[1..], gaps[1..], rest))))
  }

  /** A read statement spaced in any way the pattern allows: `std::cin`, the links, whitespace `tail`, `;`. */
  function SpacedRead(vars: seq<string>, gaps: seq<Spacing>, tail: string): string
    requires |gaps| == |vars|
  {
    "std::cin" + LinksText(vars, gaps, tail + ";")
  }

  /** One space on each side of every `>>`. */
  function SingleSpaces(n: nat): (gaps: seq<Spacing>)
    ensures |gaps| == n && Spaced(gaps)
  {
    seq(n, _ => Spacing(" ", " "))
  }

  /** `std::cin >> a >> b;` is the read statement with single spaces around each `>>` and none before `;`. */
  lemma CanonicalSpacing(vars: seq<string>)
    ensures ReadStatement(vars) == SpacedRead(vars, SingleSpaces(|vars|), "")
  {
    ChainTextLinks(vars, "" + ";");
    assert "" + ";" == ";";
  }

  lemma {:induction false} ChainTextLinks(vars: seq<string>, rest: string)
    ensures ChainText(vars) + rest == LinksText(vars, SingleSpaces(|vars|), rest)
    decreases |vars|
  {
    if vars != [] {
      var gaps := SingleSpaces(|vars|);
      assert gaps[1..] == SingleSpaces(|vars| - 1);
      assert gaps[0] == Spacing(" ", " ");
      ChainTextLinks(vars[1..], rest);
      var r := ChainText(vars[1..]);
      assert (" >> " + vars[0] + r) + rest == " " + (">>" + (" " + (vars[0] + (r + rest))));
    }
  }

  /**
   A read statement inside other code, spaced in any way the pattern allows: the text before it,
   which does not mention `std::cin`, is copied; the statement becomes its assignments; the rest
   of the code is rewritten on its own.
   */
  lemma ReadInContext(a: string, vars: seq<string>, gaps: seq<Spacing>, tail: string, b: string, value: string)
    requires !Contains(a, "std::cin")
    requires |vars| > 0 && forall k | 0 <= k < |vars| :: IsIdentifier(vars[k])
    requires |gaps| == |vars| && Spaced(gaps) && AllSpace(tail)
    ensures ReplaceCinWithConstPlus(a + SpacedRead(vars, gaps, tail) + b, value)
            == a + Join(Assign(vars, value), " ") + ReplaceCinWithConstPlus(b, value)
  {
    var stmt := SpacedRead(vars, gaps, tail);
    var t := stmt + b;
    assert t[0] == 's';
    NoStraddle(a, t);
    CopyPrefix(a, t, value);
    SpacedReadIn(vars, gaps, tail, b);
    assert t[|stmt|..] == b;
    ReadThenRest(t, |stmt|, vars, b, value);
    assert a + stmt + b == a + t;
  }

  /** A read statement at the front becomes its assignments; the rewrite goes on after it. */
  lemma ReadThenRest(t: string, e: nat, vars: seq<string>, b: string, value: string)
    requires t != [] && e <= |t| && ReadAt(t, 0) == Some((e, vars)) && t[e..] == b
    ensures Rewrite(t, value) == Join(Assign(vars, value), " ") + Rewrite(b, value)
  {
  }

  /** A read statement is read whole, whatever follows it. */
  lemma SpacedReadIn(vars: seq<string>, gaps: seq<Spacing>, tail: string, b: string)
    requires |vars| > 0 && forall k | 0 <= k < |vars| :: IsIdentifier(vars[k])
    requires |gaps| == |vars| && Spaced(gaps) && AllSpace(tail)
    ensures ReadAt(SpacedRead(vars, gaps, tail) + b, 0) == Some((|SpacedRead(vars, gaps, tail)|, vars))
  {
    var stmt := SpacedRead(vars, gaps, tail);
    var t := stmt + b;
    var n := |stmt|;
    StatementLayout(stmt, LinksText(vars, gaps, tail + ";"), b);
    var c := SpacedLinkThenChain(t, 8, vars, gaps, tail, n);
    ReadStep(t, 0, vars[0], c, n, vars);
  }

  /** `std::cin` starts the statement and the links follow it, whatever comes after. */
  lemma StatementLayout(stmt: string, links: string, b: string)
    requires stmt == "std::cin" + links
    ensures At(stmt + b, 0, "std::cin") && (stmt + b)[8..|stmt|] == links
  {
    var t := stmt + b;
    assert t[..|stmt|] == stmt;
    SplitAt(t, 0, |stmt|, "std::cin", links);
  }

  /** A slice that is `x + y` splits into `x` and then `y`. */
  lemma SplitAt(s: string, i: nat, j: nat, x: string, y: string)
    requires i <= j <= |s| && s[i..j] == x + y
    ensures i + |x| <= j && s[i..i + |x|] == x && s[i + |x|..j] == y
  {
    SliceOfSlice(s, i, j, 0, |x|);
    SliceOfSlice(s, i, j, |x|, j - i);
    assert (x + y)[..|x|] == x;
    assert (x + y)[|x|..] == y;
  }

  /** A slice made of whitespace. */
  lemma SpacesAt(s: string, i: nat, g: string)
    requires i + |g| <= |s| && s[i..i + |g|] == g && AllSpace(g)
    ensures forall k | i <= k < i + |g| :: IsSpace(s[k])
  {
    forall k | i <= k < i + |g|
      ensures IsSpace(s[k])
    {
      assert s[k] == s[i..i + |g|][k - i];
    }
  }

  lemma {:induction false} SkipAcross(s: string, i: nat, n: nat)
    requires i + n <= |s|
    requires forall k | i <= k < i + n :: IsSpace(s[k])
    requires i + n == |s| || !IsSpace(s[i + n])
    ensures SkipSpaces(s, i) == i + n
    decreases n
  {
    if n > 0 {
      SkipAcross(s, i + 1, n - 1);
    }
  }

  /** What follows a variable in a read statement starts with whitespace, `>` or `;`. */
  lemma AfterVariable(vars: seq<string>, gaps: seq<Spacing>, tail: string)
    requires |gaps| == |vars| && Spaced(gaps) && AllSpace(tail)
    ensures LinksText(vars, gaps, tail + ";") != []
    ensures !IsWordChar(LinksText(vars, gaps, tail + ";")[0])
  {
    if vars == [] {
      if tail != [] {
        assert IsSpace(tail[0]);
      }
    } else if gaps[0].before != [] {
      assert IsSpace(gaps[0].before[0]);
    }
  }

  /** One link: whitespace, `>>`, whitespace, then the variable `v`, which a non-word character follows. */
  lemma SpacedLinkReads(s: string, q: nat, g: Spacing, v: string, rest: string, e: nat) returns (c: nat)
    requires AllSpace(g.before) && AllSpace(g.after) && IsIdentifier(v)
    requires q <= e <= |s| && s[q..e] == g.before + (">>" + (g.after + (v + rest)))
    requires rest != [] && !IsWordChar(rest[0])
    ensures q < c < e && Link(s, q) == Some((c, v)) && s[c..e] == rest
  {
    var m, m2;
    m, m2, c := SpacedLayout(s, q, g, v, rest, e);
    SkipOver(s, q, g.before, m);
    SkipOver(s, m + 2, g.after, m2);
    IdentAcross(s, m2, v);
    LinkFound(s, q, m, m2, c, v);
  }

  /** Where the parts of one link sit in `s`. */
  lemma SpacedLayout(s: string, q: nat, g: Spacing, v: string, rest: string, e: nat) returns (m: nat, m2: nat, c: nat)
    requires IsIdentifier(v)
    requires q <= e <= |s| && s[q..e] == g.before + (">>" + (g.after + (v + rest)))
    requires rest != [] && !IsWordChar(rest[0])
    ensures m == q + |g.before| && m2 == m + 2 + |g.after| && c == m2 + |v| && c < e
    ensures s[q..m] == g.before && At(s, m, ">>") && s[m + 2..m2] == g.after && s[m2..c] == v && s[c..e] == rest
    ensures s[m] == '>' && s[m2] == v[0] && !IsWordChar(s[c])
  {
    m := q + |g.before|;
    SplitAt(s, q, e, g.before, ">>" + (g.after + (v + rest)));
    m2, c := ArrowLayout(s, m, g.after, v, rest, e);
  }

  lemma ArrowLayout(s: string, m: nat, after: string, v: string, rest: string, e: nat) returns (m2: nat, c: nat)
    requires IsIdentifier(v)
    requires m <= e <= |s| && s[m..e] == ">>" + (after + (v + rest))
    requires rest != [] && !IsWordChar(rest[0])
    ensures m2 == m + 2 + |after| && c == m2 + |v| && c < e
    ensures At(s, m, ">>") && s[m + 2..m2] == after && s[m2..c] == v && s[c..e] == rest
    ensures s[m] == '>' && s[m2] == v[0] && !IsWordChar(s[c])
  {
    SplitAt(s, m, e, ">>", after + (v + rest));
    assert s[m] == s[m..m + 2][0];
    m2 := m + 2 + |after|;
    SplitAt(s, m + 2, e, after, v + rest);
    c := VariableLayout(s, m2, v, rest, e);
  }

  lemma VariableLayout(s: string, m2: nat, v: string, rest: string, e: nat) returns (c: nat)
    requires IsIdentifier(v)
    requires m2 <= e <= |s| && s[m2..e] == v + rest
    requires rest != [] && !IsWordChar(rest[0])
    ensures c == m2 + |v| && c < e && s[m2..c] == v && s[c..e] == rest
    ensures s[m2] == v[0] && !IsWordChar(s[c])
  {
    c := m2 + |v|;
    SplitAt(s, m2, e, v, rest);
    assert s[m2] == s[m2..c][0];
    assert s[c] == s[c..e][0];
  }

  /** A run of whitespace `g` from `i`, which a non-space character at `j` ends, is skipped to `j`. */
  lemma SkipOver(s: string, i: nat, g: string, j: nat)
    requires j == i + |g| < |s| && s[i..j] == g && AllSpace(g) && !IsSpace(s[j])
    ensures SkipSpaces(s, i) == j
  {
    SpacesAt(s, i, g);
    SkipAcross(s, i, |g|);
  }

  /** The pieces of `Link` found one by one. */
  lemma LinkFound(s: string, q: nat, a: nat, b: nat, c: nat, v: string)
    requires q <= |s| && SkipSpaces(s, q) == a && At(s, a, ">>")
    requires SkipSpaces(s, a + 2) == b && IdentEnd(s, b) == c && b < c && s[b..c] == v
    ensures Link(s, q) == Some((c, v))
  {
  }

  /** A spaced chain from `q` to `e` is one link, to `c`, and then the chain of the other variables. */
  lemma SpacedLinkThenChain(s: string, q: nat, vars: seq<string>, gaps: seq<Spacing>, tail: string, e: nat)
    returns (c: nat)
    requires |vars| > 0 && forall k | 0 <= k < |vars| :: IsIdentifier(vars[k])
    requires |gaps| == |vars| && Spaced(gaps) && AllSpace(tail)
    requires q <= e <= |s| && s[q..e] == LinksText(vars, gaps, tail + ";")
    ensures q <= c <= e && Link(s, q) == Some((c, vars[0])) && Chain(s, c) == Some((e, vars[1..]))
    decreases |vars|, 0
  {
    var rest := LinksText(vars[1..], gaps[1..], tail + ";");
    AfterVariable(vars[1..], gaps[1..], tail);
    c := SpacedLinkReads(s, q, gaps[0], vars[0], rest, e);
    SpacedChainReads(s, c, vars[1..], gaps[1..], tail, e);
  }

  /** The regular expression reads a spaced chain of identifiers ending in `;` exactly, up to `e`. */
  lemma {:induction false} SpacedChainReads(s: string, q: nat, vars: seq<string>, gaps: seq<Spacing>, tail: string, e: nat)
    requires forall k | 0 <= k < |vars| :: IsIdentifier(vars[k])
    requires |gaps| == |vars| && Spaced(gaps) && AllSpace(tail)
    requires q <= e <= |s| && s[q..e] == LinksText(vars, gaps, tail + ";")
    ensures Chain(s, q) == Some((e, vars))
    decreases |vars|, 1
  {
    if vars == [] {
      var a := q + |tail|;
      SplitAt(s, q, e, tail, ";");
      assert s[a] == s[a..e][0];
      SkipOver(s, q, tail, a);
      ChainEndsAfter(s, q, a);
    } else {
      var c := SpacedLinkThenChain(s, q, vars, gaps, tail, e);
      ChainStep(s, q, vars[0], c, e, vars);
    }
  }

  /** Whitespace and then `;` end the chain. */
  lemma ChainEndsAfter(s: string, q: nat, a: nat)
    requires q <= a < |s| && SkipSpaces(s, q) == a && s[a] == ';'
    ensures Chain(s, q) == Some((a + 1, []))
  {
    assert !At(s, a, ">>") by {
      if a + 2 <= |s| {
        assert s[a..a + 2][0] == s[a];
      }
    }
  }

  /** No `std::cin` starts in `a` when `a` does not mention it and what follows starts with `s`. */
  lemma NoStraddle(a: string, t: string)
    requires !Contains(a, "std::cin")
    requires |t| > 0 && t[0] == 's'
    ensures forall q | 0 <= q < |a| :: !At(a + t, q, "std::cin")
  {
    var s := a + t;
    forall q | 0 <= q < |a|
      ensures !At(s, q, "std::cin")
    {
      if q + 8 <= |a| {
        assert s[q..q + 8] == a[q..q + 8];
        assert !At(a, q, "std::cin");
      } else {
        var d := |a| - q;
        assert s[q + d] == 's';
        assert "std::cin"[d] != 's';
        assert q + 8 > |s| || s[q..q + 8][d] != "std::cin"[d];
      }
    }
  }


  /** Text without `>` holds no target. */
  lemma {:induction false} TargetsSkip(s: string, i: nat, j: nat)
    requires i <= j <= |s|
    requires forall k | i <= k < j :: s[k] != '>'
    ensures TargetsFrom(s, i) == TargetsFrom(s, j)
    decreases j - i
  {
    if i < j {
      TargetsStep(s, i);
      TargetsSkip(s, i + 1, j);
    }
  }

  /** Where no read statement starts, the rewrite copies the text. */
  lemma {:induction false} CopyPrefix(a: string, t: string, value: string)
    requires forall q | 0 <= q < |a| :: !At(a + t, q, "std::cin")
    ensures Rewrite(a + t, value) == a + Rewrite(t, value)
    decreases |a|
  {
    if a == [] {
      assert a + t == t;
    } else {
      var s, u := a + t, a[1..] + t;
      assert s[1..] == u;
      CopyStep(s, u, value);
      NoCinBehind(a, t);
      CopyPrefix(a[1..], t, value);
      PutBack(a, Rewrite(t, value), Rewrite(s, value));
    }
  }

  lemma NoCinBehind(a: string, t: string)
    requires a != []
    requires forall q | 0 <= q < |a| :: !At(a + t, q, "std::cin")
    ensures forall q | 0 <= q < |a| - 1 :: !At(a[1..] + t, q, "std::cin")
  {
    var s := a + t;
    assert s[1..] == a[1..] + t;
    forall q | 0 <= q < |a| - 1
      ensures !At(a[1..] + t, q, "std::cin")
    {
      AtDrop(s, 1, q, "std::cin");
    }
  }

  /** A character where no read statement starts is kept. */
  lemma CopyStep(s: string, u: string, value: string)
    requires s != [] && !At(s, 0, "std::cin") && s[1..] == u
    ensures Rewrite(s, value) == [s[0]] + Rewrite(u, value)
  {
    assert ReadAt(s, 0) == None;
  }

  lemma PutBack(a: string, r: string, x: string)
    requires a != [] && x == [a[0]] + (a[1..] + r)
    ensures x == a + r
  {
    assert a == [a[0]] + a[1..];
  }

  lemma TargetsStep(s: string, i: nat)
    requires i < |s| && s[i] != '>'
    ensures TargetsFrom(s, i) == TargetsFrom(s, i + 1)
  {
    assert !At(s, i, ">>") by {
      if i + 2 <= |s| {
        assert s[i..i + 2][0] == s[i];
      }
    }
  }

  /** The link ` >> v` at `q`, followed by a space or a `;`, gives the target `v`. */
  lemma TargetsLink(s: string, q: nat, v: string, c: nat)
    requires IsWord(v)
    requires c == q + 4 + |v| && c < |s|
    requires s[q] == ' ' && s[q + 1] == '>' && s[q + 2] == '>' && s[q + 3] == ' '
    requires s[q + 4..c] == v
    requires s[c] in {' ', ';'}
    ensures TargetsFrom(s, q) == [v] + TargetsFrom(s, c)
  {
    LinkScan(s, q, v);
    TargetsStep(s, q);
    TargetsAtLink(s, q + 1, q + 4, c, v);
  }

  /** How the scan crosses the link ` >> v`: the `>>`, the space after it, and the word `v`. */
  lemma LinkScan(s: string, q: nat, v: string)
    requires IsWord(v)
    requires q + 4 + |v| < |s|
    requires s[q] == ' ' && s[q + 1] == '>' && s[q + 2] == '>' && s[q + 3] == ' '
    requires s[q + 4..q + 4 + |v|] == v
    requires s[q + 4 + |v|] in {' ', ';'}
    ensures At(s, q + 1, ">>") && SkipSpaces(s, q + 1 + 2) == q + 4 && WordEnd(s, q + 4) == q + 4 + |v|
  {
    assert s[q + 1..q + 3] == ">>";
    assert s[q + 4] == v[0];
    SkipOne(s, q + 3);
    assert forall k | q + 4 <= k < q + 4 + |v| :: s[k] == v[k - q - 4];
    WordEndAcross(s, q + 4, |v|);
  }

  lemma TargetsAtLink(s: string, i: nat, b: nat, c: nat, v: string)
    requires i + 2 <= b < c <= |s|
    ensures At(s, i, ">>") && SkipSpaces(s, i + 2) == b && WordEnd(s, b) == c && s[b..c] == v
            ==> TargetsFrom(s, i) == [v] + TargetsFrom(s, c)
  {
  }

  /** The targets of a chain ending the text are its variables. */
  lemma {:induction false} ChainTargets(s: string, q: nat, vars: seq<string>)
    requires forall k | 0 <= k < |vars| :: IsWord(vars[k])
    requires q + |ChainText(vars)| + 1 == |s|
    requires s[q..] == ChainText(vars) + ";"
    ensures TargetsFrom(s, q) == vars
    decreases |vars|
  {
    if vars == [] {
      assert s[q] == (ChainText(vars) + ";")[0];
      LastTargets(s, q);
    } else {
      var c := ChainLayout(s, q, vars);
      TargetsLink(s, q, vars[0], c);
      ChainTargets(s, c, vars[1..]);
      HeadTail(vars);
    }
  }

  /** Where a chain ending the text stands, its first link is ` >> `, the variable, then a space or the `;`. */
  lemma ChainLayout(s: string, q: nat, vars: seq<string>) returns (c: nat)
    requires vars != []
    requires q + |ChainText(vars)| + 1 == |s|
    requires s[q..] == ChainText(vars) + ";"
    ensures c == q + 4 + |vars[0]| && c + |ChainText(vars[1..])| + 1 == |s|
    ensures s[c..] == ChainText(vars[1..]) + ";"
    ensures s[q] == ' ' && s[q + 1] == '>' && s[q + 2] == '>' && s[q + 3] == ' '
    ensures s[q + 4..c] == vars[0] && s[c] in {' ', ';'}
  {
    var v := vars[0];
    var rest := ChainText(vars[1..]) + ";";
    assert ChainText(vars) + ";" == " >> " + v + rest;
    c := q + 4 + |v|;
    SliceToEnd(s, q, |s|);
    LinkLayout(s, q, v, rest, c, |s|);
    ChainTextHead(vars[1..]);
    assert s[c] == rest[0];
    SliceToEnd(s, c, |s|);
  }

  /** The closing `;` that ends the text reads into nothing. */
  lemma LastTargets(s: string, q: nat)
    requires q + 1 == |s| && s[q] == ';'
    ensures TargetsFrom(s, q) == []
  {
    TargetsStep(s, q);
  }

  /** A statement `std::cin >> a >> b;` is given one assignment per line for `a` and `b`. */
  lemma EditForRead(code: string, sp: Span, vars: seq<string>, value: string)
    requires sp.start <= sp.end <= |code|
    requires code[sp.start..sp.end] == ReadStatement(vars)
    requires |vars| > 0
    requires forall k | 0 <= k < |vars| :: IsWord(vars[k])
    ensures EditFor(code, sp, value) == Some(Edit(sp.start, sp.end, Join(Assign(vars, value), "\n")))
  {
    var t := ReadStatement(vars);
    assert Slice(code, sp.start, sp.end) == t;
    ReadLayout(vars, t);
    TargetsSkip(t, 0, 8);
    ChainTargets(t, 8, vars);
  }

  /**
   A program with one statement that reads from `std::cin` gets that statement replaced by one
   assignment per line; the code before and after it is kept.
   */
  lemma SingleReadReplaced(code: string, sp: Span, vars: seq<string>, value: string)
    requires sp.start <= sp.end <= |code|
    requires code[sp.start..sp.end] == ReadStatement(vars)
    requires |vars| > 0
    requires forall k | 0 <= k < |vars| :: IsWord(vars[k])
    ensures ReplaceCinWithConst(code, [sp], value)
            == code[..sp.start] + Join(Assign(vars, value), "\n") + code[sp.end..]
  {
    var e := Edit(sp.start, sp.end, Join(Assign(vars, value), "\n"));
    EditForRead(code, sp, vars, value);
    OneEdit(code, sp, value, e);
    ReadsReplacedInPlace(code, [sp], value);
    SpliceOne(code, e);
  }

  lemma OneEdit(code: string, sp: Span, value: string, e: Edit)
    requires EditFor(code, sp, value) == Some(e)
    ensures Edits(code, [sp], value) == [e]
  {
    assert [sp][1..] == [];
  }

  /** Splicing in one edit keeps the text before and after it. */
  lemma SpliceOne(code: string, e: Edit)
    requires e.start <= e.end <= |code|
    ensures Splice(code, 0, [e]) == code[..e.start] + e.replacement + code[e.end..]
  {
    var a, b := Slice(code, 0, e.start), Splice(code, e.end, []);
    assert [e][1..] == [];
    assert Splice(code, 0, [e]) == a + e.replacement + b;
    assert a == code[..e.start];
    SliceToEnd(code, e.end, |code|);
  }
}

=== FILE: classify.dfy ===
/**
 The Language Classifier (`detectLanguage`) and the per-language scratch file
 (`getTempFilePath`).
 */
module Classify {
  import opened Text

  /** The language ids the harness understands; any other id is carried along as `Other`. */
  datatype Language = Python | JavaScript | Java | Cpp | Other(tag: string) {

    /** The id string the source passes around (`lang`). */
    function Tag(): string {
      match this
      case Python => "python"
      case JavaScript => "javascript"
      case Java => "java"
      case Cpp => "cpp"
      case Other(t) => t
    }
  }

  const KnownTags: set<string> := {"python", "javascript", "java", "cpp"}

  /** A language value as the source's string comparisons see it. */
  predicate Canonical(l: Language) {
    l.Other? ==> l.tag !in KnownTags
  }

  /** Reads an id string the way every `switch (lang)` of the source does. */
  function FromTag(t: string): (l: Language)
    ensures l.Tag() == t
    ensures Canonical(l)
  {
    if t == "python" then Python
    else if t == "javascript" then JavaScript
    else if t == "java" then Java
    else if t == "cpp" then Cpp
    else Other(t)
  }

  lemma FromTagOfTag(l: Language)
    requires Canonical(l)
    ensures FromTag(l.Tag()) == l
  {
  }

  /** `\s+\w`: at least one whitespace character at `i`, then a word character. */
  predicate SpacesThenWord(s: string, i: nat) {
    i < |s| && IsSpace(s[i]) && SkipSpaces(s, i) < |s| && IsWordChar(s[SkipSpaces(s, i)])
  }

  /** `\s+.`: at least one whitespace character at `i`, then one that is not a line terminator. */
  predicate SpacesThenLine(s: string, i: nat) {
    exists j | i < j < |s| :: SpacesIn(s, i, j) && !IsLineTerminator(s[j])
  }

  /** `kw\s+\w+` under the `i` flag (`def\s+\w+`, `class\s+\w+`, `function\s+\w+`). */
  predicate KeywordThenName(s: string, kw: string) {
    exists i | 0 <= i <= |s| :: AtCi(s, i, kw) && SpacesThenWord(s, i + |kw|)
  }

  /** `/import\s+.+/i`. */
  predicate ImportLine(s: string) {
    exists i | 0 <= i <= |s| :: AtCi(s, i, "import") && SpacesThenLine(s, i + 6)
  }

  /** `/```(cpp|c\+\+)/i`. */
  predicate CppMarker(code: string) {
    ContainsCi(code, "```cpp") || ContainsCi(code, "```c++")
  }

  /** `/```python/i` or `/import\s+.+|def\s+\w+/i`. */
  predicate PythonMarker(code: string) {
    ContainsCi(code, "```python") || ImportLine(code) || KeywordThenName(code, "def")
  }

  /** `/```java/i` or `/class\s+\w+/i`. */
  predicate JavaMarker(code: string) {
    ContainsCi(code, "```java") || KeywordThenName(code, "class")
  }

  /** `/```javascript/i` or `/function\s+\w+|console\.log/i`. */
  predicate JavaScriptMarker(code: string) {
    ContainsCi(code, "```javascript") || KeywordThenName(code, "function")
    || ContainsCi(code, "console.log")
  }

  /**
   `detectLanguage`: a non-empty editor id is taken as it is; otherwise the markers are tried
   in the order C++, Python, Java, JavaScript, and `unknown` is the answer when none is found.
   */
  function DetectLanguage(code: string, languageId: string): (l: Language)
    ensures languageId != "" ==> l.Tag() == languageId
    ensures languageId == "" ==> l in {Cpp, Python, Java, JavaScript, Other("unknown")}
    ensures Canonical(l)
  {
    if languageId != "" then FromTag(languageId)
    else if CppMarker(code) then Cpp
    else if PythonMarker(code) then Python
    else if JavaMarker(code) then Java
    else if JavaScriptMarker(code) then JavaScript
    else Other("unknown")
  }

  /** A ```` ```javascript ```` fence is read as Java: the Java test comes first and matches its prefix. */
  lemma JavaScriptFenceIsJava(code: string)
    requires ContainsCi(code, "```javascript")
    requires !CppMarker(code) && !PythonMarker(code)
    ensures DetectLanguage(code, "") == Java
  {
    var i :| 0 <= i <= |code| && AtCi(code, i, "```javascript");
    assert "```javascript" == "```java" + "script";
    AtCiPrefix(code, i, "```java", "script");
  }

  /** A C++ fence decides the language whatever else the reply holds. */
  lemma CppFenceWins(before: string, after: string)
    ensures DetectLanguage(before + "```cpp" + after, "") == Cpp
  {
    var code := before + "```cpp" + after;
    assert code[|before|..|before| + 6] == "```cpp";
    assert AtCi(code, |before|, "```cpp");
  }

  /** A lower-case keyword at `i`, one space, then a word character: `kw\s+\w+` matches there. */
  lemma KeywordWitness(code: string, i: nat, kw: string)
    requires i + |kw| + 2 <= |code| && code[i..i + |kw|] == kw && Lower(kw) == kw
    requires code[i + |kw|] == ' ' && IsWordChar(code[i + |kw| + 1])
    ensures KeywordThenName(code, kw)
  {
    var j := i + |kw|;
    assert SkipSpaces(code, j + 1) == j + 1;
    assert SpacesThenWord(code, j);
    assert AtCi(code, i, kw);
  }

  /** Text without a backtick holds no fence, so no C++ fence. */
  lemma NoBacktickNoCppFence(s: string)
    requires '`' !in s
    ensures !CppMarker(s)
  {
    forall i | 0 <= i <= |s| ensures !AtCi(s, i, "```cpp") && !AtCi(s, i, "```c++") {
      NotAtCi(s, i, "```cpp", 0);
      NotAtCi(s, i, "```c++", 0);
    }
  }

  /** Unless a C++ fence comes first, `def` and a name make the reply Python. */
  lemma PythonDefWins(before: string, name: char, after: string)
    requires IsWordChar(name)
    requires !CppMarker(before + "def " + [name] + after)
    ensures DetectLanguage(before + "def " + [name] + after, "") == Python
  {
    var code := before + "def " + [name] + after;
    assert code[|before|..|before| + 3] == "def";
    LowerNoUpper("def");
    KeywordWitness(code, |before|, "def");
  }

  /**
   Unless a C++ fence comes first, `import`, whitespace and anything else on the line make the
   reply Python: the test does not look at what is imported.
   */
  lemma ImportIsPython(before: string, c: char, after: string)
    requires !IsLineTerminator(c)
    requires !CppMarker(before + "import " + [c] + after)
    ensures DetectLanguage(before + "import " + [c] + after, "") == Python
  {
    var code := before + "import " + [c] + after;
    var i := |before|;
    assert code[i..i + 6] == "import";
    LowerNoUpper("import");
    assert AtCi(code, i, "import");
    assert SpacesIn(code, i + 6, i + 7) && code[i + 7] == c;
    assert SpacesThenLine(code, i + 6);
  }

  /** A Java import is classified as Python. */
  lemma JavaImportIsPython()
    ensures DetectLanguage("import java.util.List;", "") == Python
  {
    var code := "import java.util.List;";
    assert code == "" + "import " + ['j'] + "ava.util.List;";
    NoBacktickNoCppFence(code);
    ImportIsPython("", 'j', "ava.util.List;");
  }

  /** With no C++ or Python marker, `class` and a name make the reply Java. */
  lemma ClassIsJava(before: string, name: char, after: string)
    requires IsWordChar(name)
    requires !CppMarker(before + "class " + [name] + after)
    requires !PythonMarker(before + "class " + [name] + after)
    ensures DetectLanguage(before + "class " + [name] + after, "") == Java
  {
    var code := before + "class " + [name] + after;
    assert code[|before|..|before| + 5] == "class";
    LowerNoUpper("class");
    KeywordWitness(code, |before|, "class");
  }

  /** With no C++, Python or Java marker, `function` and a name make the reply JavaScript. */
  lemma FunctionIsJavaScript(before: string, name: char, after: string)
    requires IsWordChar(name)
    requires !CppMarker(before + "function " + [name] + after)
    requires !PythonMarker(before + "function " + [name] + after)
    requires !JavaMarker(before + "function " + [name] + after)
    ensures DetectLanguage(before + "function " + [name] + after, "") == JavaScript
  {
    var code := before + "function " + [name] + after;
    assert code[|before|..|before| + 8] == "function";
    LowerNoUpper("function");
    KeywordWitness(code, |before|, "function");
  }

  /** With no C++, Python or Java marker, a `console.log` makes the reply JavaScript. */
  lemma ConsoleLogIsJavaScript(before: string, after: string)
    requires !CppMarker(before + "console.log" + after)
    requires !PythonMarker(before + "console.log" + after)
    requires !JavaMarker(before + "console.log" + after)
    ensures DetectLanguage(before + "console.log" + after, "") == JavaScript
  {
    var code := before + "console.log" + after;
    assert code[|before|..|before| + 11] == "console.log";
    LowerNoUpper("console.log");
    assert AtCi(code, |before|, "console.log");
  }

  /** Without an id, a reply that names no function and has no fence is `unknown`, and only then. */
  lemma UnknownOnlyWithoutMarkers(code: string)
    ensures DetectLanguage(code, "") == Other("unknown") <==>
            !CppMarker(code) && !PythonMarker(code) && !JavaMarker(code) && !JavaScriptMarker(code)
  {
  }

  /** `getTempFilePath`: the scratch file next to the module, named after the language. */
  function TempFilePath(lang: Language, base: string): (path: string)
    ensures StartsWith(path, base)
    ensures path[|base|..] in {".py", ".js", ".cpp", ".java", ".txt"}
    ensures lang.Other? <==> path[|base|..] == ".txt"
  {
    base + match lang
      case Python => ".py"
      case JavaScript => ".js"
      case Cpp => ".cpp"
      case Java => ".java"
      case Other(_) => ".txt"
  }

  /** The scratch file of each language, as the switch names it. */
  lemma ScratchFileNames(base: string)
    ensures TempFilePath(Python, base) == base + ".py"
    ensures TempFilePath(JavaScript, base) == base + ".js"
    ensures TempFilePath(Cpp, base) == base + ".cpp"
    ensures TempFilePath(Java, base) == base + ".java"
    ensures forall tag :: TempFilePath(Other(tag), base) == base + ".txt"
  {
  }

  /** The four supported languages never share a scratch file; every other id shares `.txt`. */
  lemma TempFilePathsDistinct(a: Language, b: Language, base: string)
    ensures !a.Other? && !b.Other? && a != b ==> TempFilePath(a, base) != TempFilePath(b, base)
    ensures a.Other? && b.Other? ==> TempFilePath(a, base) == TempFilePath(b, base)
  {
    var pa := TempFilePath(a, base);
    var pb := TempFilePath(b, base);
    if !a.Other? && !b.Other? && a != b {
      assert pa[|base|..] != pb[|base|..];
    }
  }
}

=== FILE: defaults.dfy ===
/**
 The Default-Value Synthesiser, `getDefaultValueFromType`: a literal argument for a parameter
 whose declared type is known only as text.
 */
module Defaults {
  import opened Wrappers
  import opened Text
  import opened TypeSpacing

  /** `lower === t || lower.startsWith(t + ' ')`: the type is `t`, possibly with more words after it. */
  predicate NamedAs(lower: string, t: string) {
    lower == t || StartsWith(lower, t + " ")
  }

  predicate IntegerType(lower: string) {
    NamedAs(lower, "int") || NamedAs(lower, "long") || NamedAs(lower, "short")
  }

  predicate FloatType(lower: string) {
    NamedAs(lower, "float") || NamedAs(lower, "double")
  }

  predicate StringType(lower: string) {
    NamedAs(lower, "string") || NamedAs(lower, "std::string") || NamedAs(lower, "str")
  }

  predicate BoolType(lower: string) {
    lower == "bool" || lower == "boolean"
  }

  /** One of the scalar rules decides the (lower-cased, normalised) type. */
  predicate ScalarType(lower: string) {
    IntegerType(lower) || FloatType(lower) || StringType(lower) || BoolType(lower)
  }

  /** `/^[A-Z].*\*$/`: a capitalised name, then anything on the same line, then a final `*`. */
  predicate ClassPointer(n: string) {
    && |n| >= 2 && IsUpper(n[0]) && n[|n| - 1] == '*'
    && forall k | 1 <= k < |n| - 1 :: !IsLineTerminator(n[k])
  }

  /** `/vector<.*>/i`: `vector<` in any case, later on the same line a `>`. */
  predicate VectorType(n: string) {
    exists i, j | 0 <= i && i + 7 <= j < |n| ::
      AtCi(n, i, "vector<") && n[j] == '>' && forall k | i + 7 <= k < j :: !IsLineTerminator(n[k])
  }

  /** `/\[\d*\]$/`: the type ends in a bracketed, possibly empty, run of digits. */
  predicate ArraySuffix(n: string) {
    && |n| >= 2 && n[|n| - 1] == ']'
    && exists i | 0 <= i < |n| - 1 :: n[i] == '[' && forall k | i < k < |n| - 1 :: IsDigit(n[k])
  }

  /** `/^[A-Z]/`. */
  predicate ClassType(n: string) {
    |n| > 0 && IsUpper(n[0])
  }

  /** `replace('*', '')`: the first `*` removed. */
  function RemoveFirst(s: string, c: char): (r: string)
    ensures c !in s ==> r == s
    ensures c in s ==> |r| == |s| - 1
    ensures |s| > 0 && s[0] != c ==> r[0] == s[0]
  {
    if s == [] then []
    else if s[0] == c then s[1..]
    else [s[0]] + RemoveFirst(s[1..], c)
  }

  /** The last `]` of the line that starts at `j`: where a greedy `.*\]` stops. */
  function LastCloser(s: string, j: nat): (m: Option<nat>)
    requires j <= |s|
    ensures m.Some? ==> j <= m.value < |s| && s[m.value] == ']'
    decreases |s| - j
  {
    if j == |s| || IsLineTerminator(s[j]) then None
    else match LastCloser(s, j + 1)
      case Some(m) => Some(m)
      case None => if s[j] == ']' then Some(j) else None
  }

  // The global, case-insensitive removal of `(std::)?vector<`, `>` and `\[.*\]`, scanning `s`
  // from `i`: the alternatives are tried in that order at each position; where none matches
  // one character is kept.
  function StripFrom(s: string, i: nat): (r: string)
    requires i <= |s|
    ensures |r| <= |s| - i
    decreases |s| - i
  {
    if i == |s| then []
    else if AtCi(s, i, "std::vector<") then StripFrom(s, i + 12)
    else if AtCi(s, i, "vector<") then StripFrom(s, i + 7)
    else if s[i] == '>' then StripFrom(s, i + 1)
    else if s[i] == '[' && LastCloser(s, i + 1).Some? then StripFrom(s, LastCloser(s, i + 1).value + 1)
    else [s[i]] + StripFrom(s, i + 1)
  }

  /** The element type of a vector or array type: the container syntax removed, then trimmed. */
  function ElementType(n: string): string {
    Trim(StripFrom(n, 0))
  }

  /** A position where one of the removal alternatives that need more than one character starts. */
  predicate RemovalAt(s: string, m: nat) {
    m < |s| && (AtCi(s, m, "vector<") || (s[m] == '[' && LastCloser(s, m + 1).Some?))
  }

  lemma {:induction false} StripShrinks(s: string, i: nat, m: nat)
    requires i <= m && RemovalAt(s, m)
    ensures |StripFrom(s, i)| < |s| - i
    decreases |s| - i
  {
    if !AtCi(s, i, "std::vector<") && !AtCi(s, i, "vector<") && s[i] != '>'
       && !(s[i] == '[' && LastCloser(s, i + 1).Some?) {
      StripShrinks(s, i + 1, m);
    }
  }

  lemma {:induction false} CloserFound(s: string, j: nat, m: nat)
    requires j <= m < |s| && s[m] == ']'
    requires forall k | j <= k <= m :: !IsLineTerminator(s[k])
    ensures LastCloser(s, j).Some?
    decreases m - j
  {
    if j < m {
      CloserFound(s, j + 1, m);
    }
  }

  /** The element type of a container type is shorter than the type: the recursion ends. */
  lemma ElementShorter(n: string)
    requires VectorType(n) || ArraySuffix(n)
    ensures |ElementType(n)| < |n|
  {
    if VectorType(n) {
      var i, j :| 0 <= i && i + 7 <= j < |n| && AtCi(n, i, "vector<") && n[j] == '>'
                  && forall k | i + 7 <= k < j :: !IsLineTerminator(n[k]);
      StripShrinks(n, 0, i);
    } else {
      var i :| 0 <= i < |n| - 1 && n[i] == '[' && forall k | i < k < |n| - 1 :: IsDigit(n[k]);
      CloserFound(n, i + 1, |n| - 1);
      StripShrinks(n, 0, i);
    }
  }

  /** A construction `T()` or `new T()` of a capitalised type name. */
  predicate IsConstruction(r: string) {
    && |r| > 2 && EndsWith(r, "()")
    && (IsUpper(r[0]) || (|r| > 6 && StartsWith(r, "new ") && IsUpper(r[4])))
  }

  /** The first half of a pair literal `{v, v}`. */
  function PairElement(r: string): string
    requires |r| >= 4
  {
    r[1..1 + (|r| - 4) / 2]
  }

  /** The literals the synthesiser writes: a scalar, a construction, or a pair of equal literals. */
  predicate IsLiteral(r: string)
    decreases |r|
  {
    || r in {"0", "1", "1.0", "\"test\"", "false", "nullptr"}
    || IsConstruction(r)
    || (|r| >= 4 && r == "{" + PairElement(r) + ", " + PairElement(r) + "}" && IsLiteral(PairElement(r)))
  }

  /** `{v, v}`. */
  function Pair(v: string): (r: string)
    ensures IsLiteral(v) ==> IsLiteral(r)
  {
    var r := "{" + v + ", " + v + "}";
    assert PairElement(r) == v;
    r
  }

  /** The pointer rule: a `char` pointer is a string, a pointer to a capitalised type a fresh object. */
  function PointerDefault(n: string): (r: string)
    ensures r == "\"test\"" || r == "nullptr" || (StartsWith(r, "new ") && IsConstruction(r))
  {
    if EndsWith(Lower(n), "char*") then "\"test\""
    else if ClassPointer(n) then
      var name := Trim(RemoveFirst(n, '*'));
      assert name[0] == n[0];
      "new " + name + "()"
    else "nullptr"
  }

  /** `getDefaultValueFromType`: `0` for a missing type, otherwise the rules on its normalisation. */
  function DefaultValue(t: string): (r: string)
    ensures t == "" ==> r == "0"
    ensures IsLiteral(r)
    decreases |t|, 1
  {
    if t == "" then "0" else Decide(Normalize(t))
  }

  /**
   The rules, in order, on a normalised type `n`: the integer, floating, string and boolean
   names; then any `*` (a `char` pointer is a string, a pointer to a capitalised type a fresh
   object, any other pointer `nullptr`); then vectors and arrays, whose element default is
   written twice; then capitalised names; then `0`.
   */
  function Decide(n: string): (r: string)
    ensures IsLiteral(r)
    decreases |n|, 0
  {
    var lower := Lower(n);
    if IntegerType(lower) then "1"
    else if FloatType(lower) then "1.0"
    else if StringType(lower) then "\"test\""
    else if BoolType(lower) then "false"
    else if '*' in n then PointerDefault(n)
    else if VectorType(n) || ArraySuffix(n) then
      ElementShorter(n);
      Pair(DefaultValue(ElementType(n)))
    else if ClassType(n) then n + "()"
    else "0"
  }

  /** A type text without any whitespace is already normal. */
  lemma NoSpaceIsNormal(s: string)
    requires NoSpace(s)
    ensures IsNormal(s)
  {
  }

  lemma DecideEmpty()
    ensures Decide("") == "0"
  {
    assert Lower("") == "";
  }

  /** Spacing never changes the default: a type and its normalisation get the same value. */
  lemma SpacingIrrelevant(t: string)
    ensures DefaultValue(Normalize(t)) == DefaultValue(t)
  {
    NormalizeIdempotent(t);
    if Normalize(t) == "" {
      DecideEmpty();
    }
  }

  /**
   Once no scalar name applies, a `*` anywhere in the type decides it, whatever container
   syntax surrounds it: `vector<int*>` is `nullptr`, not a pair.
   */
  lemma PointerRuleFirst(t: string)
    requires '*' in t
    requires !ScalarType(Lower(Normalize(t)))
    ensures DefaultValue(t) == PointerDefault(Normalize(t))
  {
    NormalizeKeepsChar(t, '*');
  }

  /** A text named `w` agrees with `w` on each of `w`'s characters. */
  lemma NamedHead(lower: string, w: string, j: nat)
    requires j < |w|
    ensures NamedAs(lower, w) ==> j < |lower| && lower[j] == w[j]
  {
    PrefixChar(lower, w, j);
  }

  /** The four scalar rules claim disjoint names, so their order never decides a default. */
  lemma ScalarNamesExclusive(lower: string)
    ensures IntegerType(lower) ==> !FloatType(lower) && !StringType(lower) && !BoolType(lower)
    ensures FloatType(lower) ==> !StringType(lower) && !BoolType(lower)
    ensures StringType(lower) ==> !BoolType(lower)
  {
    NamedHead(lower, "int", 0);
    NamedHead(lower, "long", 0);
    NamedHead(lower, "short", 0);
    NamedHead(lower, "short", 1);
    NamedHead(lower, "float", 0);
    NamedHead(lower, "double", 0);
    NamedHead(lower, "string", 0);
    NamedHead(lower, "string", 1);
    NamedHead(lower, "std::string", 0);
    NamedHead(lower, "std::string", 1);
    NamedHead(lower, "str", 0);
    NamedHead(lower, "str", 1);
  }

  /**
   The scalar rules, on the lower-cased normal form of any type: an integer name is `1`,
   `float` or `double` is `1.0`, `string`, `std::string` or `str` in any letter case (so
   Java's `String`) is `"test"`, and exactly `bool` or `boolean` is `false`.
   */
  lemma ScalarRules(t: string)
    requires t != ""
    ensures IntegerType(Lower(Normalize(t))) ==> DefaultValue(t) == "1"
    ensures FloatType(Lower(Normalize(t))) ==> DefaultValue(t) == "1.0"
    ensures StringType(Lower(Normalize(t))) ==> DefaultValue(t) == "\"test\""
    ensures BoolType(Lower(Normalize(t))) ==> DefaultValue(t) == "false"
  {
    ScalarNamesExclusive(Lower(Normalize(t)));
  }

  /**
   The pointer rule, once no scalar name applies: a type ending in `char*` in any case is
   `"test"`, a capitalised name with a final `*` is a fresh object of that name, and any other
   pointer is `nullptr`.
   */
  lemma PointerRules(t: string)
    requires '*' in t
    requires !ScalarType(Lower(Normalize(t)))
    ensures EndsWith(Lower(Normalize(t)), "char*") ==> DefaultValue(t) == "\"test\""
    ensures !EndsWith(Lower(Normalize(t)), "char*") && ClassPointer(Normalize(t)) ==>
              DefaultValue(t) == "new " + Trim(RemoveFirst(Normalize(t), '*')) + "()"
    ensures !EndsWith(Lower(Normalize(t)), "char*") && !ClassPointer(Normalize(t)) ==>
              DefaultValue(t) == "nullptr"
  {
    PointerRuleFirst(t);
  }

  /**
   The container rule, once no scalar name and no `*` applies: a vector or array type is the
   pair of its element type's default.
   */
  lemma ContainerRule(t: string)
    requires t != "" && '*' !in t
    requires !ScalarType(Lower(Normalize(t)))
    requires VectorType(Normalize(t)) || ArraySuffix(Normalize(t))
    ensures DefaultValue(t) == Pair(DefaultValue(ElementType(Normalize(t))))
  {
    NormalizeKeepsChar(t, '*');
  }

  /** When no rule applies the default is `0`. */
  lemma FallThroughZero(t: string)
    requires t != "" && '*' !in t
    requires !ScalarType(Lower(Normalize(t)))
    requires !VectorType(Normalize(t)) && !ArraySuffix(Normalize(t)) && !ClassType(Normalize(t))
    ensures DefaultValue(t) == "0"
  {
    NormalizeKeepsChar(t, '*');
  }

  /**
   A one-word type that starts with a lower-case letter outside `ilsfdb`, has no `*` or `<` and
   does not end in `]` falls through every rule: `char`, `unsigned` and `void` are `0`.
   */
  lemma LowerWordZero(t: string)
    requires t != "" && NoSpace(t) && 'a' <= t[0] <= 'z' && !(t[0] in "ilsfdb")
    requires '*' !in t && '<' !in t && t[|t| - 1] != ']'
    ensures DefaultValue(t) == "0"
  {
    assert !ScalarType(Lower(t)) by {
      assert Lower(t)[0] == t[0];
      NotScalar(Lower(t));
    }
    assert !VectorType(t) by {
      NoAngleNoVector(t);
    }
    DecideZero(t);
    DefaultOfNoSpace(t);
  }

  lemma DecideZero(n: string)
    requires !ScalarType(Lower(n)) && '*' !in n && !VectorType(n) && !ArraySuffix(n) && !ClassType(n)
    ensures Decide(n) == "0"
  {
  }

  /** The array rule on its plainest case: `int[]` is `{1, 1}`. */
  lemma IntArrayPair()
    ensures DefaultValue("int[]") == "{1, 1}"
  {
    var t := "int[]";
    IntArrayFacts(t);
    DefaultOfNoSpace(t);
    IntArrayNotScalar(t);
    DecideArray(t);
    IntArrayStrip(t);
    TableScalarRow("int");
    PairOfOne("1");
  }

  lemma DecideArray(n: string)
    requires !ScalarType(Lower(n)) && '*' !in n && ArraySuffix(n)
    ensures Decide(n) == Pair(DefaultValue(ElementType(n)))
  {
  }

  lemma IntArrayFacts(t: string)
    requires t == "int[]"
    ensures NoSpace(t) && Lower(t) == t && '*' !in t && ArraySuffix(t)
  {
    assert forall k | 0 <= k < |t| :: '!' <= t[k] <= '~';
    VisibleNoSpace(t);
    LowerNoUpper(t);
    assert t[3] == '[';
  }

  lemma IntArrayNotScalar(t: string)
    requires t == "int[]"
    ensures !ScalarType(t)
  {
    RunsOn(t, "int");
    DiffersAt(t, "long", 0);
    DiffersAt(t, "short", 0);
    DiffersAt(t, "float", 0);
    DiffersAt(t, "double", 0);
    DiffersAt(t, "string", 0);
    DiffersAt(t, "std::string", 0);
    DiffersAt(t, "str", 0);
  }

  lemma IntArrayStrip(t: string)
    requires t == "int[]"
    ensures ElementType(t) == "int"
  {
    assert LastCloser(t, 4) == Some(4);
    assert StripFrom(t, 3) == [];
    StripPlainStep(t, 2);
    StripPlainStep(t, 1);
    StripPlainStep(t, 0);
    assert StripFrom(t, 0) == "int";
    assert NoSpace("int");
  }

  /**
   A normal type whose first word is `int`, `long` or `short` is `1` whatever follows, so
   `int [10]` and `long long*` are `1`, not an array or a pointer.
   */
  lemma IntegerFirstWord(n: string, w: string)
    requires IsNormal(n)
    requires w in ["int", "long", "short"]
    requires StartsWith(n, w + " ")
    ensures DefaultValue(n) == "1"
  {
    NormalFixpoint(n);
    IntegerWordNamed(n, w);
  }

  lemma IntegerWordNamed(n: string, w: string)
    requires w in ["int", "long", "short"]
    requires StartsWith(n, w + " ")
    ensures IntegerType(Lower(n))
  {
    var p := w + " ";
    assert Lower(n)[..|p|] == Lower(n[..|p|]);
    if w == "int" {
      LowerNoUpper("int ");
    } else if w == "long" {
      LowerNoUpper("long ");
    } else {
      LowerNoUpper("short ");
    }
  }

  /** `nullptr` is only ever the default of a type that holds a `*`. */
  lemma NullptrOnlyForPointers(t: string)
    ensures DefaultValue(t) == "nullptr" ==> '*' in t
  {
    if t != "" {
      var n := Normalize(t);
      NormalizeKeepsChar(t, '*');
      DecideNullptr(n);
    }
  }

  lemma DecideNullptr(n: string)
    ensures Decide(n) == "nullptr" ==> '*' in n
  {
    var lower := Lower(n);
    if !ScalarType(lower) && '*' !in n && (VectorType(n) || ArraySuffix(n)) {
      ElementShorter(n);
      assert Decide(n)[0] == '{';
    } else if !ScalarType(lower) && '*' !in n && ClassType(n) {
      assert Decide(n)[|Decide(n)| - 1] == ')';
    }
  }

  /** The container rule, once no scalar name and no `*` applies. */
  lemma DecideContainer(n: string)
    requires !ScalarType(Lower(n)) && '*' !in n && VectorType(n)
    ensures Decide(n) == Pair(DefaultValue(ElementType(n)))
  {
  }

  /** `k` copies of `p`. */
  function Repeat(p: string, k: nat): string {
    if k == 0 then "" else p + Repeat(p, k - 1)
  }

  /** The type `vector<` ... `vector<e>` ... `>`, nested `k` deep. */
  function Nested(k: nat, e: string): string {
    Repeat("vector<", k) + e + Repeat(">", k)
  }

  lemma StripVectorStep(s: string, i: nat)
    requires i + 7 <= |s| && s[i..i + 7] == "vector<"
    ensures StripFrom(s, i) == StripFrom(s, i + 7)
  {
    NotAtCi(s, i, "std::vector<", 0);
    LowerNoUpper("vector<");
  }

  lemma StripCopyStep(s: string, i: nat)
    requires i < |s| && s[i] != '>' && s[i] != '['
    requires !AtCi(s, i, "std::vector<") && !AtCi(s, i, "vector<")
    ensures StripFrom(s, i) == [s[i]] + StripFrom(s, i + 1)
  {
  }

  lemma StripPlainStep(s: string, i: nat)
    requires i < |s| && s[i] != '>' && s[i] != '['
    requires forall p | i <= p < |s| :: s[p] != '<'
    ensures StripFrom(s, i) == [s[i]] + StripFrom(s, i + 1)
  {
    NotAtCi(s, i, "std::vector<", 11);
    NotAtCi(s, i, "vector<", 6);
    StripCopyStep(s, i);
  }

  lemma StripCloserStep(s: string, i: nat)
    requires i < |s| && s[i] == '>'
    ensures StripFrom(s, i) == StripFrom(s, i + 1)
  {
    NotAtCi(s, i, "std::vector<", 0);
    NotAtCi(s, i, "vector<", 0);
  }

  /** `s[i..j]` is `vector<` written `k` times. */
  predicate VectorRun(s: string, i: nat, j: nat, k: nat) {
    i <= j <= |s| && s[i..j] == Repeat("vector<", k)
  }

  /** A run of `vector<` openers contributes nothing to the element type. */
  lemma {:induction false} StripSkipsVectors(s: string, i: nat, k: nat, j: nat)
    requires VectorRun(s, i, j, k)
    ensures StripFrom(s, i) == StripFrom(s, j)
    decreases k
  {
    if k > 0 {
      VectorsStep(s, i, k, j);
      StripSkipsVectors(s, i + 7, k - 1, j);
      EqualThrough(StripFrom(s, i), StripFrom(s, i + 7), StripFrom(s, j));
    }
  }

  /** Two equations joined at `b`, stated apart so that the texts are not unfolded. */
  lemma EqualThrough(a: string, b: string, c: string)
    requires a == b && b == c
    ensures a == c
  {
  }

  /** The first `vector<` of the run is skipped, and the rest of the run follows it. */
  lemma VectorsStep(s: string, i: nat, k: nat, j: nat)
    requires k > 0 && VectorRun(s, i, j, k)
    ensures i + 7 <= j && VectorRun(s, i + 7, j, k - 1)
    ensures StripFrom(s, i) == StripFrom(s, i + 7)
  {
    VectorPrefix(s, i, k, j);
    StripVectorStep(s, i);
  }

  lemma VectorPrefix(s: string, i: nat, k: nat, j: nat)
    requires k > 0 && i <= j <= |s| && s[i..j] == Repeat("vector<", k)
    ensures i + 7 <= j && s[i..i + 7] == "vector<" && s[i + 7..j] == Repeat("vector<", k - 1)
  {
    assert s[i..i + 7] == s[i..j][..7];
    assert s[i + 7..j] == s[i..j][7..];
  }

  lemma {:induction false} StripKeepsPlain(s: string, i: nat, j: nat)
    requires i <= j <= |s|
    requires forall p | i <= p < j :: s[p] != '>' && s[p] != '['
    requires forall p | i <= p < |s| :: s[p] != '<'
    ensures StripFrom(s, i) == s[i..j] + StripFrom(s, j)
    decreases j - i
  {
    if i < j {
      StripPlainStep(s, i);
      StripKeepsPlain(s, i + 1, j);
      ConsSlice(s, i, j, StripFrom(s, j));
    }
  }

  lemma ConsSlice(s: string, i: nat, j: nat, rest: string)
    requires i < j <= |s|
    ensures [s[i]] + (s[i + 1..j] + rest) == s[i..j] + rest
  {
    assert s[i..j] == [s[i]] + s[i + 1..j];
  }

  lemma {:induction false} StripDropsClosers(s: string, i: nat)
    requires i <= |s|
    requires forall p | i <= p < |s| :: s[p] == '>'
    ensures StripFrom(s, i) == []
    decreases |s| - i
  {
    if i < |s| {
      StripCloserStep(s, i);
      StripDropsClosers(s, i + 1);
    }
  }

  lemma {:induction false} RepeatChar(c: char, k: nat)
    ensures |Repeat([c], k)| == k
    ensures forall p | 0 <= p < k :: Repeat([c], k)[p] == c
    decreases k
  {
    if k > 0 {
      RepeatChar(c, k - 1);
    }
  }

  lemma {:induction false} RepeatShape(p: string, k: nat, c: char)
    requires c !in p && NoSpace(p)
    ensures c !in Repeat(p, k) && NoSpace(Repeat(p, k))
    decreases k
  {
    if k > 0 {
      RepeatShape(p, k - 1, c);
      NoSpaceConcat(p, Repeat(p, k - 1));
    }
  }

  lemma {:induction false} RepeatVectorChars(k: nat)
    ensures |Repeat("vector<", k)| == 7 * k
    ensures forall p | 0 <= p < 7 * k :: Repeat("vector<", k)[p] in "vector<"
    decreases k
  {
    if k > 0 {
      RepeatVectorChars(k - 1);
      var r := Repeat("vector<", k);
      assert forall p | 7 <= p < 7 * k :: r[p] == Repeat("vector<", k - 1)[p - 7];
    }
  }

  /** Removing the container syntax from a nested vector leaves the innermost element type. */
  lemma StripNested(k: nat, e: string)
    requires '<' !in e && '>' !in e && '[' !in e
    ensures StripFrom(Nested(k, e), 0) == e
  {
    var n := Nested(k, e);
    NestedLayout(k, e, n, 7 * k, 7 * k + |e|);
    StripLayout(n, k, e, 7 * k, 7 * k + |e|);
  }

  lemma StripLayout(n: string, k: nat, e: string, a: nat, b: nat)
    requires a == 7 * k && b == a + |e|
    requires b <= |n| && n[0..a] == Repeat("vector<", k) && n[a..b] == e
    requires forall p | a <= p < b :: n[p] != '>' && n[p] != '['
    requires forall p | a <= p < |n| :: n[p] != '<'
    requires forall p | b <= p < |n| :: n[p] == '>'
    ensures StripFrom(n, 0) == e
  {
    StripSkipsVectors(n, 0, k, a);
    StripKeepsPlain(n, a, b);
    StripDropsClosers(n, b);
    assert e + [] == e;
  }

  /** Where the parts of a nested vector type stand. */
  lemma NestedLayout(k: nat, e: string, n: string, a: nat, b: nat)
    requires '<' !in e && '>' !in e && '[' !in e
    requires n == Nested(k, e) && a == 7 * k && b == a + |e|
    ensures b <= |n| && n[0..a] == Repeat("vector<", k) && n[a..b] == e
    ensures forall p | a <= p < b :: n[p] != '>' && n[p] != '['
    ensures forall p | a <= p < |n| :: n[p] != '<'
    ensures forall p | b <= p < |n| :: n[p] == '>'
  {
    RepeatChar('>', k);
    RepeatVectorChars(k);
    assert forall p | a <= p < b :: n[p] == e[p - a];
    assert forall p | b <= p < |n| :: n[p] == Repeat(">", k)[p - b];
    assert n[0..a] == Repeat("vector<", k);
    assert n[a..b] == e;
  }

  /**
   Nested vectors flatten: at any depth the innermost element's default is written twice, once,
   so `vector<vector<int>>` is `{1, 1}` like `vector<int>`.
   */
  lemma NestedVectorsFlatten(k: nat, e: string)
    requires k >= 1
    requires NoSpace(e) && '<' !in e && '>' !in e && '[' !in e && '*' !in e
    ensures DefaultValue(Nested(k, e)) == Pair(DefaultValue(e))
  {
    NestedShape(k, e);
    StripNested(k, e);
    ContainerDefault(Nested(k, e), e);
  }

  /** A vector type without whitespace, `*` or scalar name gets the pair of its stripped element's default. */
  lemma ContainerDefault(n: string, e: string)
    requires NoSpace(n) && '*' !in n && VectorType(n) && !ScalarType(Lower(n))
    requires NoSpace(e) && StripFrom(n, 0) == e
    ensures DefaultValue(n) == Pair(DefaultValue(e))
  {
    assert Trim(e) == e;
    assert ElementType(n) == e;
    NoSpaceIsNormal(n);
    NormalFixpoint(n);
    assert DefaultValue(n) == Decide(n);
    DecideContainer(n);
  }

  lemma NestedShape(k: nat, e: string)
    requires k >= 1
    requires NoSpace(e) && '*' !in e
    ensures var n := Nested(k, e); NoSpace(n) && '*' !in n && VectorType(n) && !ScalarType(Lower(n))
  {
    var n := Nested(k, e);
    assert NoSpace("vector<") && NoSpace(">");
    RepeatShape("vector<", k, '*');
    RepeatShape(">", k, '*');
    NoSpaceConcat(Repeat("vector<", k), e);
    NoSpaceConcat(Repeat("vector<", k) + e, Repeat(">", k));
    assert n[0..7] == "vector<";
    LowerNoUpper("vector<");
    RepeatChar('>', k);
    assert n[|n| - 1] == Repeat(">", k)[k - 1];
    assert AtCi(n, 0, "vector<") && n[|n| - 1] == '>';
    assert forall q | 7 <= q < |n| - 1 :: !IsLineTerminator(n[q]);
    assert Lower(n)[0] == 'v';
    NotScalar(Lower(n));
  }

  /** No scalar name starts with a character outside `ilsfdb`. */
  lemma NotScalar(lower: string)
    requires |lower| > 0 && !(lower[0] in "ilsfdb")
    ensures !ScalarType(lower)
  {
    DiffersAt(lower, "int", 0);
    DiffersAt(lower, "long", 0);
    DiffersAt(lower, "short", 0);
    DiffersAt(lower, "float", 0);
    DiffersAt(lower, "double", 0);
    DiffersAt(lower, "string", 0);
    DiffersAt(lower, "std::string", 0);
    DiffersAt(lower, "str", 0);
  }

  /** A text that differs from the name `w` at some position is not named `w`. */
  lemma DiffersAt(lower: string, w: string, j: nat)
    requires j < |w| && j < |lower| && lower[j] != w[j]
    ensures !NamedAs(lower, w)
  {
    PrefixChar(lower, w, j);
  }

  /** A text that runs on past the name `w` without a space is not named `w`. */
  lemma RunsOn(lower: string, w: string)
    requires |w| < |lower| && lower[|w|] != ' '
    ensures !NamedAs(lower, w)
  {
    PrefixChar(lower, w, |w|);
  }

  lemma PrefixChar(lower: string, w: string, j: nat)
    requires j <= |w|
    ensures StartsWith(lower, w + " ") ==> lower[j] == (w + " ")[j]
  {
    if StartsWith(lower, w + " ") {
      assert lower[..|w| + 1][j] == lower[j];
    }
  }

  /** Without a `<` there is no vector. */
  lemma NoAngleNoVector(n: string)
    requires '<' !in n
    ensures !VectorType(n)
  {
    forall i | 0 <= i <= |n| ensures !AtCi(n, i, "vector<") {
      NotAtCi(n, i, "vector<", 6);
    }
  }

  /** A type text without whitespace is its own normalisation, so the rules see it as it is. */
  lemma DefaultOfNoSpace(t: string)
    requires t != "" && NoSpace(t)
    ensures DefaultValue(t) == Decide(t)
  {
    NoSpaceIsNormal(t);
    NormalFixpoint(t);
  }

  /** A capitalised name that no other rule claims is constructed: `MyClass` is `MyClass()`. */
  lemma ClassTypeConstructs(name: string)
    requires IsNormal(name) && ClassType(name)
    requires '*' !in name && '<' !in name && name[|name| - 1] != ']'
    requires !ScalarType(Lower(name))
    ensures DefaultValue(name) == name + "()"
  {
    NormalFixpoint(name);
    NoAngleNoVector(name);
    ClassDecides(name);
  }

  lemma ClassDecides(n: string)
    ensures (!ScalarType(Lower(n)) && '*' !in n && !VectorType(n) && |n| > 0 && n[|n| - 1] != ']'
             && ClassType(n)) ==> Decide(n) == n + "()"
  {
  }

  /** A pointer to such a name is a fresh object: `MyClass*` is `new MyClass()`. */
  lemma ClassPointerConstructs(name: string)
    requires IsNormal(name) && ClassType(name)
    requires '*' !in name && !EndsWith(Lower(name), "char")
    requires !ScalarType(Lower(name))
    ensures DefaultValue(name + "*") == "new " + name + "()"
  {
    var n := name + "*";
    NormalAppendStar(name);
    NormalFixpoint(n);
    LowerStar(name);
    ScalarStar(Lower(name));
    StarSuffix(Lower(name));
    ClassPointerStar(name);
    RemoveFirstLast(name, '*');
    assert n[|n| - 1] == '*';
    PointerDecides(n, name);
  }

  lemma LowerStar(a: string)
    ensures Lower(a + "*") == Lower(a) + "*"
  {
    assert forall k | 0 <= k < |a| :: (a + "*")[k] == a[k];
  }

  lemma ClassPointerStar(name: string)
    requires SingleSpaced(name) && ClassType(name)
    ensures ClassPointer(name + "*")
  {
    var n := name + "*";
    forall k | 1 <= k < |n| - 1 ensures !IsLineTerminator(n[k]) {
      assert n[k] == name[k];
    }
  }

  /** The pointer rule decides a normal pointer type to a capitalised name: `new`, the name without its `*`, `()`. */
  lemma PointerDecides(n: string, name: string)
    requires n != "" && Normalize(n) == n && '*' in n
    requires !ScalarType(Lower(n)) && !EndsWith(Lower(n), "char*") && ClassPointer(n)
    requires RemoveFirst(n, '*') == name && Trimmed(name)
    ensures DefaultValue(n) == "new " + name + "()"
  {
    assert Trim(name) == name;
  }

  lemma NormalAppendStar(name: string)
    requires IsNormal(name) && name != [] && '*' !in name
    ensures IsNormal(name + "*")
  {
    var n := name + "*";
    StarKeepsClear(name, n, '<');
    StarKeepsClear(name, n, '>');
    StarKeepsClear(name, n, '*');
    StarKeepsClear(name, n, ',');
    StarKeepsSpacing(name, n);
  }

  /** A `*` after a text that ends in a non-space puts no whitespace next to any `c`. */
  lemma StarKeepsClear(name: string, n: string, c: char)
    requires name != [] && !IsSpace(name[|name| - 1]) && n == name + "*"
    ensures NoSpaceAround(name, c) ==> NoSpaceAround(n, c)
  {
    assert forall k | 0 <= k < |name| :: n[k] == name[k];
  }

  /** A `*` after a trimmed, single-spaced text keeps it so. */
  lemma StarKeepsSpacing(name: string, n: string)
    requires name != [] && n == name + "*"
    ensures Trimmed(name) && SingleSpaced(name) ==> Trimmed(n) && SingleSpaced(n)
  {
    assert forall k | 0 <= k < |name| :: n[k] == name[k];
  }

  lemma StarSuffix(l: string)
    ensures EndsWith(l + "*", "char*") ==> EndsWith(l, "char")
  {
    if |l| >= 4 {
      var x := l[|l| - 4..];
      assert (l + "*")[|l| - 4..] == x + "*";
      assert (x + "*")[..4] == x;
      assert "char*"[..4] == "char";
    }
  }

  lemma ScalarStar(lower: string)
    requires !ScalarType(lower)
    ensures !ScalarType(lower + "*")
  {
    NamedStar(lower, "int");
    NamedStar(lower, "long");
    NamedStar(lower, "short");
    NamedStar(lower, "float");
    NamedStar(lower, "double");
    NamedStar(lower, "string");
    NamedStar(lower, "std::string");
    NamedStar(lower, "str");
    assert (lower + "*")[|lower|] == '*';
  }

  /** A `*` after a text not named `w`, a word without `*`, does not make it named `w`. */
  lemma NamedStar(lower: string, w: string)
    requires '*' !in w
    ensures !NamedAs(lower, w) ==> !NamedAs(lower + "*", w)
  {
    var s := lower + "*";
    assert s[|s| - 1] == '*';
    if StartsWith(s, w + " ") && |w + " "| <= |lower| {
      assert s[..|w + " "|] == lower[..|w + " "|];
    }
  }

  lemma {:induction false} RemoveFirstLast(a: string, c: char)
    requires c !in a
    ensures RemoveFirst(a + [c], c) == a
    decreases |a|
  {
    if a != [] {
      assert (a + [c])[1..] == a[1..] + [c];
      RemoveFirstLast(a[1..], c);
    }
  }

  /** The type-mapping table the C++ harness prints while it wraps code, with each row's value. */
  const DebugRows: seq<(string, string)> := [
    ("int", "1"), ("float", "1.0"), ("bool", "false"), ("string", "\"test\""),
    ("std::string", "\"test\""), ("const char*", "\"test\""), ("char*", "\"test\""),
    ("int*", "nullptr"), ("std::vector<int>", "{1, 1}"), ("MyClass", "MyClass()"),
    ("MyClass*", "new MyClass()")]

  lemma DebugTable()
    ensures forall k | 0 <= k < |DebugRows| :: DefaultValue(DebugRows[k].0) == DebugRows[k].1
  {
    forall k | 0 <= k < |DebugRows| ensures DefaultValue(DebugRows[k].0) == DebugRows[k].1 {
      if k < 5 {
        TableScalarRow(DebugRows[k].0);
      } else if k < 8 {
        TablePointerRow(DebugRows[k].0);
      } else {
        DebugRowTail(k);
      }
    }
  }

  lemma DebugRowTail(k: nat)
    requires 8 <= k < |DebugRows|
    ensures DefaultValue(DebugRows[k].0) == DebugRows[k].1
  {
    if k == 8 {
      DebugRowVector(DebugRows[k].0);
    } else if k == 9 {
      TableClassRow(DebugRows[k].0);
    } else {
      DebugRowClassPointer(DebugRows[k].0);
    }
  }

  lemma DebugRowVector(t: string)
    requires t == "std::vector<int>"
    ensures DefaultValue(t) == "{1, 1}"
  {
    TableTypesNormal(t);
    VectorFacts(t);
    TableVectorElement(t);
    TableVectorRow(t);
  }

  lemma DebugRowClassPointer(t: string)
    requires t == "MyClass*"
    ensures DefaultValue(t) == "new MyClass()"
  {
    var m := "MyClass";
    assert t == m + "*";
    NewMyClass();
    PointerRowOf(t, m);
  }

  lemma PointerRowOf(t: string, m: string)
    requires m == "MyClass" && t == m + "*"
    ensures DefaultValue(t) == "new " + m + "()"
  {
    ClassFacts(m);
    ClassPointerConstructs(m);
  }

  lemma NewMyClass()
    ensures "new " + "MyClass" + "()" == "new MyClass()"
  {
  }

  lemma TableScalarRow(t: string)
    requires t in ["int", "float", "bool", "string", "std::string"]
    ensures DefaultValue(t) == (if t == "int" then "1" else if t == "float" then "1.0"
                                else if t == "bool" then "false" else "\"test\"")
  {
    TableTypesNormal(t);
    NormalFixpoint(t);
    ScalarFacts(t);
  }

  lemma TablePointerRow(t: string)
    requires t in ["const char*", "char*", "int*"]
    ensures DefaultValue(t) == (if t == "int*" then "nullptr" else "\"test\"")
  {
    TableTypesNormal(t);
    NormalFixpoint(t);
    PointerFacts(t);
  }

  lemma TableVectorRow(t: string)
    requires t != "" && IsNormal(t) && !ScalarType(Lower(t)) && '*' !in t && VectorType(t)
    requires ElementType(t) == "int"
    ensures DefaultValue(t) == "{1, 1}"
  {
    NormalFixpoint(t);
    DecideContainer(t);
    var v := DefaultValue(ElementType(t));
    assert v == "1" by {
      TableScalarRow(ElementType(t));
    }
    PairOfOne(v);
  }

  lemma PairOfOne(v: string)
    requires v == "1"
    ensures Pair(v) == "{1, 1}"
  {
  }

  lemma TableClassRow(t: string)
    requires t == "MyClass"
    ensures DefaultValue(t) == "MyClass()"
  {
    ClassFacts(t);
    ClassTypeConstructs(t);
  }

  lemma TableTypesNormal(t: string)
    requires t in ["int", "float", "bool", "string", "std::string", "const char*", "char*", "int*",
                   "std::vector<int>", "MyClass", "MyClass*"]
    ensures t != "" && IsNormal(t)
  {
    if t == "const char*" {
      ConstCharNormal();
    } else {
      assert forall k | 0 <= k < |t| :: '!' <= t[k] <= '~';
      VisibleNoSpace(t);
      NoSpaceIsNormal(t);
    }
  }

  /** Visible ASCII characters are not whitespace. */
  lemma VisibleNoSpace(s: string)
    requires forall k | 0 <= k < |s| :: '!' <= s[k] <= '~'
    ensures NoSpace(s)
  {
  }

  lemma ConstCharNormal()
    ensures IsNormal("const char*")
  {
    var c := "const char*";
    assert forall i | 0 <= i < |c| && i != 5 :: '!' <= c[i] <= '~';
    assert c[5] == ' ' && !IsTight(c[4]) && !IsTight(c[6]);
    OneSpaceNormal(c, 5);
  }

  /** A text of visible characters with one space inside it, not next to `<`, `>`, `*` or `,`, is normal. */
  lemma OneSpaceNormal(s: string, p: nat)
    requires 0 < p < |s| - 1 && s[p] == ' ' && !IsTight(s[p - 1]) && !IsTight(s[p + 1])
    requires forall i | 0 <= i < |s| && i != p :: '!' <= s[i] <= '~'
    ensures IsNormal(s)
  {
    assert forall i | 0 <= i < |s| :: IsSpace(s[i]) <==> i == p;
    assert forall i | 0 <= i < |s| && IsTight(s[i]) :: i != p - 1 && i != p && i != p + 1;
  }

  /** The scalar rows: which scalar name each one is. */
  lemma ScalarFacts(t: string)
    requires t in ["int", "float", "bool", "string", "std::string"]
    ensures Decide(t) == (if t == "int" then "1" else if t == "float" then "1.0"
                          else if t == "bool" then "false" else "\"test\"")
  {
    LowerNoUpper(t);
    if t == "int" {
      assert IntegerType(t);
    } else if t == "float" {
      DiffersAt(t, "int", 0);
      DiffersAt(t, "long", 0);
      DiffersAt(t, "short", 0);
      assert FloatType(t);
    } else if t == "bool" {
      NotScalarButBool(t);
    } else {
      DiffersAt(t, "int", 0);
      DiffersAt(t, "long", 0);
      DiffersAt(t, "short", 1);
      DiffersAt(t, "float", 0);
      DiffersAt(t, "double", 0);
      assert StringType(t);
    }
  }

  lemma NotScalarButBool(c: string)
    requires c == "bool"
    ensures !IntegerType(c) && !FloatType(c) && !StringType(c) && BoolType(c)
  {
    DiffersAt(c, "int", 0);
    DiffersAt(c, "long", 0);
    DiffersAt(c, "short", 0);
    DiffersAt(c, "float", 0);
    DiffersAt(c, "double", 0);
    DiffersAt(c, "string", 0);
    DiffersAt(c, "std::string", 0);
    DiffersAt(c, "str", 0);
  }

  /** The pointer rows: no scalar name, a `*`, and then the `char` test or nothing. */
  lemma PointerFacts(t: string)
    requires t in ["const char*", "char*", "int*"]
    ensures Decide(t) == (if t == "int*" then "nullptr" else "\"test\"")
  {
    if t == "int*" {
      IntStarFacts(t);
      PointerRuleDecides(t);
    } else {
      CharStarFacts(t);
      PointerRuleDecides(t);
    }
  }

  lemma IntStarFacts(t: string)
    requires t == "int*"
    ensures !ScalarType(Lower(t)) && '*' in t && !EndsWith(Lower(t), "char*") && !ClassPointer(t)
  {
    LowerNoUpper(t);
    RunsOn(t, "int");
    DiffersAt(t, "long", 0);
    DiffersAt(t, "short", 0);
    DiffersAt(t, "float", 0);
    DiffersAt(t, "double", 0);
    DiffersAt(t, "string", 0);
    DiffersAt(t, "std::string", 0);
    DiffersAt(t, "str", 0);
    assert t[0] != "bool"[0];
    assert t[3] == '*';
  }

  lemma CharStarFacts(t: string)
    requires t in ["const char*", "char*"]
    ensures !ScalarType(Lower(t)) && '*' in t && EndsWith(Lower(t), "char*")
  {
    LowerNoUpper(t);
    NotScalar(t);
    assert t[|t| - 1] == '*';
    var w := "char*";
    assert forall j | 0 <= j < |w| :: t[|t| - |w| + j] == w[j];
    EndsWithChars(t, w);
  }

  /** A text whose last characters are those of `w`, one by one, ends with `w`. */
  lemma EndsWithChars(s: string, w: string)
    requires |w| <= |s| && forall j | 0 <= j < |w| :: s[|s| - |w| + j] == w[j]
    ensures EndsWith(s, w)
  {
    var u := s[|s| - |w|..];
    assert forall j | 0 <= j < |u| :: u[j] == w[j];
  }

  /** Once no scalar name applies, a `*` hands the type to the pointer rule. */
  lemma PointerRuleDecides(n: string)
    requires !ScalarType(Lower(n)) && '*' in n
    ensures Decide(n) == PointerDefault(n)
  {
  }

  lemma VectorFacts(v: string)
    requires v == "std::vector<int>"
    ensures !ScalarType(Lower(v)) && '*' !in v && VectorType(v)
  {
    VectorNotScalar(v);
    AtCiChars(v, 5, "vector<");
    assert v[12] == 'i' && v[13] == 'n' && v[14] == 't' && v[15] == '>';
    VectorAt(v, 5, 15);
    VectorNoStar(v);
  }

  lemma VectorNoStar(v: string)
    requires v == "std::vector<int>"
    ensures '*' !in v
  {
    assert forall k | 0 <= k < |v| :: v[k] != '*';
  }

  /** `vector<` in any case at `i`, and a `>` at `j` later on the same line, make a vector type. */
  lemma VectorAt(n: string, i: nat, j: nat)
    requires AtCi(n, i, "vector<") && i + 7 <= j < |n| && n[j] == '>'
    requires forall k | i + 7 <= k < j :: !IsLineTerminator(n[k])
    ensures VectorType(n)
  {
  }

  lemma VectorNotScalar(v: string)
    requires v == "std::vector<int>"
    ensures !ScalarType(Lower(v))
  {
    LowerNoUpper(v);
    StdNotScalar(v);
  }

  /** A text that starts `std` followed by neither `::s` nor `ing` is no scalar name. */
  lemma StdNotScalar(l: string)
    requires |l| > 5 && l[0] == 's' && l[1] == 't' && l[2] == 'd' && l[5] != 's'
    ensures !ScalarType(l)
  {
    DiffersAt(l, "int", 0);
    DiffersAt(l, "long", 0);
    DiffersAt(l, "short", 1);
    DiffersAt(l, "float", 0);
    DiffersAt(l, "double", 0);
    DiffersAt(l, "string", 2);
    DiffersAt(l, "std::string", 5);
    DiffersAt(l, "str", 2);
    assert l[0] != "bool"[0];
  }

  lemma TableVectorElement(v: string)
    requires v == "std::vector<int>"
    ensures ElementType(v) == "int"
  {
    assert v[0..12] == "std::vector<";
    LowerNoUpper("std::vector<");
    assert StripFrom(v, 16) == [];
    assert StripFrom(v, 15) == [];
    assert StripFrom(v, 14) == "t";
    assert StripFrom(v, 13) == "nt";
    assert StripFrom(v, 12) == "int";
    assert StripFrom(v, 0) == "int";
    assert NoSpace("int");
  }

  lemma ClassFacts(m: string)
    requires m == "MyClass"
    ensures IsNormal(m) && ClassType(m) && '*' !in m && '<' !in m && m[|m| - 1] != ']'
    ensures !ScalarType(Lower(m)) && !EndsWith(Lower(m), "char")
  {
    assert forall k | 0 <= k < |m| :: '!' <= m[k] <= '~';
    VisibleNoSpace(m);
    NoSpaceIsNormal(m);
    assert Lower(m)[0] == 'm';
    NotScalar(Lower(m));
    assert Lower(m)[3] == 'l';
    EndsWithHead(Lower(m), "char");
  }

  lemma EndsWithHead(s: string, w: string)
    requires |w| > 0
    ensures EndsWith(s, w) ==> s[|s| - |w|] == w[0]
  {
    if EndsWith(s, w) {
      assert s[|s| - |w|..][0] == s[|s| - |w|];
    }
  }
}

=== FILE: executor.dfy ===
/**
 The Executor, `runCode`: it cleans a reply, wraps it for testing, writes it to the scratch file
 of its language, runs the command for that language, and reads the process's report as a
 success (with standard output) or a failure (with a message). Writing the file and running the
 process are outside the model: the report is an input.
 */
module Executor {
  import opened Wrappers
  import opened Text
  import opened Classify
  import opened Sanitize
  import opened Harness

  /** The error `exec` passes its callback: the exit code, when there is one, and its message. */
  datatype ExecError = ExecError(code: Option<int>, message: string)

  /** What `exec` reports about one process. */
  datatype ExecReport = ExecReport(error: Option<ExecError>, stdout: string, stderr: string)

  /** `{ success, message }`. */
  datatype RunResult = RunResult(success: bool, message: string)

  /** A promise's fate: resolved with a value, or rejected by an exception. */
  datatype Outcome<T> = Resolved(value: T) | Rejected

  /** The process failed: there is an error and its exit code is not `0`. */
  predicate Failed(r: ExecReport) {
    r.error.Some? && r.error.value.code != Some(0)
  }

  /**
   The callback of `exec`: a failure carries standard error, or the error's message when
   standard error is empty; a success carries standard output.
   */
  function ClassifyRun(r: ExecReport): (res: RunResult)
    ensures res.success <==> !Failed(r)
    ensures res.success ==> res.message == r.stdout
    ensures !res.success && r.stderr != "" ==> res.message == r.stderr
    ensures !res.success && r.stderr == "" ==> res.message == r.error.value.message
  {
    if Failed(r) then RunResult(false, if r.stderr != "" then r.stderr else r.error.value.message)
    else RunResult(true, r.stdout)
  }

  /** A process that exits with code `0` succeeds even when it writes to standard error. */
  lemma ExitZeroSucceeds(message: string, stdout: string, stderr: string)
    ensures ClassifyRun(ExecReport(Some(ExecError(Some(0), message)), stdout, stderr)) == RunResult(true, stdout)
  {
  }

  /** A failure's message is never empty when the process wrote to standard error or the error has a message. */
  lemma FailureMessage(r: ExecReport)
    requires Failed(r)
    ensures ClassifyRun(r).message == "" <==> r.stderr == "" && r.error.value.message == ""
  {
  }

  /** The offset of the last `/`. */
  function LastSlash(s: string): (r: Option<nat>)
    ensures r.Some? ==> r.value < |s| && s[r.value] == '/'
    ensures r.Some? ==> forall k | r.value < k < |s| :: s[k] != '/'
    ensures r.None? ==> '/' !in s
  {
    if s == [] then None
    else if s[|s| - 1] == '/' then Some(|s| - 1)
    else LastSlash(s[..|s| - 1])
  }

  /** `path.dirname` of a path that does not end with `/`. */
  function Dirname(s: string): string {
    match LastSlash(s)
    case None => "."
    case Some(i) => if i == 0 then "/" else s[..i]
  }

  /** `path.basename` of a path that does not end with `/`. */
  function Basename(s: string): string {
    match LastSlash(s)
    case None => s
    case Some(i) => s[i + 1..]
  }

  /** The first offset at or after `i` where `p` occurs. */
  function FindFrom(s: string, p: string, i: nat): (r: Option<nat>)
    requires i <= |s|
    ensures r.Some? ==> i <= r.value && At(s, r.value, p)
    ensures r.Some? ==> forall k | i <= k < r.value :: !At(s, k, p)
    ensures r.None? ==> forall k | i <= k <= |s| :: !At(s, k, p)
    decreases |s| - i
  {
    if At(s, i, p) then Some(i) else if i == |s| then None else FindFrom(s, p, i + 1)
  }

  /** `s.replace(p, q)` with a string pattern: only the first occurrence is replaced. */
  function ReplaceFirst(s: string, p: string, q: string): string {
    match FindFrom(s, p, 0)
    case None => s
    case Some(i) => s[..i] + q + s[i + |p|..]
  }

  /** The shell command for each supported language; other languages have none. */
  function Command(lang: Language, filePath: string): (r: Option<string>)
    ensures r.Some? <==> !lang.Other?
  {
    match lang
    case Python => Some("python3 " + filePath)
    case JavaScript => Some("node " + filePath)
    case Cpp => Some("g++ \"" + filePath + "\" -o \"" + filePath + ".exe\" && \"" + filePath + ".exe\"")
    case Java =>
      Some("javac " + filePath + " && java -cp " + Dirname(filePath) + " "
           + ReplaceFirst(Basename(filePath), ".java", ""))
    case Other(_) => None
  }

  /** Every command names the scratch file. */
  lemma CommandNamesFile(lang: Language, filePath: string)
    requires !lang.Other?
    ensures Command(lang, filePath).Some? && Contains(Command(lang, filePath).value, filePath)
  {
    match lang {
      case Python =>
        ContainsEnd("python3 ", filePath);
      case JavaScript =>
        ContainsEnd("node ", filePath);
      case Cpp =>
        var s1 := "g++ \"" + filePath;
        var s2 := s1 + "\" -o \"";
        var s3 := s2 + filePath;
        var s4 := s3 + ".exe\" && \"";
        var s5 := s4 + filePath;
        ContainsEnd("g++ \"", filePath);
        ContainsExtend(s1, "\" -o \"", filePath);
        ContainsExtend(s2, filePath, filePath);
        ContainsExtend(s3, ".exe\" && \"", filePath);
        ContainsExtend(s4, filePath, filePath);
        ContainsExtend(s5, ".exe\"", filePath);
      case Java =>
        var s1 := "javac " + filePath;
        var s2 := s1 + " && java -cp ";
        var s3 := s2 + Dirname(filePath);
        var s4 := s3 + " ";
        ContainsEnd("javac ", filePath);
        ContainsExtend(s1, " && java -cp ", filePath);
        ContainsExtend(s2, Dirname(filePath), filePath);
        ContainsExtend(s3, " ", filePath);
        ContainsExtend(s4, ReplaceFirst(Basename(filePath), ".java", ""), filePath);
    }
  }

  /** The Java command compiles `dir/name.java` and runs class `name` from `dir`. */
  lemma JavaCommandRunsClass(dir: string, name: string)
    requires '/' !in name && '.' !in name
    requires |dir| > 0
    ensures Command(Java, TempFilePath(Java, dir + "/" + name))
            == Some("javac " + dir + "/" + name + ".java && java -cp " + dir + " " + name)
  {
    var path := dir + "/" + name + ".java";
    assert TempFilePath(Java, dir + "/" + name) == path;
    PathParts(dir, name, path);
    FirstJavaSuffix(name);
    JavaCommandText(dir, name, path);
  }

  lemma JavaCommandText(dir: string, name: string, path: string)
    requires path == dir + "/" + name + ".java"
    ensures "javac " + path + " && java -cp " + dir + " " + name
            == "javac " + dir + "/" + name + ".java && java -cp " + dir + " " + name
  {
    assert ".java" + " && java -cp " == ".java && java -cp ";
  }

  /** `path.dirname` and `path.basename` of `dir/name.java`. */
  lemma PathParts(dir: string, name: string, path: string)
    requires '/' !in name && '.' !in name
    requires |dir| > 0
    requires path == dir + "/" + name + ".java"
    ensures Dirname(path) == dir && Basename(path) == name + ".java"
  {
    var i := |dir|;
    assert path[i] == '/';
    forall k | i < k < |path| ensures path[k] != '/' {
      if k < i + 1 + |name| {
        assert path[k] == name[k - i - 1];
        assert name[k - i - 1] in name;
      } else {
        assert path[k] == ".java"[k - i - 1 - |name|];
      }
    }
    LastSlashAt(path, i);
    assert path[..i] == dir;
    assert path[i + 1..] == name + ".java";
  }

  /** The last `/` of a path is where the path says it is. */
  lemma LastSlashAt(s: string, i: nat)
    requires i < |s| && s[i] == '/'
    requires forall k | i < k < |s| :: s[k] != '/'
    ensures LastSlash(s) == Some(i)
    decreases |s|
  {
    if s[|s| - 1] != '/' {
      var t := s[..|s| - 1];
      assert t[i] == s[i];
      LastSlashAt(t, i);
    }
  }

  /** In `name.java`, with no `.` in `name`, the first `.java` is the suffix. */
  lemma FirstJavaSuffix(name: string)
    requires '.' !in name
    ensures ReplaceFirst(name + ".java", ".java", "") == name
  {
    var s := name + ".java";
    forall k | 0 <= k < |name| ensures !At(s, k, ".java") {
      assert s[k] == name[k];
      assert name[k] in name;
    }
    assert At(s, |name|, ".java") by {
      assert s[|name|..|name| + 5] == ".java";
    }
    FindFromSkips(s, ".java", 0, |name|);
    assert s[..|name|] == name && s[|name| + 5..] == [];
  }

  lemma {:induction false} FindFromSkips(s: string, p: string, i: nat, j: nat)
    requires i <= j <= |s|
    requires forall k | i <= k < j :: !At(s, k, p)
    requires At(s, j, p)
    ensures FindFrom(s, p, i) == Some(j)
    decreases j - i
  {
    if i < j {
      FindFromSkips(s, p, i + 1, j);
    }
  }

  /**
   `runCode(lang, code)`: the reply is cleaned and wrapped; an exception from the harness, or
   the missing program of an unsupported language (which writing the file refuses), rejects the
   promise; otherwise the program runs and its report decides the result. The parser reads the
   cleaned code; `exec` maps the command and the program text to the process's report; `base`
   is the scratch file's path without its extension.
   */
  function RunCode(lang: Language, code: string, parse: string -> Parse,
                   exec: (string, string) -> ExecReport, base: string): (r: Outcome<RunResult>)
    ensures lang.Other? ==> r.Rejected?
  {
    var cleaned := StripMarkdown(code);
    match WrapForTest(cleaned, lang, parse(cleaned))
    case Source(program) =>
      var command := Command(lang, TempFilePath(lang, base));
      Resolved(ClassifyRun(exec(command.value, program)))
    case _ => Rejected
  }

  /** `runCode` resolves exactly when the harness gives a program, and then runs that program. */
  lemma RunCodeResolvesIff(lang: Language, code: string, parse: string -> Parse,
                           exec: (string, string) -> ExecReport, base: string)
    ensures var cleaned := StripMarkdown(code);
            var w := WrapForTest(cleaned, lang, parse(cleaned));
            && (RunCode(lang, code, parse, exec, base).Resolved? <==> w.Source?)
            && (w.Source? ==>
                  && !lang.Other?
                  && RunCode(lang, code, parse, exec, base)
                     == Resolved(ClassifyRun(exec(Command(lang, TempFilePath(lang, base)).value, w.text))))
  {
    var cleaned := StripMarkdown(code);
    var w := WrapForTest(cleaned, lang, parse(cleaned));
    if w.Source? {
      assert !lang.Other?;
    }
  }

  /** A Python, JavaScript or Java program runs the cleaned reply itself, perhaps with a driver after it. */
  lemma RunsCleanedReply(lang: Language, code: string, parse: string -> Parse, base: string, program: string)
    requires lang in {Python, JavaScript, Java}
    requires WrapForTest(StripMarkdown(code), lang, parse(StripMarkdown(code))) == Source(program)
    ensures StartsWith(program, StripMarkdown(code))
  {
  }

  /** An unsupported language never reaches the process: `runCode` rejects. */
  lemma UnsupportedRejects(tag: string, code: string, parse: string -> Parse,
                           exec: (string, string) -> ExecReport, base: string)
    requires tag !in KnownTags
    ensures RunCode(FromTag(tag), code, parse, exec, base) == Rejected
  {
  }
}

=== FILE: harness.dfy ===
/**
 The Harness Composer, `wrapCppFunctionForTest`: it turns a bare function into a runnable
 program by appending a driver that calls it with default arguments. What the parsers report
 about the code (the first function's name and parameter types, the statements that read from
 `std::cin`) is an input.
 */
module Harness {
  import opened Wrappers
  import opened Text
  import opened Classify
  import opened TypeSpacing
  import opened Defaults
  import opened CinRewrite

  /** One piece of a search pattern. */
  datatype Piece =
    | Lit(text: string)       // the text itself
    | Gap(atLeastOne: bool)   // `\s+` or `\s*`
    | Quote                   // `['"]`

  /**
   The pattern matches at `i`. Every gap in the patterns below is followed by a piece that
   cannot start with whitespace, so the greedy gap is the only way to match.
   */
  predicate MatchFrom(s: string, i: nat, pat: seq<Piece>)
    requires i <= |s|
    decreases |pat|
  {
    if pat == [] then true
    else match pat[0]
      case Lit(t) => At(s, i, t) && MatchFrom(s, i + |t|, pat[1..])
      case Gap(one) =>
        var j := SkipSpaces(s, i);
        (!one || j > i) && MatchFrom(s, j, pat[1..])
      case Quote => i < |s| && (s[i] == '\'' || s[i] == '"') && MatchFrom(s, i + 1, pat[1..])
  }

  /** `pattern.test(s)`: the pattern matches somewhere. */
  predicate Finds(s: string, pat: seq<Piece>) {
    exists i | 0 <= i <= |s| :: MatchFrom(s, i, pat)
  }

  /** `/if\s+__name__\s*==\s*['"]__main__['"]/`. */
  const PythonEntry: seq<Piece> :=
    [Lit("if"), Gap(true), Lit("__name__"), Gap(false), Lit("=="), Gap(false), Quote, Lit("__main__"), Quote]

  /** `/console\.log\(/`. */
  const JavaScriptEntry: seq<Piece> := [Lit("console.log(")]

  /** `/public\s+static\s+void\s+main\s*\(/`. */
  const JavaEntry: seq<Piece> :=
    [Lit("public"), Gap(true), Lit("static"), Gap(true), Lit("void"), Gap(true), Lit("main"), Gap(false), Lit("(")]

  /** `/int\s+main\s*\(/`. */
  const CppEntry: seq<Piece> := [Lit("int"), Gap(true), Lit("main"), Gap(false), Lit("(")]

  /**
   What a parser reports about the first function of a Python, Java or JavaScript program: its
   name, if the node has one, and its parameters' type texts, if the node has a parameter list.
   */
  datatype FuncInfo =
    | NoFunction
    | Function(name: Option<string>, params: Option<seq<Option<string>>>)

  /**
   What the C++ parser reports about the first `function_definition`: the first identifier of
   its declarator, the type tokens of each parameter joined by spaces (present only when the
   declarator's own declarator has a parameter list), and the function's text.
   */
  datatype CppFunc =
    | NoCppFunction
    | CppFunction(name: Option<string>, params: Option<seq<string>>, text: string)

  /**
   Everything the parsers report for one cleaned text. The C++ harness parses twice: `cinSpans`
   are the statements of the cleaned text, and `cpp` describes the text after the `std::cin`
   rewrite. Both are functions of the cleaned text, so one value carries them.
   */
  datatype Parse = Parse(func: FuncInfo, cinSpans: seq<Span>, cpp: CppFunc)

  /** The harness's result: program text, `undefined` (no case for the language), or an exception. */
  datatype Wrapped = Source(text: string) | Undefined | Thrown

  /** `node?.text || 'func'`. */
  function CallName(name: Option<string>): (r: string)
    ensures r != ""
    ensures name.Some? && name.value != "" ==> r == name.value
  {
    if name.Some? && name.value != "" then name.value else "func"
  }

  /** One default argument per parameter; a parameter without a type is taken as `int`. */
  function TypedArgs(types: seq<Option<string>>): (r: seq<string>)
    ensures |r| == |types|
    ensures forall k | 0 <= k < |r| :: r[k] == DefaultValue(types[k].GetOr("int"))
  {
    if types == [] then [] else [DefaultValue(types[0].GetOr("int"))] + TypedArgs(types[1..])
  }

  // The drivers, character for character; each is written with its entry point as a separate piece.

  function PythonMain(name: string, args: seq<string>): string {
    "\n" + "if __name__ == \"__main__\"" + ":\nprint(\"Test result:\", " + name + "(" + Join(args, ", ") + "))\n      "
  }

  function JavaScriptMain(name: string, args: seq<string>): string {
    "console.log(" + "\"Test result:\", " + name + "(" + Join(args, ", ") + "));"
  }

  function JavaMain(name: string, args: seq<string>): string {
    "\npublic class Test {\n    " + "public static void main(" + "String[] args) {\n        System.out.println("
    + name + "(" + Join(args, ", ") + "));\n    }\n}\n      "
  }

  function CppMain(name: string, args: seq<string>): string {
    "\n" + "int main(" + ") {\n  auto result = " + name + "(" + Join(args, ", ")
    + ");\n  std::cout << \"Test result: \" << result << std::endl;\n  return 0;\n}\n  "
  }

  /**
   The Python case: a program with an entry point, or without a function, is kept; a function
   node without a parameter list makes the parameter reader return `[]`, whose missing `args`
   the driver cannot join.
   */
  function WrapPython(code: string, f: FuncInfo): Wrapped {
    if Finds(code, PythonEntry) || f.NoFunction? then Source(code)
    else match f.params
      case None => Thrown
      case Some(types) => Source(code + "\n" + PythonMain(CallName(f.name), TypedArgs(types)))
  }

  /** Every JavaScript argument is the string `"test"`: the parser reports no types. */
  function JavaScriptArgs(params: Option<seq<Option<string>>>): (r: seq<string>)
    ensures |r| == |params.GetOr([])|
    ensures forall k | 0 <= k < |r| :: r[k] == "\"test\""
  {
    seq(|params.GetOr([])|, _ => "\"test\"")
  }

  function WrapJavaScript(code: string, f: FuncInfo): Wrapped {
    if Finds(code, JavaScriptEntry) || f.NoFunction? then Source(code)
    else Source(code + "\n" + JavaScriptMain(CallName(f.name), JavaScriptArgs(f.params)))
  }

  /** The Java case: the type of a parameter is its first child; no parameter list gives no arguments. */
  function WrapJava(code: string, f: FuncInfo): Wrapped {
    if Finds(code, JavaEntry) || f.NoFunction? then Source(code)
    else Source(code + "\n" + JavaMain(CallName(f.name), TypedArgs(f.params.GetOr([]))))
  }

  /** `/^char\s*\*$/i`. */
  predicate CharPointer(t: string) {
    AtCi(t, 0, "char") && SkipSpaces(t, 4) + 1 == |t| && t[|t| - 1] == '*'
  }

  /**
   The typed C++ arguments: the default of each normalised parameter type. A parameter of type
   `char*` names the undefined variable `idx` and throws (`None`).
   */
  function CppArgs(types: seq<string>): (r: Option<seq<string>>)
    ensures r.Some? ==> |r.value| == |types|
  {
    if types == [] then Some([])
    else
      var t := Normalize(types[0]);
      if CharPointer(t) then None
      else match CppArgs(types[1..])
        case None => None
        case Some(rest) => Some([DefaultValue(t)] + rest)
  }

  /** The first offset at or after `i` that holds `c`. */
  function IndexFrom(s: string, c: char, i: nat): (r: Option<nat>)
    requires i <= |s|
    ensures r.Some? ==> i <= r.value < |s| && s[r.value] == c
    ensures r.Some? ==> forall k | i <= k < r.value :: s[k] != c
    ensures r.None? ==> forall k | i <= k < |s| :: s[k] != c
    decreases |s| - i
  {
    if i == |s| then None else if s[i] == c then Some(i) else IndexFrom(s, c, i + 1)
  }

  /**
   The group of `/\(([^)]*)\)/`: what lies between the first `(` and the first `)` after it.
   When no `)` follows the first `(`, none follows a later one either, so there is no match.
   */
  function FirstGroup(s: string): (r: Option<string>)
    ensures r.Some? ==> ')' !in r.value
  {
    match IndexFrom(s, '(', 0)
    case None => None
    case Some(i) =>
      match IndexFrom(s, ')', i + 1)
      case None => None
      case Some(j) =>
        Some(s[i + 1..j])
  }

  /** `s.split(c)`. */
  function Split(s: string, c: char): (r: seq<string>)
    ensures |r| >= 1
    ensures forall k | 0 <= k < |r| :: c !in r[k]
  {
    if s == [] then [[]]
    else
      var rest := Split(s[1..], c);
      if s[0] == c then [[]] + rest else [[s[0]] + rest[0]] + rest[1..]
  }

  /** `.map(s => s.trim()).filter(Boolean)`. */
  function Kept(xs: seq<string>): (r: seq<string>)
    ensures |r| <= |xs|
    ensures forall k | 0 <= k < |r| :: r[k] != ""
  {
    if xs == [] then []
    else (if Trim(xs[0]) != "" then [Trim(xs[0])] else []) + Kept(xs[1..])
  }

  function Ones(n: nat): (r: seq<string>)
    ensures |r| == n
    ensures forall k | 0 <= k < n :: r[k] == "1"
  {
    seq(n, _ => "1")
  }

  /** The fallback arguments: one `1` for each non-blank comma item of the first parenthesised group. */
  function FallbackArgs(text: string): seq<string> {
    match FirstGroup(text)
    case None => []
    case Some(g) => if Trim(g) != "" then Ones(|Kept(Split(g, ','))|) else []
  }

  /**
   The C++ case: the reads from `std::cin` are rewritten first (with the value `1`); a program
   that then has a `main`, or has no function, is returned; otherwise the header block is put
   in front and a `main` that calls the first function is put after.
   */
  function WrapCpp(code: string, spans: seq<Span>, f: CppFunc): Wrapped {
    WrapRewrittenCpp(ReplaceCinWithConst(code, spans, "1"), f)
  }

  /** The C++ case once the reads are rewritten, on the rewritten code `c`. */
  function WrapRewrittenCpp(c: string, f: CppFunc): Wrapped {
    if Finds(c, CppEntry) || f.NoCppFunction? then Source(c)
    else match CppArgs(f.params.GetOr([]))
      case None => Thrown
      case Some(typed) =>
        var args := if typed == [] then FallbackArgs(f.text) else typed;
        Source(AutoAddCommonIncludes(c) + "\n" + CppMain(f.name.GetOr("func"), args))
  }

  /** The headers `autoAddCommonIncludes` puts in front, in order. */
  const CommonHeaders: seq<string> := [
    "iostream", "cstdio", "cstdlib", "cstring", "string", "vector", "map", "unordered_map", "set",
    "algorithm", "cmath", "cassert", "functional", "memory", "thread", "mutex", "chrono"]

  /** One `#include <h>` line per header. */
  function IncludeLines(hs: seq<string>): string {
    if hs == [] then "" else "#include <" + hs[0] + ">\n" + IncludeLines(hs[1..])
  }

  /** `autoAddCommonIncludes`: the header block, an empty line, then the code. */
  function AutoAddCommonIncludes(code: string): (r: string)
    ensures EndsWith(r, code)
  {
    var r := IncludeLines(CommonHeaders) + "\n" + code;
    assert r[|r| - |code|..] == code;
    r
  }

  /** `wrapCppFunctionForTest(code, lang)`: its `switch` has no case for any other language. */
  function WrapForTest(code: string, lang: Language, p: Parse): (r: Wrapped)
    ensures lang.Other? <==> r.Undefined?
    ensures lang in {Python, JavaScript, Java} && r.Source? ==> StartsWith(r.text, code)
  {
    match lang
    case Python => WrapPython(code, p.func)
    case JavaScript => WrapJavaScript(code, p.func)
    case Java => WrapJava(code, p.func)
    case Cpp => WrapCpp(code, p.cinSpans, p.cpp)
    case Other(_) => Undefined
  }

  /** The entry-point pattern of each language the harness wraps. */
  function Entry(lang: Language): seq<Piece> {
    match lang
    case Python => PythonEntry
    case JavaScript => JavaScriptEntry
    case Java => JavaEntry
    case _ => CppEntry
  }

  /**
   Python, JavaScript and Java code is returned as it is exactly when its entry-point pattern
   is found or the parser finds no function.
   */
  lemma KeptIff(code: string, lang: Language, p: Parse)
    requires lang in {Python, JavaScript, Java}
    ensures WrapForTest(code, lang, p) == Source(code) <==> Finds(code, Entry(lang)) || p.func.NoFunction?
  {
    var r := WrapForTest(code, lang, p);
    if r.Source? && !Finds(code, Entry(lang)) && p.func.Function? {
      assert |r.text| > |code|;
    }
  }

  /** A plain text the pattern matches: each `\s+` as one space, each `\s*` as one space when `wide`, each quote as `"`. */
  function Render(pat: seq<Piece>, wide: bool): string {
    if pat == [] then ""
    else Show(pat[0], wide) + Render(pat[1..], wide)
  }

  function Show(x: Piece, wide: bool): string {
    match x
    case Lit(t) => t
    case Gap(one) => if one || wide then " " else ""
    case Quote => "\""
  }

  /** The pattern starts with a piece that cannot match whitespace. */
  predicate StartsSolid(pat: seq<Piece>) {
    pat != [] && (pat[0].Quote? || (pat[0].Lit? && |pat[0].text| > 0 && !IsSpace(pat[0].text[0])))
  }

  /** Every gap is followed by a piece that cannot match whitespace. */
  predicate WellFormed(pat: seq<Piece>) {
    forall k | 0 <= k < |pat| :: pat[k].Gap? ==> StartsSolid(pat[k + 1..])
  }

  lemma RenderHead(pat: seq<Piece>, wide: bool)
    requires StartsSolid(pat)
    ensures |Render(pat, wide)| > 0 && !IsSpace(Render(pat, wide)[0])
  {
  }

  lemma SliceSplit(s: string, i: nat, a: string, b: string)
    requires i + |a| + |b| <= |s| && s[i..i + |a| + |b|] == a + b
    ensures s[i..i + |a|] == a && s[i + |a|..i + |a| + |b|] == b
  {
    assert forall m | i <= m < i + |a| + |b| :: s[m] == (a + b)[m - i];
  }

  /** A pattern matches wherever a text it renders to stands. */
  lemma {:induction false} RenderMatches(s: string, i: nat, pat: seq<Piece>, wide: bool)
    requires WellFormed(pat)
    requires i + |Render(pat, wide)| <= |s| && s[i..i + |Render(pat, wide)|] == Render(pat, wide)
    ensures MatchFrom(s, i, pat)
    decreases |pat|
  {
    if pat != [] {
      WellFormedTail(pat);
      var h := Show(pat[0], wide);
      var tail := Render(pat[1..], wide);
      SliceSplit(s, i, h, tail);
      RenderMatches(s, i + |h|, pat[1..], wide);
      if pat[0].Gap? {
        RenderHead(pat[1..], wide);
      }
      HeadMatches(s, i, pat, wide, h, tail);
    }
  }

  /** The rest of a well-formed pattern is well formed, and after a gap it starts solid. */
  lemma WellFormedTail(pat: seq<Piece>)
    requires pat != []
    ensures WellFormed(pat) ==> WellFormed(pat[1..]) && (pat[0].Gap? ==> StartsSolid(pat[1..]))
  {
    if WellFormed(pat) {
      var rest := pat[1..];
      assert forall k | 0 <= k < |rest| :: rest[k] == pat[k + 1] && rest[k + 1..] == pat[k + 2..];
      assert pat[0 + 1..] == rest;
    }
  }

  /** Spaces skipped from `i` end where a gap's text ends when a non-space follows it. */
  lemma GapSkips(s: string, i: nat, h: string, tail: string)
    requires h == " " || h == ""
    requires i + |h| + |tail| <= |s| && s[i..i + |h|] == h && s[i + |h|..i + |h| + |tail|] == tail
    requires |tail| > 0 && !IsSpace(tail[0])
    ensures SkipSpaces(s, i) == i + |h|
  {
    var j := i + |h|;
    assert s[j] == tail[0] by {
      assert s[j..j + |tail|][0] == s[j];
    }
    if h == " " {
      assert s[i] == s[i..j][0] == ' ';
      SkipOne(s, i);
    } else {
      SkipNone(s, i);
    }
  }

  /** The first piece matches its own text, so the pattern matches when the rest matches after it. */
  lemma HeadMatches(s: string, i: nat, pat: seq<Piece>, wide: bool, h: string, tail: string)
    requires pat != []
    ensures (h == Show(pat[0], wide) && i + |h| + |tail| <= |s| && s[i..i + |h|] == h
             && s[i + |h|..i + |h| + |tail|] == tail && (pat[0].Gap? ==> |tail| > 0 && !IsSpace(tail[0]))
             && MatchFrom(s, i + |h|, pat[1..]))
            ==> MatchFrom(s, i, pat)
  {
    var j := i + |h|;
    if h == Show(pat[0], wide) && j + |tail| <= |s| && s[i..j] == h && s[j..j + |tail|] == tail
       && (pat[0].Gap? ==> |tail| > 0 && !IsSpace(tail[0])) && MatchFrom(s, j, pat[1..]) {
      match pat[0]
      case Lit(t) =>
        assert At(s, i, t);
      case Gap(one) =>
        GapSkips(s, i, h, tail);
      case Quote =>
        QuoteAt(s, i, h);
    }
  }

  /** A quote's text standing at `i` puts a double quote there. */
  lemma QuoteAt(s: string, i: nat, h: string)
    requires h == "\"" && i + |h| <= |s| && s[i..i + |h|] == h
    ensures i < |s| && s[i] == '"'
  {
    assert s[i] == s[i..i + |h|][0];
  }

  /** A pattern is found in any text holding a text it renders to. */
  lemma FindsRender(x: string, pat: seq<Piece>, wide: bool, y: string)
    requires WellFormed(pat)
    ensures Finds(x + Render(pat, wide) + y, pat)
  {
    var s := x + Render(pat, wide) + y;
    assert s[|x|..|x| + |Render(pat, wide)|] == Render(pat, wide);
    RenderMatches(s, |x|, pat, wide);
  }

  lemma {:induction false} RenderStep(pat: seq<Piece>, wide: bool, k: nat)
    requires k < |pat|
    ensures Render(pat[k..], wide) == Show(pat[k], wide) + Render(pat[k + 1..], wide)
  {
    assert pat[k..][1..] == pat[k + 1..];
  }

  /** The text of a five-piece pattern, given the text of each piece. */
  lemma RenderFive(p: seq<Piece>, wide: bool, a0: string, a1: string, a2: string, a3: string, a4: string)
    requires |p| == 5
    requires Show(p[0], wide) == a0 && Show(p[1], wide) == a1 && Show(p[2], wide) == a2
    requires Show(p[3], wide) == a3 && Show(p[4], wide) == a4
    ensures Render(p, wide) == a0 + (a1 + (a2 + (a3 + (a4 + ""))))
  {
    assert p[0..] == p;
    assert p[5..] == [];
    RenderStep(p, wide, 0);
    RenderStep(p, wide, 1);
    RenderStep(p, wide, 2);
    RenderStep(p, wide, 3);
    RenderStep(p, wide, 4);
  }

  /** The text of a nine-piece pattern, given the text of each piece. */
  lemma RenderNine(p: seq<Piece>, wide: bool, a0: string, a1: string, a2: string, a3: string, a4: string,
                   a5: string, a6: string, a7: string, a8: string)
    requires |p| == 9
    requires Show(p[0], wide) == a0 && Show(p[1], wide) == a1 && Show(p[2], wide) == a2
    requires Show(p[3], wide) == a3 && Show(p[4], wide) == a4 && Show(p[5], wide) == a5
    requires Show(p[6], wide) == a6 && Show(p[7], wide) == a7 && Show(p[8], wide) == a8
    ensures Render(p, wide) == a0 + (a1 + (a2 + (a3 + (a4 + (a5 + (a6 + (a7 + (a8 + ""))))))))
  {
    assert p[0..] == p;
    assert p[9..] == [];
    RenderStep(p, wide, 0);
    RenderStep(p, wide, 1);
    RenderStep(p, wide, 2);
    RenderStep(p, wide, 3);
    RenderStep(p, wide, 4);
    RenderStep(p, wide, 5);
    RenderStep(p, wide, 6);
    RenderStep(p, wide, 7);
    RenderStep(p, wide, 8);
  }

  /** Each gap at `k` of a pattern is followed by a piece that cannot match whitespace. */
  lemma GapsFollowed(p: seq<Piece>)
    requires forall k | 0 <= k < |p| :: p[k].Gap? ==> k + 1 < |p| && !p[k + 1].Gap?
    requires forall k | 0 <= k < |p| :: p[k].Lit? ==> |p[k].text| > 0 && !IsSpace(p[k].text[0])
    ensures WellFormed(p)
  {
    forall k | 0 <= k < |p| && p[k].Gap? ensures StartsSolid(p[k + 1..]) {
      assert p[k + 1..][0] == p[k + 1];
    }
  }

  /** The pieces `if`, `\s+`, `__name__`, `\s*`, `==`, `\s*`, quote, `__main__`, quote. */
  lemma PythonEntryText(p: seq<Piece>)
    requires p == PythonEntry
    ensures WellFormed(p) && Render(p, true) == "if __name__ == \"__main__\""
  {
    assert p[0] == Lit("if") && p[1] == Gap(true) && p[2] == Lit("__name__") && p[3] == Gap(false)
           && p[4] == Lit("==") && p[5] == Gap(false) && p[6] == Quote && p[7] == Lit("__main__") && p[8] == Quote;
    GapsFollowed(p);
    RenderNine(p, true, "if", " ", "__name__", " ", "==", " ", "\"", "__main__", "\"");
    PythonEntryJoined();
  }

  lemma PythonEntryJoined()
    ensures "if" + (" " + ("__name__" + (" " + ("==" + (" " + ("\"" + ("__main__" + ("\"" + ""))))))))
            == "if __name__ == \"__main__\""
  {
    PythonEntryTail();
    PythonEntryName();
  }

  lemma PythonEntryName()
    ensures " " + ("__name__" + (" " + "== \"__main__\"")) == " __name__ == \"__main__\""
  {
    assert " " + "== \"__main__\"" == " == \"__main__\"";
    assert "__name__" + " == \"__main__\"" == "__name__ == \"__main__\"";
  }

  lemma PythonEntryTail()
    ensures "==" + (" " + ("\"" + ("__main__" + ("\"" + "")))) == "== \"__main__\""
  {
    assert "\"" + "" == "\"";
    assert "__main__" + "\"" == "__main__\"";
    assert "\"" + "__main__\"" == "\"__main__\"";
    assert " " + "\"__main__\"" == " \"__main__\"";
  }

  lemma JavaScriptEntryText(p: seq<Piece>)
    requires p == JavaScriptEntry
    ensures WellFormed(p) && Render(p, false) == "console.log("
  {
    assert Render(p[1..], false) == "";
  }

  lemma JavaEntryText(p: seq<Piece>)
    requires p == JavaEntry
    ensures WellFormed(p) && Render(p, false) == "public static void main("
  {
    assert p[0] == Lit("public") && p[1] == Gap(true) && p[2] == Lit("static") && p[3] == Gap(true)
           && p[4] == Lit("void") && p[5] == Gap(true) && p[6] == Lit("main") && p[7] == Gap(false) && p[8] == Lit("(");
    GapsFollowed(p);
    RenderNine(p, false, "public", " ", "static", " ", "void", " ", "main", "", "(");
    JavaEntryJoined();
  }

  lemma JavaEntryJoined()
    ensures "public" + (" " + ("static" + (" " + ("void" + (" " + ("main" + ("" + ("(" + ""))))))))
            == "public static void main("
  {
    assert "main" + ("" + ("(" + "")) == "main(";
    assert "void" + (" " + "main(") == "void main(";
    assert "static" + (" " + "void main(") == "static void main(";
  }

  lemma CppEntryText(p: seq<Piece>)
    requires p == CppEntry
    ensures WellFormed(p) && Render(p, false) == "int main("
  {
    assert p[0] == Lit("int") && p[1] == Gap(true) && p[2] == Lit("main") && p[3] == Gap(false) && p[4] == Lit("(");
    GapsFollowed(p);
    RenderFive(p, false, "int", " ", "main", "", "(");
    assert "int" + (" " + ("main" + ("" + ("(" + "")))) == "int main(";
  }

  /** The Python driver holds the entry point. */
  lemma PythonMainHasEntry(code: string, name: string, args: seq<string>)
    ensures Finds(code + "\n" + PythonMain(name, args), PythonEntry)
  {
    var y := ":\nprint(\"Test result:\", " + name + "(" + Join(args, ", ") + "))\n      ";
    PythonEntryText(PythonEntry);
    PythonMainLayout(code, name, args, Render(PythonEntry, true), y);
    FindsRender(code + "\n" + "\n", PythonEntry, true, y);
  }

  lemma PythonMainLayout(code: string, name: string, args: seq<string>, e: string, y: string)
    requires e == "if __name__ == \"__main__\""
    requires y == ":\nprint(\"Test result:\", " + name + "(" + Join(args, ", ") + "))\n      "
    ensures code + "\n" + PythonMain(name, args) == (code + "\n" + "\n") + e + y
  {
  }

  /** The JavaScript driver holds the entry point. */
  lemma JavaScriptMainHasEntry(code: string, name: string, args: seq<string>)
    ensures Finds(code + "\n" + JavaScriptMain(name, args), JavaScriptEntry)
  {
    var y := "\"Test result:\", " + name + "(" + Join(args, ", ") + "));";
    JavaScriptEntryText(JavaScriptEntry);
    assert code + "\n" + JavaScriptMain(name, args) == (code + "\n") + Render(JavaScriptEntry, false) + y;
    FindsRender(code + "\n", JavaScriptEntry, false, y);
  }

  /** The Java driver holds the entry point. */
  lemma JavaMainHasEntry(code: string, name: string, args: seq<string>)
    ensures Finds(code + "\n" + JavaMain(name, args), JavaEntry)
  {
    var x := code + "\n" + "\npublic class Test {\n    ";
    var y := "String[] args) {\n        System.out.println(" + name + "(" + Join(args, ", ") + "));\n    }\n}\n      ";
    JavaEntryText(JavaEntry);
    JavaMainLayout(code, name, args, x, Render(JavaEntry, false), y);
    FindsRender(x, JavaEntry, false, y);
  }

  lemma JavaMainLayout(code: string, name: string, args: seq<string>, x: string, e: string, y: string)
    requires x == code + "\n" + "\npublic class Test {\n    "
    requires e == "public static void main("
    requires y == "String[] args) {\n        System.out.println(" + name + "(" + Join(args, ", ") + "));\n    }\n}\n      "
    ensures code + "\n" + JavaMain(name, args) == x + e + y
  {
  }

  /**
   Every driver holds its language's entry point, so wrapping a wrapped program (parsed again by
   the same parser) changes nothing.
   */
  lemma WrapIdempotent(code: string, lang: Language, parse: string -> Parse)
    requires lang in {Python, JavaScript, Java}
    requires WrapForTest(code, lang, parse(code)).Source?
    ensures var w := WrapForTest(code, lang, parse(code)).text;
            WrapForTest(w, lang, parse(w)) == Source(w)
  {
    var w := WrapForTest(code, lang, parse(code)).text;
    if w != code {
      var f := parse(code).func;
      if lang == Python {
        PythonMainHasEntry(code, CallName(f.name), TypedArgs(f.params.value));
      } else if lang == JavaScript {
        JavaScriptMainHasEntry(code, CallName(f.name), JavaScriptArgs(f.params));
      } else {
        JavaMainHasEntry(code, CallName(f.name), TypedArgs(f.params.GetOr([])));
      }
      KeptIff(w, lang, parse(w));
    }
  }

  /** C++ code that reads nothing from `std::cin` and already has a `main` is returned as it is. */
  lemma CppMainKept(code: string, spans: seq<Span>, f: CppFunc)
    requires !Contains(code, "std::cin") && Finds(code, CppEntry)
    ensures WrapCpp(code, spans, f) == Source(code)
  {
    NoCinUnchanged(code, spans, "1");
  }

  /** The typed C++ arguments are missing exactly when some parameter's normalised type is `char*`. */
  lemma {:induction false} CppArgsThrowIff(ts: seq<string>)
    ensures CppArgs(ts).None? <==> exists k | 0 <= k < |ts| :: CharPointer(Normalize(ts[k]))
    decreases |ts|
  {
    if ts != [] {
      var rest := ts[1..];
      CppArgsThrowIff(rest);
      if CppArgs(ts).None? && !CharPointer(Normalize(ts[0])) {
        var k :| 0 <= k < |rest| && CharPointer(Normalize(rest[k]));
        assert rest[k] == ts[k + 1];
      }
      if CppArgs(ts).Some? {
        forall k | 0 <= k < |ts| ensures !CharPointer(Normalize(ts[k])) {
          if k > 0 {
            assert ts[k] == rest[k - 1];
          }
        }
      }
    }
  }

  /** Each typed C++ argument is the default value of its parameter's type as written. */
  lemma {:induction false} CppArgsDefaults(ts: seq<string>)
    requires CppArgs(ts).Some?
    ensures forall k | 0 <= k < |ts| :: CppArgs(ts).value[k] == DefaultValue(ts[k])
    decreases |ts|
  {
    if ts != [] {
      ArgsHead(ts);
      CppArgsDefaults(ts[1..]);
      MapCons(DefaultValue, ts, CppArgs(ts).value, CppArgs(ts[1..]).value);
    }
  }

  /** The first typed C++ argument is the default of the first parameter's type as written. */
  lemma ArgsHead(ts: seq<string>)
    requires ts != [] && CppArgs(ts).Some?
    ensures CppArgs(ts[1..]).Some?
    ensures CppArgs(ts).value == [DefaultValue(ts[0])] + CppArgs(ts[1..]).value
  {
    SpacingIrrelevant(ts[0]);
  }

  /** A list built as `f` of the head before a list mapping the tail maps the whole list. */
  lemma MapCons(f: string -> string, ts: seq<string>, v: seq<string>, rv: seq<string>)
    ensures (ts != [] && v == [f(ts[0])] + rv && |rv| == |ts| - 1 && forall k | 0 <= k < |rv| :: rv[k] == f(ts[1..][k]))
            ==> forall k | 0 <= k < |ts| :: v[k] == f(ts[k])
  {
    if ts != [] && v == [f(ts[0])] + rv && |rv| == |ts| - 1 && forall k | 0 <= k < |rv| :: rv[k] == f(ts[1..][k]) {
      forall k | 0 <= k < |ts| ensures v[k] == f(ts[k]) {
        if k > 0 {
          assert ts[k] == ts[1..][k - 1];
        }
      }
    }
  }

  /**
   The harness throws exactly for a Python function without a parameter list and for a C++
   function, in code without a `main` after the rewrite, that takes a `char*`.
   */
  lemma ThrowsIff(code: string, lang: Language, p: Parse)
    ensures WrapForTest(code, lang, p) == Thrown <==>
            || (lang == Python && !Finds(code, PythonEntry) && p.func.Function? && p.func.params.None?)
            || (lang == Cpp && !Finds(ReplaceCinWithConst(code, p.cinSpans, "1"), CppEntry) && p.cpp.CppFunction?
                && exists k | 0 <= k < |p.cpp.params.GetOr([])| :: CharPointer(Normalize(p.cpp.params.GetOr([])[k])))
  {
    match lang
    case Python =>
    case JavaScript =>
    case Java =>
    case Cpp => CppThrowsIff(code, p.cinSpans, p.cpp);
    case Other(_) =>
  }

  /** The C++ harness throws exactly when it must build a `main` and some parameter is a `char*`. */
  lemma CppThrowsIff(code: string, spans: seq<Span>, f: CppFunc)
    ensures WrapCpp(code, spans, f) == Thrown <==>
            && !Finds(ReplaceCinWithConst(code, spans, "1"), CppEntry) && f.CppFunction?
            && exists k | 0 <= k < |f.params.GetOr([])| :: CharPointer(Normalize(f.params.GetOr([])[k]))
  {
    RewrittenThrowsIff(ReplaceCinWithConst(code, spans, "1"), f);
  }

  lemma RewrittenThrowsIff(c: string, f: CppFunc)
    ensures WrapRewrittenCpp(c, f) == Thrown <==>
            && !Finds(c, CppEntry) && f.CppFunction?
            && exists k | 0 <= k < |f.params.GetOr([])| :: CharPointer(Normalize(f.params.GetOr([])[k]))
  {
    if f.CppFunction? {
      CppArgsThrowIff(f.params.GetOr([]));
      RewrittenThrowCase(c, f);
    }
  }

  lemma RewrittenThrowCase(c: string, f: CppFunc)
    requires f.CppFunction?
    ensures WrapRewrittenCpp(c, f) == Thrown <==> !Finds(c, CppEntry) && CppArgs(f.params.GetOr([])).None?
  {
  }

  /** Python parameters without annotations are read as `int` and each gets `1`. */
  lemma PythonUnannotatedArgs(n: nat)
    ensures TypedArgs(seq(n, _ => None)) == Ones(n)
  {
    DebugTable();
    assert DebugRows[0] == ("int", "1");
  }

  /** The first offset holding `c` at or after `i` is found. */
  lemma {:induction false} IndexFromFinds(s: string, c: char, i: nat, j: nat)
    requires i <= j < |s| && s[j] == c
    requires forall k | i <= k < j :: s[k] != c
    ensures IndexFrom(s, c, i) == Some(j)
    decreases j - i
  {
    if i < j {
      IndexFromFinds(s, c, i + 1, j);
    }
  }

  /** Splitting and joining again gives the text back. */
  lemma {:induction false} SplitJoin(s: string, c: char)
    ensures Join(Split(s, c), [c]) == s
    decreases |s|
  {
    if s != [] {
      var rest := Split(s[1..], c);
      SplitJoin(s[1..], c);
      if s[0] == c {
        JoinCons([], rest, [c]);
        assert [c] + s[1..] == s;
      } else {
        JoinCons(rest[0], rest[1..], [c]);
        JoinCons([s[0]] + rest[0], rest[1..], [c]);
        assert [rest[0]] + rest[1..] == rest;
        assert [s[0]] + s[1..] == s;
      }
    }
  }

  /** `join` of a non-empty list: the head, then the separator and the join of the rest, when there is one. */
  lemma JoinCons(x: string, xs: seq<string>, sep: string)
    ensures Join([x] + xs, sep) == if xs == [] then x else x + sep + Join(xs, sep)
  {
    assert ([x] + xs)[1..] == xs;
  }

  /** A prefix without the separator stays at the front of the first part. */
  lemma {:induction false} SplitPrefix(a: string, b: string, c: char)
    requires c !in a
    ensures Split(a + b, c) == [a + Split(b, c)[0]] + Split(b, c)[1..]
    decreases |a|
  {
    if a != [] {
      assert a[0] in a;
      assert (a + b)[0] == a[0] && (a + b)[1..] == a[1..] + b;
      SplitPrefix(a[1..], b, c);
      assert [a[0]] + (a[1..] + Split(b, c)[0]) == a + Split(b, c)[0];
    } else {
      assert a + b == b;
      assert a + Split(b, c)[0] == Split(b, c)[0];
      assert [Split(b, c)[0]] + Split(b, c)[1..] == Split(b, c);
    }
  }

  /** Joining parts that do not hold the separator and splitting again gives the parts back. */
  lemma {:induction false} JoinSplit(parts: seq<string>, c: char)
    requires |parts| > 0
    requires forall k | 0 <= k < |parts| :: c !in parts[k]
    ensures Split(Join(parts, [c]), c) == parts
    decreases |parts|
  {
    var a := parts[0];
    if |parts| == 1 {
      SplitPrefix(a, [], c);
      assert a + [] == a;
      assert Split([], c) == [[]];
    } else {
      var rest := parts[1..];
      JoinSplit(rest, c);
      assert Join(parts, [c]) == a + ([c] + Join(rest, [c]));
      var t := [c] + Join(rest, [c]);
      SplitPrefix(a, t, c);
      assert t[0] == c && t[1..] == Join(rest, [c]);
      assert Split(t, c) == [[]] + Split(Join(rest, [c]), c);
      assert a + [] == a;
      assert [a] + rest == parts;
    }
  }

  /** Trimming and dropping blanks keeps every item that is not blank. */
  lemma {:induction false} KeptAll(xs: seq<string>)
    requires forall k | 0 <= k < |xs| :: Trim(xs[k]) != ""
    ensures |Kept(xs)| == |xs|
    decreases |xs|
  {
    if xs != [] {
      KeptAll(xs[1..]);
    }
  }

  /** Text with a character that is not whitespace does not trim to nothing. */
  lemma TrimNotBlank(s: string, j: nat)
    requires j < |s| && !IsSpace(s[j])
    ensures Trim(s) != ""
  {
    var a, b := TrimBounds(s);
  }

  /** Text that does not trim to nothing has a character that is not whitespace. */
  lemma TrimSolid(s: string) returns (j: nat)
    requires Trim(s) != ""
    ensures j < |s| && !IsSpace(s[j])
  {
    var a, b := TrimBounds(s);
    j := a;
  }

  /** `join` starts with the first item. */
  lemma JoinStarts(parts: seq<string>, sep: string)
    requires |parts| > 0
    ensures StartsWith(Join(parts, sep), parts[0])
  {
    if |parts| > 1 {
      var g := Join(parts, sep);
      assert g == parts[0] + (sep + Join(parts[1..], sep));
      assert g[..|parts[0]|] == parts[0];
    }
  }

  /** A group whose first item is not blank is not blank. */
  lemma TrimJoinNotBlank(parts: seq<string>, sep: string)
    requires |parts| > 0 && Trim(parts[0]) != ""
    ensures Trim(Join(parts, sep)) != ""
  {
    var g := Join(parts, sep);
    var j := TrimSolid(parts[0]);
    JoinStarts(parts, sep);
    assert g[j] == g[..|parts[0]|][j] == parts[0][j];
    TrimNotBlank(g, j);
  }

  /** The fallback on a group that is not blank: one `1` per item that is not blank. */
  lemma FallbackFromGroup(text: string, g: string)
    requires FirstGroup(text) == Some(g) && Trim(g) != ""
    ensures FallbackArgs(text) == Ones(|Kept(Split(g, ','))|)
  {
  }

  /**
   The fallback gives one `1` per parameter: the parameter texts between the first `(` and the
   following `)`, separated by commas, none blank.
   */
  lemma FallbackOnePerParameter(name: string, params: seq<string>, rest: string)
    requires '(' !in name
    requires |params| > 0
    requires forall k | 0 <= k < |params| :: ',' !in params[k] && ')' !in params[k] && Trim(params[k]) != ""
    ensures FallbackArgs(name + "(" + Join(params, ",") + ")" + rest) == Ones(|params|)
  {
    var g := Join(params, ",");
    JoinKeeps(params, ",", ')');
    GroupFound(name, g, rest);
    TrimJoinNotBlank(params, ",");
    JoinSplit(params, ',');
    KeptAll(params);
    FallbackFromGroup(name + "(" + g + ")" + rest, g);
  }

  /** `join` adds no character that neither the items nor the separator hold. */
  lemma {:induction false} JoinKeeps(parts: seq<string>, sep: string, c: char)
    requires c !in sep
    requires forall k | 0 <= k < |parts| :: c !in parts[k]
    ensures c !in Join(parts, sep)
    decreases |parts|
  {
    if |parts| > 1 {
      JoinKeeps(parts[1..], sep, c);
    }
  }

  /** The text between the first `(` and the `)` after it is the group. */
  lemma GroupFound(name: string, g: string, rest: string)
    requires '(' !in name && ')' !in g
    ensures FirstGroup(name + "(" + g + ")" + rest) == Some(g)
  {
    var text := name + "(" + g + ")" + rest;
    var i := |name|;
    assert text[i] == '(';
    assert forall k | 0 <= k < i :: text[k] == name[k];
    IndexFromFinds(text, '(', 0, i);
    assert text[i + 1 + |g|] == ')';
    assert forall k | i + 1 <= k < i + 1 + |g| :: text[k] == g[k - i - 1];
    IndexFromFinds(text, ')', i + 1, i + 1 + |g|);
    assert text[i + 1..i + 1 + |g|] == g;
  }

  /** A function whose first parenthesised group is blank gets no fallback arguments. */
  lemma FallbackBlankGroup(name: string, g: string, rest: string)
    requires '(' !in name && ')' !in g
    requires AllSpace(g)
    ensures FallbackArgs(name + "(" + g + ")" + rest) == []
  {
    GroupFound(name, g, rest);
    TrimAllSpace(g);
  }

  /** The header block holds one `#include` line for each header it lists. */
  lemma {:induction false} IncludeLinesHas(hs: seq<string>, k: nat)
    requires k < |hs|
    ensures Contains(IncludeLines(hs), "#include <" + hs[k] + ">\n")
    decreases |hs|
  {
    var line := "#include <" + hs[0] + ">\n";
    if k == 0 {
      assert At(line, 0, line);
      ContainsAround([], line, IncludeLines(hs[1..]), line);
      assert [] + line + IncludeLines(hs[1..]) == IncludeLines(hs);
    } else {
      IncludeLinesHas(hs[1..], k - 1);
      ContainsAround(line, IncludeLines(hs[1..]), [], "#include <" + hs[k] + ">\n");
      assert line + IncludeLines(hs[1..]) + [] == IncludeLines(hs);
    }
  }

  /** Any header block followed by the code holds each of its `#include` lines. */
  lemma HeaderBlockHas(hs: seq<string>, k: nat, code: string)
    requires k < |hs|
    ensures Contains(IncludeLines(hs) + "\n" + code, "#include <" + hs[k] + ">\n")
  {
    var line := "#include <" + hs[k] + ">\n";
    IncludeLinesHas(hs, k);
    ContainsAround([], IncludeLines(hs), "\n" + code, line);
    assert [] + IncludeLines(hs) + ("\n" + code) == IncludeLines(hs) + "\n" + code;
  }

  lemma HeaderBlockEnds(block: string, code: string)
    ensures EndsWith(block + "\n" + code, "\n" + code)
  {
    var r := block + "\n" + code;
    assert r[|r| - |"\n" + code|..] == "\n" + code;
  }

  /** `autoAddCommonIncludes` puts every common header's `#include` line in front of the code. */
  lemma IncludesEveryHeader(code: string, k: nat)
    requires k < |CommonHeaders|
    ensures Contains(AutoAddCommonIncludes(code), "#include <" + CommonHeaders[k] + ">\n")
    ensures EndsWith(AutoAddCommonIncludes(code), "\n" + code)
  {
    HeaderBlockHas(CommonHeaders, k, code);
    HeaderBlockEnds(IncludeLines(CommonHeaders), code);
  }
}

=== FILE: normalize.dfy ===
/**
 The spacing normalisation `getDefaultValueFromType` applies before it looks at a type
 (src/tools.js:39-44), and that the C++ harness applies to each parameter's type text.
 */
module TypeSpacing {
  import opened Text

  /** The characters whose surrounding whitespace the normalisation removes. */
  predicate IsTight(c: char) {
    c == '<' || c == '>' || c == '*' || c == ','
  }

  /** No whitespace touches an occurrence of `c` in `s`. */
  predicate NoSpaceAround(s: string, c: char) {
    forall i | 0 <= i < |s| && s[i] == c ::
      (i > 0 ==> !IsSpace(s[i - 1])) && (i + 1 < |s| ==> !IsSpace(s[i + 1]))
  }

  /** Every whitespace character of `s` is a plain space, and no two of them are adjacent. */
  predicate SingleSpaced(s: string) {
    forall i | 0 <= i < |s| && IsSpace(s[i]) :: s[i] == ' ' && (i + 1 < |s| ==> !IsSpace(s[i + 1]))
  }

  /** `s` neither starts nor ends with whitespace. */
  predicate Trimmed(s: string) {
    s == [] || (!IsSpace(s[0]) && !IsSpace(s[|s| - 1]))
  }

  /** A type text as the normalisation leaves it. */
  predicate IsNormal(s: string) {
    && Trimmed(s)
    && NoSpaceAround(s, '<') && NoSpaceAround(s, '>') && NoSpaceAround(s, '*') && NoSpaceAround(s, ',')
    && SingleSpaced(s)
  }

  // The global replacement of `\s*c\s*` by `c`, scanning `s` from `i`: where the whitespace
  // run starting at the scan position ends in `c`, the run, the `c` and the whitespace after
  // it become one `c`; elsewhere one character is copied and the scan moves on.
  function SquashFrom(s: string, c: char, i: nat): (r: string)
    requires !IsSpace(c)
    requires i <= |s|
    ensures |r| <= |s| - i
    ensures i < |s| ==> |r| > 0
    decreases |s| - i
  {
    if i == |s| then []
    else
      var k := SkipSpaces(s, i);
      if k < |s| && s[k] == c then [c] + SquashFrom(s, c, SkipSpaces(s, k + 1))
      else [s[i]] + SquashFrom(s, c, i + 1)
  }

  /** `replace(/\s+/g, ' ')` scanning `s` from `i`: each whitespace run becomes one space. */
  function CollapseFrom(s: string, i: nat): (r: string)
    requires i <= |s|
    ensures |r| <= |s| - i
    ensures i < |s| ==> |r| > 0
    ensures i < |s| ==> r[0] == (if IsSpace(s[i]) then ' ' else s[i])
    decreases |s| - i
  {
    if i == |s| then []
    else if IsSpace(s[i]) then [' '] + CollapseFrom(s, SkipSpaces(s, i))
    else [s[i]] + CollapseFrom(s, i + 1)
  }

  function Squash(s: string, c: char): string
    requires !IsSpace(c)
  {
    SquashFrom(s, c, 0)
  }

  /**
   `trim()`, then whitespace around `<`, `>`, `*` and `,` removed (in that order), then every
   remaining whitespace run made one space.
   */
  function Normalize(t: string): (n: string)
    ensures |n| <= |t|
  {
    CollapseFrom(Squash(Squash(Squash(Squash(Trim(t), '<'), '>'), '*'), ','), 0)
  }

  /** After the step for `c`, no whitespace touches a `c`. */
  lemma {:induction false} SquashClears(s: string, c: char, i: nat)
    requires !IsSpace(c) && i <= |s|
    ensures NoSpaceAround(SquashFrom(s, c, i), c)
    decreases |s| - i
  {
    if i < |s| {
      var k := SkipSpaces(s, i);
      if k < |s| && s[k] == c {
        var e := SkipSpaces(s, k + 1);
        SquashClears(s, c, e);
        ClearsTight(s, c, i, k, e);
      } else {
        SquashClears(s, c, i + 1);
        ClearsCopy(s, c, i, k);
      }
    }
  }

  lemma ClearsTight(s: string, c: char, i: nat, k: nat, e: nat)
    requires !IsSpace(c) && i < |s|
    requires k == SkipSpaces(s, i) && k < |s| && s[k] == c && e == SkipSpaces(s, k + 1)
    ensures NoSpaceAround(SquashFrom(s, c, e), c) ==> NoSpaceAround(SquashFrom(s, c, i), c)
  {
    SquashTightStep(s, c, i, k, e);
    var r, rest := SquashFrom(s, c, i), SquashFrom(s, c, e);
    SeamClear(s, c, e, rest);
    ConsClear(c, rest, c, r);
  }

  /** What follows a squashed `c` starts with no whitespace. */
  lemma SeamClear(s: string, c: char, e: nat, rest: string)
    requires !IsSpace(c) && e <= |s| && (e < |s| ==> !IsSpace(s[e]))
    requires rest == SquashFrom(s, c, e)
    ensures rest == [] || !IsSpace(rest[0])
  {
    if e < |s| {
      SquashFirst(s, c, e);
    }
  }

  lemma ClearsCopy(s: string, c: char, i: nat, k: nat)
    requires !IsSpace(c) && i < |s|
    requires k == SkipSpaces(s, i) && !(k < |s| && s[k] == c)
    ensures NoSpaceAround(SquashFrom(s, c, i + 1), c) ==> NoSpaceAround(SquashFrom(s, c, i), c)
  {
    SquashCopyStep(s, c, i);
    SquashFirst(s, c, i);
    var rest := SquashFrom(s, c, i + 1);
    if i + 1 < |s| {
      SquashFirst(s, c, i + 1);
      SkipRunShared(s, i);
    }
    assert s[i] != c;
    ConsClear(s[i], rest, c, SquashFrom(s, c, i));
  }

  /** The step from `i` starts with `c` exactly when the whitespace run from `i` ends in `c`, and otherwise with `s[i]`. */
  lemma SquashFirst(s: string, c: char, i: nat)
    requires !IsSpace(c) && i < |s|
    ensures SquashFrom(s, c, i)[0] == c <==> (SkipSpaces(s, i) < |s| && s[SkipSpaces(s, i)] == c)
    ensures SquashFrom(s, c, i)[0] != c ==> SquashFrom(s, c, i)[0] == s[i]
  {
    if s[i] == c {
      assert SkipSpaces(s, i) == i;
    }
  }

  /** A space at `i` belongs to the run that continues at `i + 1`. */
  lemma SkipRunShared(s: string, i: nat)
    requires i + 1 < |s|
    ensures IsSpace(s[i]) ==> SkipSpaces(s, i) == SkipSpaces(s, i + 1)
  {
  }

  /** Putting `x` in front keeps `c` clear of whitespace when the seam is clear. */
  lemma ConsClear(x: char, rest: string, c: char, r: string)
    ensures (&& r == [x] + rest && NoSpaceAround(rest, c)
             && (x == c ==> rest == [] || !IsSpace(rest[0]))
             && (rest != [] && rest[0] == c ==> !IsSpace(x)))
            ==> NoSpaceAround(r, c)
  {
    if r == [x] + rest && NoSpaceAround(rest, c) && (x == c ==> rest == [] || !IsSpace(rest[0]))
       && (rest != [] && rest[0] == c ==> !IsSpace(x)) {
      forall j | 0 <= j < |r| && r[j] == c
        ensures (j > 0 ==> !IsSpace(r[j - 1])) && (j + 1 < |r| ==> !IsSpace(r[j + 1]))
      {
        if j > 0 {
          assert r[j] == rest[j - 1];
        }
      }
    }
  }

  /** `r` ends in the character `s` ends in. */
  predicate EndsLike(r: string, s: string) {
    |r| > 0 && |s| > 0 && r[|r| - 1] == s[|s| - 1]
  }

  /** The step for `c` keeps the last character of a text that does not end in whitespace. */
  lemma {:induction false} SquashKeepsLast(s: string, c: char, i: nat)
    requires !IsSpace(c) && i < |s| && !IsSpace(s[|s| - 1])
    ensures EndsLike(SquashFrom(s, c, i), s)
    decreases |s| - i
  {
    var k := SkipSpaces(s, i);
    if k < |s| && s[k] == c {
      var e := SkipSpaces(s, k + 1);
      if e < |s| {
        SquashKeepsLast(s, c, e);
      }
      TightLast(s, c, i, k, e);
    } else {
      if i + 1 < |s| {
        SquashKeepsLast(s, c, i + 1);
      }
      CopyLast(s, c, i);
    }
  }

  /** The step that emits `c` keeps the last character when what follows keeps it. */
  lemma TightLast(s: string, c: char, i: nat, k: nat, e: nat)
    requires !IsSpace(c) && i < |s| && !IsSpace(s[|s| - 1])
    requires k == SkipSpaces(s, i) && k < |s| && s[k] == c && e == SkipSpaces(s, k + 1)
    ensures (e < |s| ==> EndsLike(SquashFrom(s, c, e), s)) ==> EndsLike(SquashFrom(s, c, i), s)
  {
    SquashTightStep(s, c, i, k, e);
    var r, rest := SquashFrom(s, c, i), SquashFrom(s, c, e);
    assert e == |s| ==> rest == [];
    LastAfter(s, c, k, e, r, rest);
  }

  /** The step that copies one character keeps the last character when what follows keeps it. */
  lemma CopyLast(s: string, c: char, i: nat)
    requires !IsSpace(c) && i < |s| && !IsSpace(s[|s| - 1])
    requires !(SkipSpaces(s, i) < |s| && s[SkipSpaces(s, i)] == c)
    ensures (i + 1 < |s| ==> EndsLike(SquashFrom(s, c, i + 1), s)) ==> EndsLike(SquashFrom(s, c, i), s)
  {
    SquashCopyStep(s, c, i);
    var r, rest := SquashFrom(s, c, i), SquashFrom(s, c, i + 1);
    assert i + 1 == |s| ==> rest == [];
    LastAfter(s, s[i], i, i + 1, r, rest);
  }

  /** `x` from `k`, then what stands for the text from `e`, ends as the text does. */
  lemma LastAfter(s: string, x: char, k: nat, e: nat, r: string, rest: string)
    ensures (&& k < |s| && s[k] == x && k + 1 <= e <= |s| && SpacesIn(s, k + 1, e) && !IsSpace(s[|s| - 1])
             && r == [x] + rest
             && (e < |s| ==> EndsLike(rest, s))
             && (e == |s| ==> rest == []))
            ==> EndsLike(r, s)
  {
  }

  /** The step for `c` puts no whitespace next to another tight character `d`. */
  lemma {:induction false} SquashKeepsClear(s: string, c: char, d: char, i: nat)
    requires !IsSpace(c) && !IsSpace(d) && c != d && i <= |s|
    requires NoSpaceAround(s, d)
    ensures NoSpaceAround(SquashFrom(s, c, i), d)
    decreases |s| - i
  {
    if i < |s| {
      var k := SkipSpaces(s, i);
      if k < |s| && s[k] == c {
        var e := SkipSpaces(s, k + 1);
        SquashKeepsClear(s, c, d, e);
        KeepsTight(s, c, d, i, k, e);
      } else {
        SquashKeepsClear(s, c, d, i + 1);
        KeepsCopy(s, c, d, i, k);
      }
    }
  }

  lemma KeepsTight(s: string, c: char, d: char, i: nat, k: nat, e: nat)
    requires !IsSpace(c) && c != d && i < |s|
    requires k == SkipSpaces(s, i) && k < |s| && s[k] == c && e == SkipSpaces(s, k + 1)
    ensures NoSpaceAround(SquashFrom(s, c, e), d) ==> NoSpaceAround(SquashFrom(s, c, i), d)
  {
    SquashTightStep(s, c, i, k, e);
    ConsClear(c, SquashFrom(s, c, e), d, SquashFrom(s, c, i));
  }

  lemma KeepsCopy(s: string, c: char, d: char, i: nat, k: nat)
    requires !IsSpace(c) && c != d && i < |s| && NoSpaceAround(s, d)
    requires k == SkipSpaces(s, i) && !(k < |s| && s[k] == c)
    ensures NoSpaceAround(SquashFrom(s, c, i + 1), d) ==> NoSpaceAround(SquashFrom(s, c, i), d)
  {
    SquashCopyStep(s, c, i);
    var rest := SquashFrom(s, c, i + 1);
    if i + 1 < |s| {
      SquashFirst(s, c, i + 1);
      assert s[i] == d ==> !IsSpace(s[i + 1]);
      assert s[i + 1] == d ==> !IsSpace(s[i]);
    }
    ConsClear(s[i], rest, d, SquashFrom(s, c, i));
  }

  /** A text in which no whitespace touches a `c` passes the step for `c` unchanged. */
  lemma {:induction false} SquashFixpoint(s: string, c: char, i: nat)
    requires !IsSpace(c) && i <= |s|
    requires NoSpaceAround(s, c)
    ensures SquashFrom(s, c, i) == s[i..]
    decreases |s| - i
  {
    if i < |s| {
      var k := SkipSpaces(s, i);
      if k < |s| && s[k] == c {
        assert k == i;
        SquashFixpoint(s, c, SkipSpaces(s, k + 1));
      } else {
        SquashFixpoint(s, c, i + 1);
      }
      SliceHead(s, i);
    }
  }

  /** After the collapse every whitespace character is a lone plain space. */
  lemma {:induction false} CollapseSingleSpaced(s: string, i: nat)
    requires i <= |s|
    ensures SingleSpaced(CollapseFrom(s, i))
    decreases |s| - i
  {
    if i < |s| {
      if IsSpace(s[i]) {
        CollapseSingleSpaced(s, SkipSpaces(s, i));
      } else {
        CollapseSingleSpaced(s, i + 1);
      }
    }
  }

  lemma {:induction false} CollapseKeepsLast(s: string, i: nat)
    requires i < |s| && !IsSpace(s[|s| - 1])
    ensures var r := CollapseFrom(s, i); r[|r| - 1] == s[|s| - 1]
    decreases |s| - i
  {
    var e := if IsSpace(s[i]) then SkipSpaces(s, i) else i + 1;
    if e < |s| {
      CollapseKeepsLast(s, e);
    }
  }

  /** The collapse puts no whitespace next to a non-whitespace character `d` that had none. */
  lemma {:induction false} CollapseKeepsClear(s: string, d: char, i: nat)
    requires !IsSpace(d) && i <= |s|
    requires NoSpaceAround(s, d)
    ensures NoSpaceAround(CollapseFrom(s, i), d)
    decreases |s| - i
  {
    if i < |s| {
      if IsSpace(s[i]) {
        CollapseKeepsClear(s, d, SkipSpaces(s, i));
      } else {
        CollapseKeepsClear(s, d, i + 1);
      }
    }
  }

  lemma {:induction false} CollapseFixpoint(s: string, i: nat)
    requires i <= |s|
    requires SingleSpaced(s)
    ensures CollapseFrom(s, i) == s[i..]
    decreases |s| - i
  {
    if i < |s| {
      if IsSpace(s[i]) {
        assert SkipSpaces(s, i) == i + 1;
        CollapseFixpoint(s, SkipSpaces(s, i));
      } else {
        CollapseFixpoint(s, i + 1);
      }
      SliceHead(s, i);
    }
  }

  lemma SquashStage(s: string, c: char)
    requires !IsSpace(c) && Trimmed(s)
    ensures Trimmed(Squash(s, c)) && NoSpaceAround(Squash(s, c), c)
  {
    SquashClears(s, c, 0);
    if s != [] {
      SquashKeepsLast(s, c, 0);
    }
  }

  lemma CollapseStage(s: string)
    requires Trimmed(s)
    ensures Trimmed(CollapseFrom(s, 0)) && SingleSpaced(CollapseFrom(s, 0))
  {
    CollapseSingleSpaced(s, 0);
    if s != [] {
      CollapseKeepsLast(s, 0);
    }
  }

  /** Whatever the input, the normalisation yields a normal type text. */
  lemma NormalizeIsNormal(t: string)
    ensures IsNormal(Normalize(t))
  {
    var s0 := Trim(t);
    var s1 := Squash(s0, '<');
    var s2 := Squash(s1, '>');
    var s3 := Squash(s2, '*');
    var s4 := Squash(s3, ',');
    var n := CollapseFrom(s4, 0);
    assert Trimmed(s1) && NoSpaceAround(s1, '<') by {
      SquashStage(s0, '<');
    }
    assert Trimmed(s2) && NoSpaceAround(s2, '<') && NoSpaceAround(s2, '>') by {
      SquashStage(s1, '>');
      SquashKeepsClear(s1, '>', '<', 0);
    }
    assert Trimmed(s3) && NoSpaceAround(s3, '<') && NoSpaceAround(s3, '>') && NoSpaceAround(s3, '*') by {
      SquashStage(s2, '*');
      SquashKeepsClear(s2, '*', '<', 0);
      SquashKeepsClear(s2, '*', '>', 0);
    }
    assert Trimmed(s4) && NoSpaceAround(s4, '<') && NoSpaceAround(s4, '>') && NoSpaceAround(s4, '*')
           && NoSpaceAround(s4, ',') by {
      SquashStage(s3, ',');
      SquashKeepsClear(s3, ',', '<', 0);
      SquashKeepsClear(s3, ',', '>', 0);
      SquashKeepsClear(s3, ',', '*', 0);
    }
    CollapseStage(s4);
    CollapseKeepsClear(s4, '<', 0);
    CollapseKeepsClear(s4, '>', 0);
    CollapseKeepsClear(s4, '*', 0);
    CollapseKeepsClear(s4, ',', 0);
  }

  /** A normal type text is its own normalisation. */
  lemma NormalFixpoint(n: string)
    requires IsNormal(n)
    ensures Normalize(n) == n
  {
    SquashFixpoint(n, '<', 0);
    SquashFixpoint(n, '>', 0);
    SquashFixpoint(n, '*', 0);
    SquashFixpoint(n, ',', 0);
    CollapseFixpoint(n, 0);
  }

  /** Normalising twice is normalising once. */
  lemma NormalizeIdempotent(t: string)
    ensures Normalize(Normalize(t)) == Normalize(t)
  {
    NormalizeIsNormal(t);
    NormalFixpoint(Normalize(t));
  }

  /** The non-whitespace characters of `s`, in order: what the normalisation must not touch. */
  function Solid(s: string): string {
    if s == [] then [] else (if IsSpace(s[0]) then [] else [s[0]]) + Solid(s[1..])
  }

  lemma SolidCons(x: char, rest: string)
    ensures Solid([x] + rest) == (if IsSpace(x) then [] else [x]) + Solid(rest)
  {
    assert ([x] + rest)[1..] == rest;
  }

  lemma SolidFrom(s: string, i: nat)
    requires i < |s|
    ensures Solid(s[i..]) == (if IsSpace(s[i]) then [] else [s[i]]) + Solid(s[i + 1..])
  {
    SliceHead(s, i);
    SolidCons(s[i], s[i + 1..]);
  }

  lemma {:induction false} SolidConcat(a: string, b: string)
    ensures Solid(a + b) == Solid(a) + Solid(b)
    decreases |a|
  {
    if a != [] {
      assert a + b == [a[0]] + (a[1..] + b);
      SolidCons(a[0], a[1..] + b);
      SolidConcat(a[1..], b);
    } else {
      assert a + b == b;
    }
  }

  lemma {:induction false} SolidSkipsSpaces(s: string, i: nat, j: nat)
    requires i <= j <= |s|
    requires SpacesIn(s, i, j)
    ensures Solid(s[i..]) == Solid(s[j..])
    decreases j - i
  {
    if i < j {
      SolidFrom(s, i);
      SolidSkipsSpaces(s, i + 1, j);
    }
  }

  lemma {:induction false} SquashSolid(s: string, c: char, i: nat)
    requires !IsSpace(c) && i <= |s|
    ensures Solid(SquashFrom(s, c, i)) == Solid(s[i..])
    decreases |s| - i
  {
    if i < |s| {
      var k := SkipSpaces(s, i);
      if k < |s| && s[k] == c {
        var e := SkipSpaces(s, k + 1);
        SquashSolid(s, c, e);
        SquashSolidTight(s, c, i, k, e);
      } else {
        SquashSolid(s, c, i + 1);
        SquashSolidCopy(s, c, i);
      }
    }
  }

  lemma SquashSolidTight(s: string, c: char, i: nat, k: nat, e: nat)
    requires !IsSpace(c) && i < |s|
    requires k == SkipSpaces(s, i) && k < |s| && s[k] == c && e == SkipSpaces(s, k + 1)
    ensures Solid(SquashFrom(s, c, e)) == Solid(s[e..]) ==> Solid(SquashFrom(s, c, i)) == Solid(s[i..])
  {
    SquashTightStep(s, c, i, k, e);
    var r, rest := SquashFrom(s, c, i), SquashFrom(s, c, e);
    if Solid(rest) == Solid(s[e..]) {
      TightSolid(s, c, i, k, e, r, rest);
    }
  }

  /** A `c` standing for whitespace, the `c` and whitespace again has the content of that stretch. */
  lemma TightSolid(s: string, c: char, i: nat, k: nat, e: nat, r: string, rest: string)
    requires i <= k < |s| && k + 1 <= e <= |s| && s[k] == c && !IsSpace(c)
    requires SpacesIn(s, i, k) && SpacesIn(s, k + 1, e)
    requires r == [c] + rest && Solid(rest) == Solid(s[e..])
    ensures Solid(r) == Solid(s[i..])
  {
    calc {
      Solid([c] + rest);
      == { SolidCons(c, rest); }
      [c] + Solid(s[e..]);
      == { SolidSkipsSpaces(s, k + 1, e); }
      [c] + Solid(s[k + 1..]);
      == { SolidFrom(s, k); }
      Solid(s[k..]);
      == { SolidSkipsSpaces(s, i, k); }
      Solid(s[i..]);
    }
  }

  /** Where the whitespace run from `i` ends in `c`, the step emits `c` and resumes after the whitespace that follows. */
  lemma SquashTightStep(s: string, c: char, i: nat, k: nat, e: nat)
    requires !IsSpace(c) && i < |s|
    requires k == SkipSpaces(s, i) && k < |s| && s[k] == c && e == SkipSpaces(s, k + 1)
    ensures SquashFrom(s, c, i) == [c] + SquashFrom(s, c, e)
  {
  }

  /** Where the whitespace run from `i` does not end in `c`, the step copies one character. */
  lemma SquashCopyStep(s: string, c: char, i: nat)
    requires !IsSpace(c) && i < |s|
    ensures !(SkipSpaces(s, i) < |s| && s[SkipSpaces(s, i)] == c)
            ==> SquashFrom(s, c, i) == [s[i]] + SquashFrom(s, c, i + 1)
  {
  }

  lemma SquashSolidCopy(s: string, c: char, i: nat)
    requires !IsSpace(c) && i < |s|
    requires !(SkipSpaces(s, i) < |s| && s[SkipSpaces(s, i)] == c)
    requires Solid(SquashFrom(s, c, i + 1)) == Solid(s[i + 1..])
    ensures Solid(SquashFrom(s, c, i)) == Solid(s[i..])
  {
    var rest := SquashFrom(s, c, i + 1);
    SquashCopyStep(s, c, i);
    SolidCons(s[i], rest);
    SolidFrom(s, i);
  }

  lemma {:induction false} CollapseSolid(s: string, i: nat)
    requires i <= |s|
    ensures Solid(CollapseFrom(s, i)) == Solid(s[i..])
    decreases |s| - i
  {
    if i < |s| {
      if IsSpace(s[i]) {
        var e := SkipSpaces(s, i);
        CollapseSolid(s, e);
        SolidCons(' ', CollapseFrom(s, e));
        SolidSkipsSpaces(s, i, e);
      } else {
        CollapseSolid(s, i + 1);
        SolidCons(s[i], CollapseFrom(s, i + 1));
        SolidFrom(s, i);
      }
    }
  }

  lemma TrimSolid(s: string)
    ensures Solid(Trim(s)) == Solid(s)
  {
    var a, b := TrimBounds(s);
    SolidAround(s, a, b);
  }

  /** Whitespace around a slice adds nothing to the non-whitespace content. */
  lemma SolidAround(s: string, a: nat, b: nat)
    requires a <= b <= |s|
    requires SpacesIn(s, 0, a) && SpacesIn(s, b, |s|)
    ensures Solid(s) == Solid(s[a..b])
  {
    SolidOfSpaces(s, 0, a);
    SolidOfSpaces(s, b, |s|);
    SplitThree(s, a, b);
    SolidJoin3(s[0..a], s[a..b], s[b..|s|]);
  }

  /** A run of whitespace has no non-whitespace content. */
  lemma SolidOfSpaces(s: string, i: nat, j: nat)
    ensures i <= j <= |s| && SpacesIn(s, i, j) ==> Solid(s[i..j]) == []
  {
    if i <= j <= |s| && SpacesIn(s, i, j) {
      var r := s[i..j];
      assert forall k | 0 <= k < |r| :: r[k] == s[i + k];
      SolidSkipsSpaces(r, 0, |r|);
      assert r[0..] == r && r[|r|..] == [];
    }
  }

  /** Text without non-whitespace content on either side adds none. */
  lemma SolidJoin3(pre: string, mid: string, post: string)
    ensures Solid(pre) == [] && Solid(post) == [] ==> Solid(pre + mid + post) == Solid(mid)
  {
    SolidConcat(pre + mid, post);
    SolidConcat(pre, mid);
    assert [] + Solid(mid) + [] == Solid(mid);
  }

  /** The normalisation changes whitespace only: the other characters stay, in order. */
  lemma NormalizeSolid(t: string)
    ensures Solid(Normalize(t)) == Solid(t)
  {
    var s0 := Trim(t);
    var s1 := Squash(s0, '<');
    var s2 := Squash(s1, '>');
    var s3 := Squash(s2, '*');
    var s4 := Squash(s3, ',');
    TrimSolid(t);
    SquashSolid(s0, '<', 0);
    SquashSolid(s1, '>', 0);
    SquashSolid(s2, '*', 0);
    SquashSolid(s3, ',', 0);
    CollapseSolid(s4, 0);
    assert s0[0..] == s0 && s1[0..] == s1 && s2[0..] == s2 && s3[0..] == s3 && s4[0..] == s4;
  }

  lemma {:induction false} SolidHas(s: string, c: char)
    requires !IsSpace(c)
    ensures c in Solid(s) <==> c in s
    decreases |s|
  {
    if s != [] {
      SolidHas(s[1..], c);
      assert s == [s[0]] + s[1..];
    }
  }

  /** A non-whitespace character occurs in the normalised type exactly when it occurs in the type. */
  lemma NormalizeKeepsChar(t: string, c: char)
    requires !IsSpace(c)
    ensures c in Normalize(t) <==> c in t
  {
    NormalizeSolid(t);
    SolidHas(t, c);
    SolidHas(Normalize(t), c);
  }
}

=== FILE: repair.dfy ===
/**
 The Repair Loop, `retryWithFeedback`: run the candidate; on success stop; on failure send the
 model a prompt holding the keywords, the code and the error, and try again with its reply, at
 most `maxAttempts` times. Around it, `retryWithTimeoutAndFeedback` races the loop against a
 timer and `handleGeneratedCode` keeps the repaired code or falls back to the original. The model
 configuration lookup (`getModelConfig`) decides which model is asked.
 */
module Repair {
  import opened Wrappers
  import opened Text
  import opened Classify
  import opened Harness
  import opened Executor

  /** The loop's default number of attempts. */
  const MaxAttempts: nat := 4

  /** The role message and the token limit of every repair request. */
  const SystemRole: string := "你是一个代码生成助手"
  const MaxTokens: nat := 1500

  /** The fields of a model configuration the harness reads. */
  datatype ModelConfig = ModelConfig(baseURL: Option<string>, model: Option<string>)

  /** An entry of the `customModels` setting. */
  datatype CustomModel = CustomModel(modelName: string, baseURL: Option<string>, model: Option<string>)

  /** `getSelectedModel`: the `selectedModel` setting, `deepseek-chat` when it is not set. */
  function SelectedModel(setting: Option<string>): (name: string)
    ensures setting.Some? ==> name == setting.value
    ensures setting.None? ==> name == "deepseek-chat"
  {
    setting.GetOr("deepseek-chat")
  }

  /** `modelConfigs`: the built-in models (the API keys come from the environment and are left out). */
  function BuiltinConfig(name: string): (r: Option<ModelConfig>)
    ensures r.Some? <==> name in {"deepseek-chat", "gpt-4", "gpt-3.5"}
    ensures r.Some? ==> r.value.model.Some?
  {
    if name == "deepseek-chat" then Some(ModelConfig(Some("https://api.deepseek.com/beta"), Some("deepseek-chat")))
    else if name == "gpt-4" then Some(ModelConfig(Some("https://api.openai.com/v1"), Some("gpt-4")))
    else if name == "gpt-3.5" then Some(ModelConfig(Some("https://api.openai.com/v1"), Some("gpt-3.5-turbo")))
    else None
  }

  /** `customModels.find(m => m.modelName === name)`: the first entry with that name. */
  function FindCustom(customs: seq<CustomModel>, name: string): (r: Option<nat>)
    ensures r.Some? ==> r.value < |customs| && customs[r.value].modelName == name
    ensures r.Some? ==> forall j | 0 <= j < r.value :: customs[j].modelName != name
    ensures r.None? ==> forall j | 0 <= j < |customs| :: customs[j].modelName != name
  {
    if customs == [] then None
    else if customs[0].modelName == name then Some(0)
    else match FindCustom(customs[1..], name)
      case None => None
      case Some(i) => Some(i + 1)
  }

  /** `getModelConfig`: a built-in model first, then the first custom model of that name. */
  function GetModelConfig(selected: string, customs: seq<CustomModel>): (r: Option<ModelConfig>)
    ensures r.Some? ==> r == BuiltinConfig(selected) || exists i | 0 <= i < |customs| ::
              customs[i].modelName == selected && r.value == ModelConfig(customs[i].baseURL, customs[i].model)
  {
    if BuiltinConfig(selected).Some? then BuiltinConfig(selected)
    else match FindCustom(customs, selected)
      case None => None
      case Some(i) => Some(ModelConfig(customs[i].baseURL, customs[i].model))
  }

  /**
   The lookup order: a built-in model shadows every custom model of the same name; otherwise
   the first custom model of that name is used; there is no configuration exactly when neither
   exists.
   */
  lemma GetModelConfigOrder(selected: string, customs: seq<CustomModel>)
    ensures BuiltinConfig(selected).Some? ==> GetModelConfig(selected, customs) == BuiltinConfig(selected)
    ensures GetModelConfig(selected, customs).None? <==>
            BuiltinConfig(selected).None? && forall j | 0 <= j < |customs| :: customs[j].modelName != selected
    ensures forall i | 0 <= i < |customs| ::
              BuiltinConfig(selected).None? && customs[i].modelName == selected
              && (forall j | 0 <= j < i :: customs[j].modelName != selected)
              ==> GetModelConfig(selected, customs) == Some(ModelConfig(customs[i].baseURL, customs[i].model))
  {
    forall i | 0 <= i < |customs| && BuiltinConfig(selected).None? && customs[i].modelName == selected
               && (forall j | 0 <= j < i :: customs[j].modelName != selected)
      ensures GetModelConfig(selected, customs) == Some(ModelConfig(customs[i].baseURL, customs[i].model))
    {
      var f := FindCustom(customs, selected);
      assert f.Some?;
      assert !(f.value < i) && !(i < f.value);
    }
  }

  /** The prompt that asks the model to repair `code`, character for character. */
  function FeedbackPrompt(keywords: string, lang: string, code: string, message: string): string {
    "你根据以下注释生成了这段代码：\n\n注释: " + keywords + "\n\n代码：\n\n```" + lang + "\n" + code
    + "\n```\n\n运行时报错如下：\n" + message + "\n\n请只输出修复后的完整代码（无额外解释）"
  }

  /** The prompt carries the keywords, the failing code in a fence tagged with its language, and the error. */
  lemma PromptCarries(keywords: string, lang: string, code: string, message: string)
    ensures Contains(FeedbackPrompt(keywords, lang, code, message), keywords)
    ensures Contains(FeedbackPrompt(keywords, lang, code, message), "```" + lang + "\n" + code + "\n```")
    ensures Contains(FeedbackPrompt(keywords, lang, code, message), message)
  {
    var fence := "```" + lang + "\n" + code + "\n```";
    PromptLayout(keywords, lang, code, message, PromptHead, PromptCode, PromptError, PromptTail, fence);
    PartsCarried(PromptHead, keywords, PromptCode, fence, PromptError, message, PromptTail);
  }

  const PromptHead: string := "你根据以下注释生成了这段代码：\n\n注释: "
  const PromptCode: string := "\n\n代码：\n\n"
  const PromptError: string := "\n\n运行时报错如下：\n"
  const PromptTail: string := "\n\n请只输出修复后的完整代码（无额外解释）"

  /** Each of the three parts filled in stands in the text. */
  lemma PartsCarried(a: string, x: string, b: string, y: string, c: string, z: string, d: string)
    ensures Contains(a + x + b + y + c + z + d, x)
    ensures Contains(a + x + b + y + c + z + d, y)
    ensures Contains(a + x + b + y + c + z + d, z)
  {
    ContainsEnd(a, x);
    ContainsExtend(a + x, b, x);
    ContainsExtend(a + x + b, y, x);
    ContainsExtend(a + x + b + y, c, x);
    ContainsExtend(a + x + b + y + c, z, x);
    ContainsExtend(a + x + b + y + c + z, d, x);
    ContainsEnd(a + x + b, y);
    ContainsExtend(a + x + b + y, c, y);
    ContainsExtend(a + x + b + y + c, z, y);
    ContainsExtend(a + x + b + y + c + z, d, y);
    ContainsEnd(a + x + b + y + c, z);
    ContainsExtend(a + x + b + y + c + z, d, z);
  }

  lemma PromptLayout(keywords: string, lang: string, code: string, message: string,
                     a: string, b: string, c: string, d: string, fence: string)
    requires a == "你根据以下注释生成了这段代码：\n\n注释: " && b == "\n\n代码：\n\n"
    requires c == "\n\n运行时报错如下：\n" && d == "\n\n请只输出修复后的完整代码（无额外解释）"
    requires fence == "```" + lang + "\n" + code + "\n```"
    ensures FeedbackPrompt(keywords, lang, code, message) == a + keywords + b + fence + c + message + d
  {
    assert "\n```" + "\n\n运行时报错如下：\n" == "\n```\n\n运行时报错如下：\n";
    assert "\n\n代码：\n\n" + "```" == "\n\n代码：\n\n```";
  }

  /** A chat completion request. */
  datatype Request = Request(model: Option<string>, system: string, user: string, maxTokens: nat)

  /**
   What `response.choices[0]?.message?.content` holds before it is trimmed: the content, nothing
   (the first choice or its message is missing), or an exception (the request failed, or the
   content is not a string).
   */
  datatype Reply = Content(text: string) | NoContent | Failure

  /**
   Everything outside the loop: `run(lang, k, code)` is the `k`-th call of `runCode`, and
   `oracle(k, request)` is the model's answer to the `k`-th request; then the `selectedModel`
   setting, if it is set, and the custom models of the settings.
   */
  datatype Env = Env(run: (Language, nat, string) -> Outcome<RunResult>, oracle: (nat, Request) -> Reply,
                     setting: Option<string>, customs: seq<CustomModel>) {

    /** The model every `getSelectedModel` call of the loop reads. */
    function Selected(): string {
      SelectedModel(setting)
    }
  }

  /**
   The environment of the extension: each run is `runCode` on the same parser and scratch file,
   with `exec(k, command, program)` the report of the `k`-th process.
   */
  function ExtensionEnv(parse: string -> Parse, exec: (nat, string, string) -> ExecReport, base: string,
                        oracle: (nat, Request) -> Reply, setting: Option<string>, customs: seq<CustomModel>): (env: Env)
    ensures forall lang, k: nat, code ::
              env.run(lang, k, code) == RunCode(lang, code, parse, (command, program) => exec(k, command, program), base)
  {
    Env((lang: Language, k: nat, code: string) => RunCode(lang, code, parse, (command, program) => exec(k, command, program), base),
        oracle, setting, customs)
  }

  /** The `k`-th call of `runCode`. */
  function Run(env: Env, lang: Language, k: nat, code: string): Outcome<RunResult> {
    env.run(lang, k, code)
  }

  /** The loop's result: the code that passed with its output, or the last code after the last attempt. */
  datatype Feedback = Passed(code: string, output: string) | GaveUp(last: Option<string>)

  /**
   One run of the loop: its result (`Resolved(None)` is the `undefined` the loop returns when no
   model configuration is found), the codes it ran in order, and the prompts it sent in order.
   */
  datatype Session = Session(result: Outcome<Option<Feedback>>, runs: seq<string>, prompts: seq<string>)

  function Prepend(code: string, prompt: string, s: Session): (r: Session)
    ensures r.result == s.result
    ensures r.runs == [code] + s.runs && r.prompts == [prompt] + s.prompts
  {
    Session(s.result, [code] + s.runs, [prompt] + s.prompts)
  }

  /**
   The model's answer to the repair prompt of attempt `k`, asked with the configured model name;
   nothing when no configuration is found.
   */
  function Answer(env: Env, k: nat, prompt: string): Option<Reply> {
    match GetModelConfig(env.Selected(), env.customs)
    case None => None
    case Some(cfg) => Some(env.oracle(k, Request(cfg.model, SystemRole, prompt, MaxTokens)))
  }

  /** With `selectedModel` unset, the loop asks `deepseek-chat`, which is built in. */
  lemma UnsetSettingAsksDeepSeek(env: Env, k: nat, prompt: string)
    requires env.setting.None?
    ensures BuiltinConfig(env.Selected()).Some?
    ensures Answer(env, k, prompt) == Some(env.oracle(k, Request(Some("deepseek-chat"), SystemRole, prompt, MaxTokens)))
  {
  }

  /** The trimmed content of the model's answer to `prompt` at attempt `k`, when it answers with content. */
  function AnswerText(env: Env, k: nat, prompt: string): Option<string> {
    match Answer(env, k, prompt)
    case Some(Content(text)) => Some(Trim(text))
    case _ => None
  }

  /** `next` is the trimmed content of the model's answer to `prompt`, the request of attempt `k`. */
  predicate AnsweredWith(env: Env, k: nat, prompt: string, next: string) {
    AnswerText(env, k, prompt) == Some(next)
  }

  /** The next candidate: the trimmed content, or `undefined` when the answer has none. */
  function Next(a: Reply): Option<string> {
    if a.Content? then Some(Trim(a.text)) else None
  }

  /** What one attempt leads to: the loop ends with `result`, or goes on after sending `prompt`. */
  datatype Step = Stop(result: Outcome<Option<Feedback>>) | Retry(prompt: string, next: Option<string>)

  /**
   One attempt on the candidate `code`: run it; on success stop; otherwise build the client
   (which throws for a model that is not built in), look up the configuration and ask the model.
   An attempt never ends in `undefined`, because a built-in model always has a configuration;
   it ends resolved only when the run passed.
   */
  function Attempt(env: Env, keywords: string, lang: Language, code: string, k: nat): (st: Step)
    ensures st != Stop(Resolved(None))
    ensures st.Stop? && st.result.Resolved? ==>
              && Run(env, lang, k, code).Resolved? && Run(env, lang, k, code).value.success
              && st.result == Resolved(Some(Passed(code, Run(env, lang, k, code).value.message)))
  {
    match Run(env, lang, k, code)
    case Rejected => Stop(Rejected)
    case Resolved(r) =>
      if r.success then Stop(Resolved(Some(Passed(code, r.message))))
      else
        var prompt := FeedbackPrompt(keywords, lang.Tag(), code, r.message);
        if BuiltinConfig(env.Selected()).None? then Stop(Rejected)
        else match Answer(env, k, prompt)
          case None => Stop(Resolved(None))
          case Some(a) => if a.Failure? then Stop(Rejected) else Retry(prompt, Next(a))
  }

  /**
   The loop from attempt `k` with the candidate `code` (`None` is the `undefined` that a reply
   without content leaves behind, on which `runCode` throws).
   */
  function Loop(env: Env, keywords: string, lang: Language, max: nat, code: Option<string>, k: nat): (s: Session)
    ensures |s.runs| <= if k <= max then max - k else 0
    ensures |s.prompts| <= |s.runs| <= |s.prompts| + 1
    ensures k < max && code.Some? ==> |s.runs| > 0 && s.runs[0] == code.value
    decreases max - k
  {
    if k >= max then Session(Resolved(Some(GaveUp(code))), [], [])
    else if code.None? then Session(Rejected, [], [])
    else match Attempt(env, keywords, lang, code.value, k)
      case Stop(result) => Session(result, [code.value], [])
      case Retry(prompt, next) => Prepend(code.value, prompt, Loop(env, keywords, lang, max, next, k + 1))
  }

  /** The `i`-th run of a session failed with `message`. */
  predicate FailedWith(env: Env, lang: Language, i: nat, code: string, message: string) {
    Run(env, lang, i, code) == Resolved(RunResult(false, message))
  }

  /** An attempt that goes on failed its run, and the prompt it sent describes that failure. */
  lemma RetryDescribesFailure(env: Env, keywords: string, lang: Language, code: string, k: nat)
      returns (message: string)
    requires Attempt(env, keywords, lang, code, k).Retry?
    ensures FailedWith(env, lang, k, code, message)
    ensures Attempt(env, keywords, lang, code, k).prompt == FeedbackPrompt(keywords, lang.Tag(), code, message)
  {
    message := Run(env, lang, k, code).value.message;
  }

  /**
   A failed run with a built-in model that answers with content goes on: it sends the repair
   prompt for that failure and tries the trimmed content of the answer next.
   */
  lemma FailedRunRetries(env: Env, keywords: string, lang: Language, code: string, k: nat)
      returns (prompt: string, next: string)
    requires Run(env, lang, k, code).Resolved? && !Run(env, lang, k, code).value.success
    requires BuiltinConfig(env.Selected()).Some?
    requires forall q: Request :: env.oracle(k, q).Content?
    ensures prompt == FeedbackPrompt(keywords, lang.Tag(), code, Run(env, lang, k, code).value.message)
    ensures AnsweredWith(env, k, prompt, next)
    ensures Attempt(env, keywords, lang, code, k) == Retry(prompt, Some(next))
  {
    prompt := FeedbackPrompt(keywords, lang.Tag(), code, Run(env, lang, k, code).value.message);
    var cfg := GetModelConfig(env.Selected(), env.customs).value;
    var reply := env.oracle(k, Request(cfg.model, SystemRole, prompt, MaxTokens));
    next := Trim(reply.text);
  }

  /** An attempt that goes on with a candidate goes on with the trimmed content of the model's answer. */
  lemma RetryAnswers(env: Env, keywords: string, lang: Language, code: string, k: nat)
    requires Attempt(env, keywords, lang, code, k).Retry? && Attempt(env, keywords, lang, code, k).next.Some?
    ensures AnsweredWith(env, k, Attempt(env, keywords, lang, code, k).prompt,
                         Attempt(env, keywords, lang, code, k).next.value)
  {
  }

  /**
   The loop never returns `undefined`: a model that is not built in makes the client throw
   before the configuration is looked up, and a built-in model always has a configuration.
   */
  lemma {:induction false} NeverUndefined(env: Env, keywords: string, lang: Language, max: nat,
                                          code: Option<string>, k: nat)
    ensures Loop(env, keywords, lang, max, code, k).result != Resolved(None)
    decreases max - k
  {
    if k < max && code.Some? {
      var st := Attempt(env, keywords, lang, code.value, k);
      if st.Retry? {
        NeverUndefined(env, keywords, lang, max, st.next, k + 1);
      }
    }
  }

  /**
   A session that passes ends with the code that passed: there is one prompt for each run
   before it, and the last run, attempt `k + |runs| - 1`, is the one that succeeded, with the
   output it reports.
   */
  predicate EndsWithPass(env: Env, lang: Language, k: nat, s: Session) {
    s.result.Resolved? && s.result.value.Some? && s.result.value.value.Passed? ==>
      && |s.runs| == |s.prompts| + 1
      && s.result.value.value.code == s.runs[|s.runs| - 1]
      && Run(env, lang, k + |s.runs| - 1, s.result.value.value.code)
         == Resolved(RunResult(true, s.result.value.value.output))
  }

  lemma {:induction false} PassedIsLastRun(env: Env, keywords: string, lang: Language, max: nat,
                                           code: Option<string>, k: nat)
    ensures EndsWithPass(env, lang, k, Loop(env, keywords, lang, max, code, k))
    decreases max - k
  {
    if k < max && code.Some? {
      var st := Attempt(env, keywords, lang, code.value, k);
      if st.Retry? {
        PassedIsLastRun(env, keywords, lang, max, st.next, k + 1);
        PrependKeepsPass(env, lang, k, code.value, st.prompt, Loop(env, keywords, lang, max, st.next, k + 1));
      }
    }
  }

  /** A run and a prompt in front of a session that ends with a pass still end with it. */
  lemma PrependKeepsPass(env: Env, lang: Language, k: nat, code: string, prompt: string, rest: Session)
    requires EndsWithPass(env, lang, k + 1, rest)
    ensures EndsWithPass(env, lang, k, Prepend(code, prompt, rest))
  {
    var s := Prepend(code, prompt, rest);
    if s.result.Resolved? && s.result.value.Some? && s.result.value.value.Passed? {
      LastOfCons(code, rest.runs);
      assert k + |s.runs| - 1 == k + 1 + |rest.runs| - 1;
    }
  }

  /** `prompt` is the repair prompt for `code`, whose run, attempt `j`, failed with `message`. */
  predicate Describes(env: Env, keywords: string, lang: Language, j: nat, code: string, prompt: string,
                      message: string) {
    FailedWith(env, lang, j, code, message) && prompt == FeedbackPrompt(keywords, lang.Tag(), code, message)
  }

  /** The `i`-th prompt of session `s`, whose runs start at attempt `k`, describes the failure of the `i`-th run. */
  predicate PromptDescribes(env: Env, keywords: string, lang: Language, k: nat, s: Session, i: nat, message: string) {
    i < |s.prompts| && i < |s.runs| && Describes(env, keywords, lang, k + i, s.runs[i], s.prompts[i], message)
  }

  /** Each prompt of a session describes the failure of the run before it: its code and its message. */
  lemma PromptsDescribeFailures(env: Env, keywords: string, lang: Language, max: nat,
                                code: Option<string>, k: nat, i: nat)
      returns (message: string)
    requires i < |Loop(env, keywords, lang, max, code, k).prompts|
    ensures PromptDescribes(env, keywords, lang, k, Loop(env, keywords, lang, max, code, k), i, message)
  {
    LoopPairsPrompts(env, keywords, lang, max, code, k);
    message := PairedDescribes(env, keywords, lang, k, Loop(env, keywords, lang, max, code, k), i);
  }

  lemma PairedDescribes(env: Env, keywords: string, lang: Language, k: nat, s: Session, i: nat)
      returns (message: string)
    requires Paired(PromptOf(env, keywords, lang), k, s.runs, s.prompts) && i < |s.prompts| && i < |s.runs|
    ensures PromptDescribes(env, keywords, lang, k, s, i, message)
  {
    PairedAt(PromptOf(env, keywords, lang), k, s.runs, s.prompts, i);
    message := PromptOfDescribes(env, keywords, lang, k + i, s.runs[i], s.prompts[i]);
  }

  /** The repair prompt for the run of `code` at attempt `j`, when that run failed. */
  function PromptOf(env: Env, keywords: string, lang: Language): (nat, string) -> Option<string> {
    (j: nat, code: string) =>
      if Run(env, lang, j, code).Resolved? && !Run(env, lang, j, code).value.success
      then Some(FeedbackPrompt(keywords, lang.Tag(), code, Run(env, lang, j, code).value.message))
      else None
  }

  lemma PromptOfDescribes(env: Env, keywords: string, lang: Language, j: nat, code: string, prompt: string)
      returns (message: string)
    requires PromptOf(env, keywords, lang)(j, code) == Some(prompt)
    ensures Describes(env, keywords, lang, j, code, prompt, message)
  {
    message := Run(env, lang, j, code).value.message;
  }

  /** The runs of a session paired with its prompts: each prompt is the repair prompt for the run before it. */
  lemma {:induction false} LoopPairsPrompts(env: Env, keywords: string, lang: Language, max: nat,
                                            code: Option<string>, k: nat)
    ensures Paired(PromptOf(env, keywords, lang), k, Loop(env, keywords, lang, max, code, k).runs,
                   Loop(env, keywords, lang, max, code, k).prompts)
    decreases max - k
  {
    var s := Loop(env, keywords, lang, max, code, k);
    if 0 < |s.prompts| {
      var prompt, next := SessionTail(env, keywords, lang, max, code, k);
      var rest := Loop(env, keywords, lang, max, next, k + 1);
      LoopPairsPrompts(env, keywords, lang, max, next, k + 1);
      FirstPromptOf(env, keywords, lang, max, code, k, prompt, next);
      PrependPaired(PromptOf(env, keywords, lang), k, code.value, prompt, rest.runs, rest.prompts);
    }
  }

  lemma FirstPromptOf(env: Env, keywords: string, lang: Language, max: nat, code: Option<string>, k: nat,
                      prompt: string, next: Option<string>)
    requires k < max && code.Some?
    requires Loop(env, keywords, lang, max, code, k) == Prepend(code.value, prompt, Loop(env, keywords, lang, max, next, k + 1))
    ensures PromptOf(env, keywords, lang)(k, code.value) == Some(prompt)
  {
    PromptedRetries(env, keywords, lang, max, code, k);
    assert Loop(env, keywords, lang, max, code, k).prompts[0] == prompt;
    var message := RetryDescribesFailure(env, keywords, lang, code.value, k);
  }

  /** A session that sent a prompt went on from its first attempt. */
  lemma PromptedRetries(env: Env, keywords: string, lang: Language, max: nat, code: Option<string>, k: nat)
    requires 0 < |Loop(env, keywords, lang, max, code, k).prompts|
    ensures k < max && code.Some? && Attempt(env, keywords, lang, code.value, k).Retry?
    ensures var st := Attempt(env, keywords, lang, code.value, k);
            Loop(env, keywords, lang, max, code, k) == Prepend(code.value, st.prompt, Loop(env, keywords, lang, max, st.next, k + 1))
  {
  }

  /** A session that ran anything had an attempt left and a candidate, and ran that candidate first. */
  lemma RunsOpenWithCode(env: Env, keywords: string, lang: Language, max: nat, code: Option<string>, k: nat)
    ensures |Loop(env, keywords, lang, max, code, k).runs| > 0 ==>
            k < max && code.Some? && Loop(env, keywords, lang, max, code, k).runs[0] == code.value
  {
  }

  /** The run after the `i`-th prompt of session `s`, whose runs start at attempt `k`, is the trimmed answer to it. */
  predicate NextRunAnswers(env: Env, k: nat, s: Session, i: nat) {
    i < |s.prompts| && i + 1 < |s.runs| && AnsweredWith(env, k + i, s.prompts[i], s.runs[i + 1])
  }

  /** Every run after the first runs the trimmed content of the model's answer to the prompt before it. */
  lemma RunsFollowAnswers(env: Env, keywords: string, lang: Language, max: nat,
                          code: Option<string>, k: nat, i: nat)
    requires i + 1 < |Loop(env, keywords, lang, max, code, k).runs|
    ensures NextRunAnswers(env, k, Loop(env, keywords, lang, max, code, k), i)
  {
    LoopPairsAnswers(env, keywords, lang, max, code, k);
    PairedNextRun(env, k, Loop(env, keywords, lang, max, code, k), i);
  }

  lemma PairedNextRun(env: Env, k: nat, s: Session, i: nat)
    requires Paired(AnswerOf(env), k, s.prompts, Later(s.runs)) && i < |s.prompts| && i + 1 < |s.runs|
    ensures NextRunAnswers(env, k, s, i)
  {
    PairedAt(AnswerOf(env), k, s.prompts, Later(s.runs), i);
    assert Later(s.runs)[i] == s.runs[i + 1];
    AnswerOfAt(env, k + i, s.prompts[i]);
  }

  /** `AnswerText` with the environment fixed. */
  function AnswerOf(env: Env): (nat, string) -> Option<string> {
    (j: nat, prompt: string) => AnswerText(env, j, prompt)
  }

  /** The runs of a session after the first. */
  function Later(runs: seq<string>): seq<string> {
    if runs == [] then [] else runs[1..]
  }

  /**
   `pair` takes each `xs[j]`, at attempt `k + j`, to `ys[j]`, as far as both sequences reach.
   A session pairs its runs with its prompts by the repair prompt, and its prompts with its
   later runs by the model's answer.
   */
  predicate Paired(pair: (nat, string) -> Option<string>, k: nat, xs: seq<string>, ys: seq<string>)
    decreases |xs|
  {
    0 < |xs| && 0 < |ys| ==> pair(k, xs[0]) == Some(ys[0]) && Paired(pair, k + 1, xs[1..], ys[1..])
  }

  lemma {:induction false} PairedAt(pair: (nat, string) -> Option<string>, k: nat, xs: seq<string>,
                                    ys: seq<string>, i: nat)
    requires Paired(pair, k, xs, ys) && i < |xs| && i < |ys|
    ensures pair(k + i, xs[i]) == Some(ys[i])
    decreases i
  {
    if i > 0 {
      PairedAt(pair, k + 1, xs[1..], ys[1..], i - 1);
      assert xs[1..][i - 1] == xs[i] && ys[1..][i - 1] == ys[i];
      assert k + 1 + (i - 1) == k + i;
    }
  }

  lemma PrependPaired(pair: (nat, string) -> Option<string>, k: nat, x: string, y: string,
                      xs: seq<string>, ys: seq<string>)
    requires Paired(pair, k + 1, xs, ys) && pair(k, x) == Some(y)
    ensures Paired(pair, k, [x] + xs, [y] + ys)
  {
    assert ([x] + xs)[1..] == xs && ([y] + ys)[1..] == ys;
  }

  /** The prompts of a session paired with its later runs: each is the trimmed answer to the prompt before it. */
  lemma {:induction false} LoopPairsAnswers(env: Env, keywords: string, lang: Language, max: nat,
                                            code: Option<string>, k: nat)
    ensures Paired(AnswerOf(env), k, Loop(env, keywords, lang, max, code, k).prompts,
                   Later(Loop(env, keywords, lang, max, code, k).runs))
    decreases max - k
  {
    if 0 < |Loop(env, keywords, lang, max, code, k).prompts| {
      var prompt, next := SessionTail(env, keywords, lang, max, code, k);
      var rest := Loop(env, keywords, lang, max, next, k + 1);
      LoopPairsAnswers(env, keywords, lang, max, next, k + 1);
      RunsOpenWithCode(env, keywords, lang, max, next, k + 1);
      PrependPairsAnswers(env, k, code.value, prompt, next, rest);
    }
  }

  lemma PrependPairsAnswers(env: Env, k: nat, code: string, prompt: string, next: Option<string>, rest: Session)
    requires Paired(AnswerOf(env), k + 1, rest.prompts, Later(rest.runs))
    requires 0 < |rest.runs| ==> next.Some? && rest.runs[0] == next.value
    requires next.Some? ==> AnsweredWith(env, k, prompt, next.value)
    ensures Paired(AnswerOf(env), k, Prepend(code, prompt, rest).prompts, Later(Prepend(code, prompt, rest).runs))
  {
    if 0 < |rest.runs| {
      AnswerOfAt(env, k, prompt);
      assert rest.runs == [rest.runs[0]] + Later(rest.runs);
      PrependPaired(AnswerOf(env), k, prompt, rest.runs[0], rest.prompts, Later(rest.runs));
    }
    assert Later(Prepend(code, prompt, rest).runs) == rest.runs;
  }

  /** Applying `AnswerOf(env)` is asking `env` for the trimmed answer. */
  lemma AnswerOfAt(env: Env, k: nat, prompt: string)
    ensures AnswerOf(env)(k, prompt) == AnswerText(env, k, prompt)
  {
  }

  /** A session that prompted the model is its first candidate and prompt before the session of the answer. */
  lemma SessionTail(env: Env, keywords: string, lang: Language, max: nat, code: Option<string>, k: nat)
    returns (prompt: string, next: Option<string>)
    requires 0 < |Loop(env, keywords, lang, max, code, k).prompts|
    ensures k < max && code.Some?
    ensures Loop(env, keywords, lang, max, code, k) == Prepend(code.value, prompt, Loop(env, keywords, lang, max, next, k + 1))
    ensures next.Some? ==> AnsweredWith(env, k, prompt, next.value)
    ensures next.Some? ==> AnswerOf(env)(k, prompt) == next
  {
    PromptedRetries(env, keywords, lang, max, code, k);
    prompt, next := Attempt(env, keywords, lang, code.value, k).prompt, Attempt(env, keywords, lang, code.value, k).next;
    if next.Some? {
      RetryAnswers(env, keywords, lang, code.value, k);
    }
  }

  lemma LastOfCons<T>(x: T, xs: seq<T>)
    requires |xs| > 0
    ensures ([x] + xs)[|xs|] == xs[|xs| - 1]
  {
  }

  /** Every run of the loop fails. */
  ghost predicate AlwaysFails(env: Env, lang: Language) {
    forall i: nat, c: string :: Run(env, lang, i, c).Resolved? && !Run(env, lang, i, c).value.success
  }

  /** The model always answers with content. */
  ghost predicate AlwaysAnswers(env: Env) {
    forall i: nat, q: Request :: env.oracle(i, q).Content?
  }

  /**
   When every run fails and a built-in model always answers, the loop uses all its attempts:
   it runs and prompts once per attempt and gives up with `last`, the trimmed answer to its last
   prompt, which it never runs (the starting code when there are no attempts left).
   */
  lemma GivesUpAfterAllAttempts(env: Env, keywords: string, lang: Language, max: nat, code: string, k: nat)
      returns (last: string)
    requires k <= max
    requires AlwaysFails(env, lang) && AlwaysAnswers(env)
    requires BuiltinConfig(env.Selected()).Some?
    ensures Loop(env, keywords, lang, max, Some(code), k).result == Resolved(Some(GaveUp(Some(last))))
    ensures |Loop(env, keywords, lang, max, Some(code), k).runs| == max - k
    ensures |Loop(env, keywords, lang, max, Some(code), k).prompts| == max - k
    ensures k == max ==> last == code
    ensures k < max ==> AnsweredWith(env, max - 1, Loop(env, keywords, lang, max, Some(code), k).prompts[max - k - 1], last)
  {
    last := UsesAllAttempts(env, keywords, lang, max, code, k);
    if k < max {
      GaveUpOnLastAnswer(env, keywords, lang, max, Some(code), k, last);
      AnswerAtEnd(env, max, k, Loop(env, keywords, lang, max, Some(code), k), last);
    }
  }

  /** The length and result part of `GivesUpAfterAllAttempts`. */
  lemma {:induction false} UsesAllAttempts(env: Env, keywords: string, lang: Language, max: nat, code: string, k: nat)
      returns (last: string)
    requires k <= max
    requires AlwaysFails(env, lang) && AlwaysAnswers(env)
    requires BuiltinConfig(env.Selected()).Some?
    ensures Loop(env, keywords, lang, max, Some(code), k).result == Resolved(Some(GaveUp(Some(last))))
    ensures |Loop(env, keywords, lang, max, Some(code), k).runs| == max - k
    ensures |Loop(env, keywords, lang, max, Some(code), k).prompts| == max - k
    ensures k == max ==> last == code
    decreases max - k
  {
    if k == max {
      last := code;
      assert Loop(env, keywords, lang, max, Some(code), k) == Session(Resolved(Some(GaveUp(Some(code)))), [], []);
    } else {
      var prompt, next := FailingStep(env, keywords, lang, max, code, k);
      last := UsesAllAttempts(env, keywords, lang, max, next, k + 1);
      ghost var s0 := Loop(env, keywords, lang, max, Some(code), k);
      ghost var rest := Loop(env, keywords, lang, max, Some(next), k + 1);
      assert s0 == Prepend(code, prompt, rest);
      assert rest.result == Resolved(Some(GaveUp(Some(last))));
      assert |rest.runs| == max - k - 1;
      assert |rest.prompts| == max - k - 1;
      PrependKeepsGaveUp(Loop(env, keywords, lang, max, Some(code), k), code, prompt,
                         Loop(env, keywords, lang, max, Some(next), k + 1), max - k - 1, last);
    }
  }

  /** A run and a prompt in front of a session that gave up after `n` attempts make one that gave up after `n + 1`. */
  lemma PrependKeepsGaveUp(s: Session, code: string, prompt: string, rest: Session, n: nat, last: string)
    ensures && s == Prepend(code, prompt, rest) && rest.result == Resolved(Some(GaveUp(Some(last))))
            && |rest.runs| == n && |rest.prompts| == n
            ==> s.result == Resolved(Some(GaveUp(Some(last)))) && |s.runs| == n + 1 && |s.prompts| == n + 1
  {
  }

  /** Session `s` gave up with the candidate `last`. */
  predicate GaveUpWith(s: Session, last: string) {
    s.result == Resolved(Some(GaveUp(Some(last))))
  }

  /**
   If session `s`, whose runs start at attempt `k`, gave up with `last` after sending a prompt,
   then `answer` gave `last` for its last prompt.
   */
  predicate GaveUpOnAnswer(answer: (nat, string) -> Option<string>, k: nat, s: Session, last: string) {
    GaveUpWith(s, last) && |s.prompts| > 0 ==>
      answer(k + |s.prompts| - 1, s.prompts[|s.prompts| - 1]) == Some(last)
  }

  /**
   Whatever the attempts, a session that gave up after a prompt gave up with the trimmed answer
   to its last prompt: the code returned is one the loop never ran.
   */
  lemma {:induction false} GaveUpOnLastAnswer(env: Env, keywords: string, lang: Language, max: nat,
                                              code: Option<string>, k: nat, last: string)
    ensures GaveUpOnAnswer(AnswerOf(env), k, Loop(env, keywords, lang, max, code, k), last)
    decreases max - k
  {
    if 0 < |Loop(env, keywords, lang, max, code, k).prompts| {
      var prompt, next := SessionTail(env, keywords, lang, max, code, k);
      GaveUpOnLastAnswer(env, keywords, lang, max, next, k + 1, last);
      GaveUpWithoutPrompt(env, keywords, lang, max, next, k + 1, last);
      PrependKeepsAnswer(AnswerOf(env), k, code.value, prompt, next, Loop(env, keywords, lang, max, next, k + 1), last);
    }
  }

  /** The answer to the last prompt of a session that gave up after one prompt per attempt. */
  lemma AnswerAtEnd(env: Env, max: nat, k: nat, s: Session, last: string)
    requires k < max && |s.prompts| == max - k
    requires GaveUpOnAnswer(AnswerOf(env), k, s, last) && s.result == Resolved(Some(GaveUp(Some(last))))
    ensures AnsweredWith(env, max - 1, s.prompts[max - k - 1], last)
  {
    var prompt := LastAnswer(AnswerOf(env), max, k, s, last);
    AnswerOfAt(env, max - 1, prompt);
  }

  lemma LastAnswer(answer: (nat, string) -> Option<string>, max: nat, k: nat, s: Session, last: string)
      returns (prompt: string)
    requires k < max && |s.prompts| == max - k
    requires GaveUpOnAnswer(answer, k, s, last) && s.result == Resolved(Some(GaveUp(Some(last))))
    ensures prompt == s.prompts[max - k - 1] && answer(max - 1, prompt) == Some(last)
  {
    prompt := s.prompts[max - k - 1];
    assert k + |s.prompts| - 1 == max - 1;
  }

  /** A session that gave up without a prompt gave up with the candidate it started from. */
  lemma GaveUpWithoutPrompt(env: Env, keywords: string, lang: Language, max: nat, code: Option<string>, k: nat,
                            last: string)
    ensures (GaveUpWith(Loop(env, keywords, lang, max, code, k), last)
             && |Loop(env, keywords, lang, max, code, k).prompts| == 0) ==> code == Some(last)
  {
  }

  /** What `GaveUpOnAnswer` says of the rest of a session it says of the session. */
  lemma PrependKeepsAnswer(answer: (nat, string) -> Option<string>, k: nat, code: string, prompt: string,
                           next: Option<string>, rest: Session, last: string)
    requires GaveUpOnAnswer(answer, k + 1, rest, last)
    requires GaveUpWith(rest, last) && |rest.prompts| == 0 ==> next == Some(last)
    requires next.Some? ==> answer(k, prompt) == next
    ensures GaveUpOnAnswer(answer, k, Prepend(code, prompt, rest), last)
  {
    var s := Prepend(code, prompt, rest);
    if GaveUpWith(s, last) && |rest.prompts| > 0 {
      LastOfCons(prompt, rest.prompts);
      assert k + 1 + |rest.prompts| - 1 == k + |s.prompts| - 1;
    }
  }

  /**
   A failed attempt that the model answers with content sends the repair prompt for that
   failure and is followed by the attempt on the trimmed content of the answer.
   */
  lemma FailingStep(env: Env, keywords: string, lang: Language, max: nat, code: string, k: nat)
      returns (prompt: string, next: string)
    requires k < max
    requires Run(env, lang, k, code).Resolved? && !Run(env, lang, k, code).value.success
    requires BuiltinConfig(env.Selected()).Some?
    requires forall q: Request :: env.oracle(k, q).Content?
    ensures prompt == FeedbackPrompt(keywords, lang.Tag(), code, Run(env, lang, k, code).value.message)
    ensures AnsweredWith(env, k, prompt, next)
    ensures Loop(env, keywords, lang, max, Some(code), k)
            == Prepend(code, prompt, Loop(env, keywords, lang, max, Some(next), k + 1))
  {
    prompt, next := FailedRunRetries(env, keywords, lang, code, k);
  }

  /** A custom model gets no repair request: the loop rejects at the first failure. */
  lemma CustomModelRejects(env: Env, keywords: string, lang: Language, max: nat, code: string, k: nat, message: string)
    requires k < max
    requires BuiltinConfig(env.Selected()).None?
    requires FailedWith(env, lang, k, code, message)
    ensures Loop(env, keywords, lang, max, Some(code), k) == Session(Rejected, [code], [])
  {
  }

  /** `retryWithFeedback(userKeywords, code, lang, maxAttempts)`. */
  method RetryWithFeedback(env: Env, keywords: string, code: string, lang: Language, max: nat)
    returns (r: Outcome<Option<Feedback>>)
    ensures r == Loop(env, keywords, lang, max, Some(code), 0).result
  {
    var attempt: nat := 0;
    var current: Option<string> := Some(code);
    while attempt < max
      invariant attempt <= max
      invariant Loop(env, keywords, lang, max, current, attempt).result
                == Loop(env, keywords, lang, max, Some(code), 0).result
      decreases max - attempt
    {
      if current.None? {
        return Rejected;
      }
      var c := current.value;
      var result := Run(env, lang, attempt, c);
      if result.Rejected? {
        return Rejected;
      }
      if result.value.success {
        return Resolved(Some(Passed(c, result.value.message)));
      }
      var prompt := FeedbackPrompt(keywords, lang.Tag(), c, result.value.message);
      if BuiltinConfig(env.Selected()).None? {
        return Rejected;
      }
      var config := GetModelConfig(env.Selected(), env.customs);
      if config.None? {
        return Resolved(None);
      }
      var reply := env.oracle(attempt, Request(config.value.model, SystemRole, prompt, MaxTokens));
      if reply.Failure? {
        return Rejected;
      }
      current := if reply.Content? then Some(Trim(reply.text)) else None;
      attempt := attempt + 1;
    }
    return Resolved(Some(GaveUp(current)));
  }

  /** Which of the loop and the timer settles first. */
  datatype Race = LoopFirst | TimerFirst

  /**
   `retryWithTimeoutAndFeedback`: when the timer wins, the result is a failure that keeps the
   original code; otherwise it is whatever the loop gave, a rejection included.
   */
  function RetryWithTimeout(env: Env, keywords: string, code: string, lang: Language, race: Race)
    : (r: Outcome<Option<Feedback>>)
    ensures race == TimerFirst ==> r == Resolved(Some(GaveUp(Some(code))))
    ensures race == LoopFirst ==> r == Loop(env, keywords, lang, MaxAttempts, Some(code), 0).result
  {
    match race
    case TimerFirst => Resolved(Some(GaveUp(Some(code))))
    case LoopFirst => Loop(env, keywords, lang, MaxAttempts, Some(code), 0).result
  }

  /**
   `handleGeneratedCode`: the language is detected, the loop is raced against the timer, and
   the code that passed replaces the generated code; a loop that gives up leaves it as it was.
   */
  function HandleGeneratedCode(env: Env, keywords: string, generatedCode: string, languageId: string, race: Race)
    : (r: Outcome<string>)
  {
    HandleIn(env, keywords, generatedCode, DetectLanguage(generatedCode, languageId), race)
  }

  /**
   The handling after the language is known. Reading `success` of the `undefined` the loop
   can return would throw.
   */
  function HandleIn(env: Env, keywords: string, generatedCode: string, lang: Language, race: Race)
    : (r: Outcome<string>)
  {
    match RetryWithTimeout(env, keywords, generatedCode, lang, race)
    case Rejected => Rejected
    case Resolved(None) => Rejected
    case Resolved(Some(Passed(c, _))) => Resolved(c)
    case Resolved(Some(GaveUp(_))) => Resolved(generatedCode)
  }

  /** Some attempt ran `code` and it passed. */
  ghost predicate PassedSomeRun(env: Env, lang: Language, code: string) {
    exists k: nat, output: string :: k < MaxAttempts && Run(env, lang, k, code) == Resolved(RunResult(true, output))
  }

  /**
   What handling keeps after session `s` of the loop on `generated`: the generated code when the
   session gave up; when it passed, its last run, attempt `|s.runs| - 1`, which succeeded.
   */
  predicate KeptAfter(env: Env, lang: Language, generated: string, s: Session, kept: string) {
    && (s.result.Resolved? && s.result.value.Some? && s.result.value.value.GaveUp? ==> kept == generated)
    && (s.result.Resolved? && s.result.value.Some? && s.result.value.value.Passed? ==>
          && |s.runs| > 0 && kept == s.runs[|s.runs| - 1]
          && Run(env, lang, |s.runs| - 1, kept).Resolved? && Run(env, lang, |s.runs| - 1, kept).value.success)
  }

  /**
   The code kept is the generated code or a code that passed its run; when the timer wins it is
   the generated code; when the loop wins, it is the generated code after a session that gave
   up and the code of the last run, which passed, after a session that passed.
   */
  lemma HandleKeepsPassingCode(env: Env, keywords: string, generatedCode: string, lang: Language, race: Race)
    requires HandleIn(env, keywords, generatedCode, lang, race).Resolved?
    ensures var kept := HandleIn(env, keywords, generatedCode, lang, race).value;
            kept == generatedCode || PassedSomeRun(env, lang, kept)
    ensures race == TimerFirst ==> HandleIn(env, keywords, generatedCode, lang, race) == Resolved(generatedCode)
    ensures race == LoopFirst ==>
              KeptAfter(env, lang, generatedCode, Loop(env, keywords, lang, MaxAttempts, Some(generatedCode), 0),
                        HandleIn(env, keywords, generatedCode, lang, race).value)
  {
    if race == LoopFirst {
      var s := Loop(env, keywords, lang, MaxAttempts, Some(generatedCode), 0);
      PassedIsLastRun(env, keywords, lang, MaxAttempts, Some(generatedCode), 0);
      if s.result.Resolved? && s.result.value.Some? && s.result.value.value.Passed? {
        PassedCodeRan(env, lang, s);
      }
    }
  }

  /** The code a session of at most `MaxAttempts` runs ends with, when it passes, passed one of them. */
  lemma PassedCodeRan(env: Env, lang: Language, s: Session)
    requires EndsWithPass(env, lang, 0, s) && |s.runs| <= MaxAttempts
    requires s.result.Resolved? && s.result.value.Some? && s.result.value.value.Passed?
    ensures PassedSomeRun(env, lang, s.result.value.value.code)
  {
    var f := s.result.value.value;
    var k: nat := |s.runs| - 1;
    assert k < MaxAttempts && Run(env, lang, k, f.code) == Resolved(RunResult(true, f.output));
  }

  /**
   In the extension, a language outside the four (an editor id such as `plaintext`, or
   `unknown` for a reply without markers) rejects at the first run, before any process starts,
   so handling rejects when the loop wins the race.
   */
  lemma UnsupportedLanguageRejects(env: Env, parse: string -> Parse, exec: (nat, string, string) -> ExecReport,
                                   base: string, keywords: string, generatedCode: string, languageId: string)
    requires env == ExtensionEnv(parse, exec, base, env.oracle, env.setting, env.customs)
    requires DetectLanguage(generatedCode, languageId).Other?
    ensures Loop(env, keywords, DetectLanguage(generatedCode, languageId), MaxAttempts, Some(generatedCode), 0)
            == Session(Rejected, [generatedCode], [])
    ensures HandleGeneratedCode(env, keywords, generatedCode, languageId, LoopFirst) == Rejected
  {
    var lang := DetectLanguage(generatedCode, languageId);
    assert Run(env, lang, 0, generatedCode) == Rejected;
  }

  /** Handling rejects exactly when the loop wins the race and rejects. */
  lemma HandleRejectsOnlyWithLoop(env: Env, keywords: string, generatedCode: string, lang: Language, race: Race)
    ensures HandleIn(env, keywords, generatedCode, lang, race).Rejected? <==>
            race == LoopFirst && Loop(env, keywords, lang, MaxAttempts, Some(generatedCode), 0).result.Rejected?
  {
    NeverUndefined(env, keywords, lang, MaxAttempts, Some(generatedCode), 0);
  }
}

=== FILE: sanitize.dfy ===
/**
 The Source Sanitizer, `stripMarkdown`: it removes the colons a chat reply puts at the start of
 lines, removes the code fences, and trims what is left.
 */
module Sanitize {
  import opened Text

  /** The ASCII colon and the full-width colon U+FF1A. */
  predicate IsColon(c: char) {
    c == ':' || c == '\U{FF1A}'
  }

  /** `s` with every colon removed: the part of a text that dropping colons cannot change. */
  function WithoutColons(s: string): string {
    if s == [] then [] else (if IsColon(s[0]) then [] else [s[0]]) + WithoutColons(s[1..])
  }

  /** No line of `s` starts with a colon (`lineStart` says whether `s` itself starts a line). */
  predicate NoLeadingColon(s: string, lineStart: bool) {
    && (lineStart && |s| > 0 ==> !IsColon(s[0]))
    && forall i | 0 < i < |s| :: IsLineTerminator(s[i - 1]) ==> !IsColon(s[i])
  }

  /**
   `replace(/^[：:]+/gm, '')`: under the `m` flag `^` matches at the start of the text and after
   every line terminator, and there the whole run of colons is removed. `lineStart` holds while
   the scan is at a line start or inside the colon run that begins one.
   */
  function DropLeadingColons(s: string, lineStart: bool): (r: string)
    ensures NoLeadingColon(r, lineStart)
    ensures WithoutColons(r) == WithoutColons(s)
  {
    if s == [] then []
    else if lineStart && IsColon(s[0]) then DropLeadingColons(s[1..], true)
    else [s[0]] + DropLeadingColons(s[1..], IsLineTerminator(s[0]))
  }

  /** A text none of whose lines starts with a colon passes the colon step unchanged. */
  lemma {:induction false} DropLeadingColonsKeepsClean(s: string, lineStart: bool)
    requires NoLeadingColon(s, lineStart)
    ensures DropLeadingColons(s, lineStart) == s
    decreases |s|
  {
    if s != [] {
      var t := s[1..];
      assert NoLeadingColon(t, IsLineTerminator(s[0])) by {
        assert forall i | 0 < i < |t| :: t[i - 1] == s[i] && t[i] == s[i + 1];
      }
      DropLeadingColonsKeepsClean(t, IsLineTerminator(s[0]));
    }
  }

  /** Whether the scan is at a line start once it has passed `a`, having started in `lineStart`. */
  function StateAfter(a: string, lineStart: bool): bool {
    if a == [] then lineStart else IsLineTerminator(a[|a| - 1])
  }

  /**
   A stretch none of whose lines starts with a colon is copied as it is, and the scan goes on
   after it: colons inside a line are never removed.
   */
  lemma {:induction false} PlainPrefixKept(a: string, b: string, lineStart: bool)
    requires NoLeadingColon(a, lineStart)
    ensures DropLeadingColons(a + b, lineStart) == a + DropLeadingColons(b, StateAfter(a, lineStart))
    decreases |a|
  {
    if a == [] {
      assert a + b == b;
    } else {
      CleanTail(a, lineStart);
      PlainPrefixKept(a[1..], b, IsLineTerminator(a[0]));
      PlainPrefixStep(a, b, lineStart);
    }
  }

  lemma PlainPrefixStep(a: string, b: string, lineStart: bool)
    requires a != [] && !(lineStart && IsColon(a[0]))
    requires DropLeadingColons(a[1..] + b, IsLineTerminator(a[0]))
             == a[1..] + DropLeadingColons(b, StateAfter(a[1..], IsLineTerminator(a[0])))
    ensures DropLeadingColons(a + b, lineStart) == a + DropLeadingColons(b, StateAfter(a, lineStart))
  {
    var t, rest := a[1..], DropLeadingColons(b, StateAfter(a, lineStart));
    var x, y := DropLeadingColons(a + b, lineStart), DropLeadingColons(t + b, IsLineTerminator(a[0]));
    KeepStep(a, b, lineStart);
    assert y == t + rest by {
      assert StateAfter(t, IsLineTerminator(a[0])) == StateAfter(a, lineStart);
    }
    ConsAppend(a, x, y, rest);
  }

  lemma ConsAppend(a: string, x: string, y: string, r: string)
    requires a != [] && x == [a[0]] + y && y == a[1..] + r
    ensures x == a + r
  {
    assert a == [a[0]] + a[1..];
  }

  lemma CleanTail(a: string, lineStart: bool)
    requires a != [] && NoLeadingColon(a, lineStart)
    ensures !(lineStart && IsColon(a[0])) && NoLeadingColon(a[1..], IsLineTerminator(a[0]))
  {
    var t := a[1..];
    assert forall i | 0 < i < |t| :: t[i - 1] == a[i] && t[i] == a[i + 1];
  }

  /** A character that is not a colon at a line start is copied. */
  lemma KeepStep(a: string, b: string, lineStart: bool)
    requires a != [] && !(lineStart && IsColon(a[0]))
    ensures DropLeadingColons(a + b, lineStart) == [a[0]] + DropLeadingColons(a[1..] + b, IsLineTerminator(a[0]))
  {
    var s := a + b;
    assert s[0] == a[0];
    assert s[1..] == a[1..] + b;
  }

  /** At a line start the whole run of colons is removed. */
  lemma {:induction false} ColonRunDropped(c: string, s: string)
    requires forall k | 0 <= k < |c| :: IsColon(c[k])
    ensures DropLeadingColons(c + s, true) == DropLeadingColons(s, true)
    decreases |c|
  {
    if c == [] {
      assert c + s == s;
    } else {
      assert (c + s)[0] == c[0] && (c + s)[1..] == c[1..] + s;
      ColonRunDropped(c[1..], s);
    }
  }

  /** A line that starts with a run of colons loses that run and keeps the rest, colons included. */
  lemma LineColonsDropped(c: string, w: string)
    requires forall k | 0 <= k < |c| :: IsColon(c[k])
    requires |w| > 0 ==> !IsColon(w[0])
    requires forall k | 0 <= k < |w| :: !IsLineTerminator(w[k])
    ensures DropLeadingColons(c + w, true) == w
  {
    ColonRunDropped(c, w);
    PlainPrefixKept(w, [], true);
    assert w + [] == w;
  }

  /** Only the colon that starts the line goes: `:a:b` becomes `a:b`. */
  lemma InnerColonKept()
    ensures DropLeadingColons(":a:b", true) == "a:b"
  {
    assert ":a:b" == ":" + "a:b";
    LineColonsDropped(":", "a:b");
  }

  /** The end of the run of ASCII letters starting at `i`. */
  function LetterRun(s: string, i: nat): (j: nat)
    requires i <= |s|
    ensures i <= j <= |s|
    ensures forall k | i <= k < j :: IsLetter(s[k])
    decreases |s| - i
  {
    if i < |s| && IsLetter(s[i]) then LetterRun(s, i + 1) else i
  }

  /** `s` holds no three consecutive backticks. */
  predicate NoFence(s: string) {
    forall i | 0 <= i < |s| - 2 :: !(s[i] == '`' && s[i + 1] == '`' && s[i + 2] == '`')
  }

  lemma NoFenceNotContains(s: string)
    requires NoFence(s)
    ensures !Contains(s, "```")
  {
    forall i | 0 <= i <= |s| ensures !At(s, i, "```") {
      if i + 3 <= |s| {
        assert s[i..i + 3] == [s[i], s[i + 1], s[i + 2]];
      }
    }
  }

  /**
   `replace(/```[a-zA-Z]*\n?|```/g, '')`: every three backticks are removed together with the
   letters of a language tag right after them and one newline after those.
   */
  function DropFences(s: string): (r: string)
    ensures |r| <= |s|
    ensures |s| < 3 ==> r == s
    ensures |s| > 0 && s[0] != '`' ==> |r| > 0 && r[0] == s[0]
    ensures |s| > 1 && s[0] == '`' && s[1] != '`' ==> |r| > 1 && r[..2] == s[..2]
    ensures NoFence(r)
    decreases |s|
  {
    if At(s, 0, "```") then
      var j := LetterRun(s, 3);
      var e := if j < |s| && s[j] == '\n' then j + 1 else j;
      DropFences(s[e..])
    else if s == [] then []
    else
      var t := DropFences(s[1..]);
      var r := [s[0]] + t;
      assert forall i | 1 <= i < |r| :: r[i] == t[i - 1];
      r
  }

  /** Text without backticks in front of the rest is copied through the fence step. */
  lemma {:induction false} DropFencesSkipsPlainPrefix(a: string, b: string)
    requires '`' !in a
    ensures DropFences(a + b) == a + DropFences(b)
    decreases |a|
  {
    if a != [] {
      assert a[0] in a;
      FenceKeepStep(a, b);
      DropFencesSkipsPlainPrefix(a[1..], b);
      ConsAppend(a, DropFences(a + b), DropFences(a[1..] + b), DropFences(b));
    } else {
      assert a + b == b;
    }
  }

  /** A character that does not start three backticks is copied by the fence step. */
  lemma FenceKeepStep(a: string, b: string)
    requires a != [] && a[0] != '`'
    ensures DropFences(a + b) == [a[0]] + DropFences(a[1..] + b)
  {
    var s := a + b;
    assert |s| >= 3 ==> s[0..3][0] == a[0];
    assert !At(s, 0, "```");
    assert s[1..] == a[1..] + b;
  }

  /** `stripMarkdown` (the colon step, the fence step, then `trim`). */
  function StripMarkdown(code: string): (r: string)
    ensures r == [] || (!IsSpace(r[0]) && !IsSpace(r[|r| - 1]))
    ensures !Contains(r, "```")
  {
    var unfenced := DropFences(DropLeadingColons(code, true));
    TrimKeepsNoFence(unfenced);
    NoFenceNotContains(Trim(unfenced));
    Trim(unfenced)
  }

  lemma TrimKeepsNoFence(u: string)
    requires NoFence(u)
    ensures NoFence(Trim(u))
  {
    var a := TrimIsSlice(u);
    NoFenceSlice(u, a, a + |Trim(u)|);
  }

  /** A slice of text without a fence has none either. */
  lemma NoFenceSlice(u: string, a: nat, b: nat)
    requires a <= b <= |u|
    requires NoFence(u)
    ensures NoFence(u[a..b])
  {
    var r := u[a..b];
    forall i | 0 <= i < |r| - 2 ensures !(r[i] == '`' && r[i + 1] == '`' && r[i + 2] == '`') {
      assert r[i] == u[a + i] && r[i + 1] == u[a + i + 1] && r[i + 2] == u[a + i + 2];
    }
  }

  /** A reply that is one fenced block gives back its trimmed body. */
  lemma FencedReplyGivesBody(tag: string, body: string)
    requires forall k | 0 <= k < |tag| :: IsLetter(tag[k])
    requires '`' !in body
    requires NoLeadingColon(body, true)
    ensures StripMarkdown("```" + tag + "\n" + body + "\n```") == Trim(body)
  {
    var s := "```" + tag + "\n" + body + "\n```";
    FencedReplyHasNoLeadingColon(tag, body);
    DropLeadingColonsKeepsClean(s, true);
    assert DropFences(s) == body + "\n" by {
      FencedReplyFenceStep(tag, body);
    }
    TrimDropsTrailingSpace(body, "\n");
  }

  lemma FencedReplyHasNoLeadingColon(tag: string, body: string)
    requires forall k | 0 <= k < |tag| :: IsLetter(tag[k])
    requires NoLeadingColon(body, true)
    ensures NoLeadingColon("```" + tag + "\n" + body + "\n```", true)
  {
    var s := "```" + tag + "\n" + body + "\n```";
    var n := 4 + |tag|;
    assert forall j | 0 <= j < n - 1 :: s[j] == ("```" + tag)[j];
    assert forall j | n <= j < n + |body| :: s[j] == body[j - n];
    assert forall i | n + |body| <= i < |s| :: s[i] == "\n```"[i - n - |body|];
  }

  lemma FencedReplyFenceStep(tag: string, body: string)
    requires forall k | 0 <= k < |tag| :: IsLetter(tag[k])
    requires '`' !in body
    ensures DropFences("```" + tag + "\n" + body + "\n```") == body + "\n"
  {
    var rest := (body + "\n") + "```";
    assert "```" + tag + "\n" + body + "\n```" == "```" + tag + "\n" + rest;
    OpeningFenceDropped(tag, rest);
    DropFencesSkipsPlainPrefix(body + "\n", "```");
    ClosingFenceDropped();
  }

  /** An opening fence with its language tag and line break is dropped. */
  lemma OpeningFenceDropped(tag: string, rest: string)
    requires forall k | 0 <= k < |tag| :: IsLetter(tag[k])
    ensures DropFences("```" + tag + "\n" + rest) == DropFences(rest)
  {
    var s := "```" + tag + "\n" + rest;
    assert s[3..3 + |tag|] == tag;
    LetterRunAcross(s, 3, |tag|);
    assert s[4 + |tag|..] == rest;
    assert At(s, 0, "```");
  }

  /** A closing fence alone is dropped. */
  lemma ClosingFenceDropped()
    ensures DropFences("```") == ""
  {
    assert At("```", 0, "```");
    assert LetterRun("```", 3) == 3;
  }

  lemma {:induction false} LetterRunAcross(s: string, i: nat, n: nat)
    requires i + n < |s|
    requires forall k | i <= k < i + n :: IsLetter(s[k])
    requires !IsLetter(s[i + n])
    ensures LetterRun(s, i) == i + n
    decreases n
  {
    if n > 0 {
      LetterRunAcross(s, i + 1, n - 1);
    }
  }

  /** Trimmed code with no backticks and no line starting with a colon comes back unchanged. */
  lemma CleanCodeUnchanged(code: string)
    requires '`' !in code
    requires NoLeadingColon(code, true)
    requires code == [] || (!IsSpace(code[0]) && !IsSpace(code[|code| - 1]))
    ensures StripMarkdown(code) == code
  {
    DropLeadingColonsKeepsClean(code, true);
    DropFencesSkipsPlainPrefix(code, "");
    assert code + "" == code;
  }

  /** `stripMarkdown` is not idempotent: a colon behind leading whitespace survives one pass only. */
  lemma StripMarkdownNotIdempotent()
    ensures StripMarkdown(" :x") == ":x"
    ensures StripMarkdown(StripMarkdown(" :x")) == "x"
  {
    FirstPass();
    SecondPass();
  }

  lemma FirstPass()
    ensures StripMarkdown(" :x") == ":x"
  {
    FirstPassColons();
    FirstPassFences();
    FirstPassTrim();
  }

  lemma FirstPassColons()
    ensures DropLeadingColons(" :x", true) == " :x"
  {
    assert DropLeadingColons("x", false) == "x";
    assert DropLeadingColons(":x", false) == ":x";
  }

  lemma FirstPassFences()
    ensures DropFences(" :x") == " :x"
  {
  }

  lemma FirstPassTrim()
    ensures Trim(" :x") == ":x"
  {
    TrimUnique(" :x", 1, 3);
  }

  lemma SecondPass()
    ensures StripMarkdown(":x") == "x"
  {
    assert DropLeadingColons("x", false) == "x";
    assert DropLeadingColons(":x", true) == "x";
    assert DropFences("x") == "x";
    assert Trim("x") == "x";
  }
}

=== FILE: text.dfy ===
/** The Option datatype used wherever the harness reads a value that may be missing. */
module Wrappers {

  datatype Option<+T> = None | Some(value: T) {

    /** The value, or `default` when there is none (JavaScript's `x ?? default`). */
    function GetOr(default: T): T {
      match this
      case Some(v) => v
      case None => default
    }
  }
}

/**
 Characters and strings with the meaning JavaScript gives them: the `\s`, `\w`, `\d` and `.`
 classes of its regular expressions, `String.prototype.trim`, `toLowerCase` on the ASCII
 letters, and `Array.prototype.join`.
 */
module Text {

  /** The characters `.` refuses to match and after which `^` matches under the `m` flag. */
  predicate IsLineTerminator(c: char) {
    c == '\n' || c == '\r' || c == '\U{2028}' || c == '\U{2029}'
  }

  /** JavaScript's `\s`: WhiteSpace and LineTerminator, exactly what `trim` removes. */
  predicate IsSpace(c: char) {
    || c == '\t' || c == '\n' || c == '\U{000B}' || c == '\U{000C}' || c == '\r' || c == ' '
    || c == '\U{00A0}' || c == '\U{1680}' || ('\U{2000}' <= c <= '\U{200A}')
    || c == '\U{2028}' || c == '\U{2029}' || c == '\U{202F}' || c == '\U{205F}'
    || c == '\U{3000}' || c == '\U{FEFF}'
  }

  predicate IsDigit(c: char) {
    '0' <= c <= '9'
  }

  predicate IsUpper(c: char) {
    'A' <= c <= 'Z'
  }

  predicate IsLetter(c: char) {
    'a' <= c <= 'z' || IsUpper(c)
  }

  /** JavaScript's `\w`. */
  predicate IsWordChar(c: char) {
    IsLetter(c) || IsDigit(c) || c == '_'
  }

  function LowerChar(c: char): char {
    if IsUpper(c) then (c as int + 32) as char else c
  }

  /** `toLowerCase` restricted to the ASCII letters. */
  function Lower(s: string): (r: string)
    ensures |r| == |s|
  {
    seq(|s|, i requires 0 <= i < |s| => LowerChar(s[i]))
  }

  /** Lowering leaves a text without upper-case letters unchanged. */
  lemma LowerNoUpper(s: string)
    requires forall k | 0 <= k < |s| :: !IsUpper(s[k])
    ensures Lower(s) == s
  {
  }

  /** Every character of `s[i..j]` is whitespace. */
  predicate SpacesIn(s: string, i: int, j: int) {
    forall k | i <= k < j && 0 <= k < |s| :: IsSpace(s[k])
  }

  predicate AllSpace(s: string) {
    SpacesIn(s, 0, |s|)
  }

  predicate NoSpace(s: string) {
    forall k | 0 <= k < |s| :: !IsSpace(s[k])
  }

  lemma NoSpaceConcat(a: string, b: string)
    requires NoSpace(a) && NoSpace(b)
    ensures NoSpace(a + b)
  {
    assert forall k | |a| <= k < |a + b| :: (a + b)[k] == b[k - |a|];
  }

  /** `p` occurs in `s` at offset `i`. */
  predicate At(s: string, i: nat, p: string) {
    i + |p| <= |s| && s[i..i + |p|] == p
  }

  /** `p` (written in lower case) occurs in `s` at offset `i` ignoring ASCII case: the `i` flag. */
  predicate AtCi(s: string, i: nat, p: string) {
    i + |p| <= |s| && Lower(s[i..i + |p|]) == p
  }

  predicate Contains(s: string, p: string) {
    exists i | 0 <= i <= |s| :: At(s, i, p)
  }

  predicate ContainsCi(s: string, p: string) {
    exists i | 0 <= i <= |s| :: AtCi(s, i, p)
  }

  predicate StartsWith(s: string, p: string) {
    |p| <= |s| && s[..|p|] == p
  }

  predicate EndsWith(s: string, p: string) {
    |p| <= |s| && s[|s| - |p|..] == p
  }

  lemma AtCiPrefix(s: string, i: nat, p: string, q: string)
    requires AtCi(s, i, p + q)
    ensures AtCi(s, i, p)
  {
    var w := s[i..i + |p| + |q|];
    assert s[i..i + |p|] == w[..|p|];
    assert Lower(w)[..|p|] == (p + q)[..|p|] == p;
    assert Lower(w[..|p|]) == Lower(w)[..|p|];
  }

  /** Text containing `p` keeps containing it with anything around it. */
  lemma ContainsAround(x: string, m: string, y: string, p: string)
    requires Contains(m, p)
    ensures Contains(x + m + y, p)
  {
    var i :| 0 <= i <= |m| && At(m, i, p);
    var s := x + m + y;
    assert s[|x| + i..|x| + i + |p|] == m[i..i + |p|];
    assert At(s, |x| + i, p);
  }

  /** A text contains its own end. */
  lemma ContainsEnd(head: string, p: string)
    ensures Contains(head + p, p)
  {
    var s := head + p;
    assert s[|head|..|head| + |p|] == p;
    assert At(s, |head|, p);
  }

  /** What a text contains, it still contains with more after it. */
  lemma ContainsExtend(s: string, t: string, p: string)
    ensures Contains(s, p) ==> Contains(s + t, p)
  {
    if Contains(s, p) {
      var i :| 0 <= i <= |s| && At(s, i, p);
      assert (s + t)[i..i + |p|] == s[i..i + |p|];
      assert At(s + t, i, p);
    }
  }

  /** A text is its three slices cut at `a` and `b`, put back together. */
  lemma SplitThree(s: string, a: nat, b: nat)
    requires a <= b <= |s|
    ensures s == s[0..a] + s[a..b] + s[b..|s|]
  {
    assert s[0..a] + s[a..b] == s[0..b];
  }

  /** A non-empty list is its head before its tail. */
  lemma HeadTail<T>(xs: seq<T>)
    requires xs != []
    ensures [xs[0]] + xs[1..] == xs
  {
  }

  /** A suffix is its first character before the suffix after it. */
  lemma SliceHead(s: string, i: nat)
    requires i < |s|
    ensures s[i..] == [s[i]] + s[i + 1..]
  {
  }

  /** A slice up to the length is the suffix. */
  lemma SliceToEnd(s: string, i: nat, n: nat)
    requires i <= n == |s|
    ensures s[i..n] == s[i..]
  {
  }

  /** The three parts of a concatenation sit where their lengths put them. */
  lemma PartsOfJoin<T>(a: seq<T>, b: seq<T>, c: seq<T>, w: seq<T>)
    requires w == a + b + c
    ensures w[|a|..|a| + |b|] == b && w[|a| + |b|..] == c
  {
  }

  /** A slice of a slice is a slice of the whole. */
  lemma SliceOfSlice<T>(s: seq<T>, i: nat, j: nat, a: nat, b: nat)
    requires i <= j <= |s| && a <= b <= j - i
    ensures s[i..j][a..b] == s[i + a..i + b]
  {
    var t := s[i..j];
    forall k | 0 <= k < b - a
      ensures t[a..b][k] == s[i + a..i + b][k]
    {
      assert t[a..b][k] == t[a + k] == s[i + a + k];
    }
  }

  /** `p` occurs at `i` ignoring case when each character lowers to the one of `p`. */
  lemma AtCiChars(s: string, i: nat, p: string)
    requires i + |p| <= |s| && forall q | 0 <= q < |p| :: LowerChar(s[i + q]) == p[q]
    ensures AtCi(s, i, p)
  {
    var l := Lower(s[i..i + |p|]);
    assert forall q | 0 <= q < |p| :: l[q] == LowerChar(s[i + q]);
  }

  /** One character that differs from the pattern, even ignoring case, rules out a match at `i`. */
  lemma NotAtCi(s: string, i: nat, p: string, j: nat)
    requires j < |p|
    requires i + |p| <= |s| ==> LowerChar(s[i + j]) != p[j]
    ensures !AtCi(s, i, p)
  {
    if i + |p| <= |s| {
      assert Lower(s[i..i + |p|])[j] == LowerChar(s[i + j]);
    }
  }

  /** The end of the run of `\s` characters that starts at `i`. */
  function SkipSpaces(s: string, i: nat): (j: nat)
    requires i <= |s|
    ensures i <= j <= |s|
    ensures forall k | i <= k < j :: IsSpace(s[k])
    ensures j == |s| || !IsSpace(s[j])
    ensures j > i ==> IsSpace(s[j - 1])
    decreases |s| - i
  {
    if i < |s| && IsSpace(s[i]) then SkipSpaces(s, i + 1) else i
  }

  /** The start of the run of `\s` characters that ends `s[..j]`. */
  function BackSpaces(s: string, j: nat): (i: nat)
    requires j <= |s|
    ensures i <= j
    ensures forall k | i <= k < j :: IsSpace(s[k])
    ensures i == 0 || !IsSpace(s[i - 1])
  {
    if j > 0 && IsSpace(s[j - 1]) then BackSpaces(s, j - 1) else j
  }

  /** `String.prototype.trim`. */
  function Trim(s: string): (r: string)
    ensures |r| <= |s|
    ensures r == [] || (!IsSpace(r[0]) && !IsSpace(r[|r| - 1]))
    ensures (s == [] || (!IsSpace(s[0]) && !IsSpace(s[|s| - 1]))) ==> r == s
    ensures |s| > 0 && !IsSpace(s[0]) ==> |r| > 0 && r[0] == s[0]
  {
    var a := SkipSpaces(s, 0);
    var b := BackSpaces(s, |s|);
    if a == |s| then
      assert s[0..0] == [] && SpacesIn(s, 0, 0) && SpacesIn(s, 0, |s|);
      []
    else
      var r := s[a..b];
      assert s[a..a + |r|] == r && a + |r| == b;
      assert SpacesIn(s, 0, a) && SpacesIn(s, b, |s|);
      r
  }

  /** `trim` returns the one slice of `s` that has only whitespace around it and none at its ends. */
  lemma TrimUnique(s: string, a: nat, b: nat)
    requires a < b <= |s|
    requires !IsSpace(s[a]) && !IsSpace(s[b - 1])
    requires SpacesIn(s, 0, a) && SpacesIn(s, b, |s|)
    ensures Trim(s) == s[a..b]
  {
  }

  /** Where the result of `trim` stands in the text. */
  lemma TrimIsSlice(s: string) returns (a: nat)
    ensures a + |Trim(s)| <= |s| && s[a..a + |Trim(s)|] == Trim(s)
  {
    var b;
    a, b := TrimBounds(s);
  }

  lemma TrimAllSpace(s: string)
    requires AllSpace(s)
    ensures Trim(s) == []
  {
  }

  /** Trailing whitespace never reaches the result of `trim`. */
  lemma TrimDropsTrailingSpace(x: string, w: string)
    requires AllSpace(w)
    ensures Trim(x + w) == Trim(x)
  {
    var a, b := TrimBounds(x);
    SpacesAppend(x, w, b);
    if a == b {
      SpacesJoin(x + w, 0, a, |x + w|);
      TrimAllSpace(x + w);
    } else {
      SliceOfPrefix(x, w, a, b);
      TrimUnique(x + w, a, b);
    }
  }

  /** Where the result of `trim` stands, with only whitespace around it. */
  lemma TrimBounds(s: string) returns (a: nat, b: nat)
    ensures a <= b <= |s| && Trim(s) == s[a..b]
    ensures SpacesIn(s, 0, a) && SpacesIn(s, b, |s|)
    ensures a < b ==> !IsSpace(s[a]) && !IsSpace(s[b - 1])
  {
    a := SkipSpaces(s, 0);
    b := if a == |s| then a else BackSpaces(s, |s|);
  }

  lemma SpacesAppend(x: string, w: string, b: nat)
    requires b <= |x| && SpacesIn(x, b, |x|) && AllSpace(w)
    ensures SpacesIn(x + w, b, |x + w|)
  {
    forall k | b <= k < |x + w| ensures IsSpace((x + w)[k]) {
      if k < |x| {
        assert (x + w)[k] == x[k];
      } else {
        assert (x + w)[k] == w[k - |x|];
      }
    }
  }

  lemma SpacesJoin(s: string, i: nat, j: nat, k: nat)
    requires i <= j <= k <= |s| && SpacesIn(s, i, j) && SpacesIn(s, j, k)
    ensures SpacesIn(s, i, k)
  {
  }

  lemma SliceOfPrefix(x: string, w: string, a: nat, b: nat)
    requires a < b <= |x|
    ensures (x + w)[a..b] == x[a..b] && (x + w)[a] == x[a] && (x + w)[b - 1] == x[b - 1]
  {
  }

  /** `Array.prototype.join`. */
  function Join(xs: seq<string>, sep: string): string {
    if |xs| == 0 then ""
    else if |xs| == 1 then xs[0]
    else xs[0] + sep + Join(xs[1..], sep)
  }
}
